=== FILE: README.md ===
# Split-panel router coordination, modelled in Dafny

The application shows several panels side by side. Each panel runs its own TanStack router. One
host URL records where every panel stands, with one query key per panel: `?left=/categories&right=/posts`.
An absent key, or an `undefined` value, means the panel is closed. This project models the layer
that keeps the panel routers and the host URL in step. It is written as pure functions over immutable
data, and it proves what that layer promises.

The modelled pieces:

- **Panel values.**
  - `parsePanelValue` splits a panel value into path and query.
  - `buildPanelValue` appends a filtered query.
  - `resolvePath` substitutes `$name` tokens.
  - The type-level `ExtractPathParams` works out which params a path needs.
  - Modules: `PanelUtils`, `PanelUrl`, `PathParams`.
  - The encoders these rely on are written out concretely:
    - UTF-8 (`Utf8`);
    - ECMA-262 `encodeURIComponent`, plus the WHATWG URL Standard `application/x-www-form-urlencoded` serializer and parser (`UrlEncoding`);
    - `JSON.stringify` of a string record (`Json`).
- **One-shot router cells.** A closure or module cell creates a panel's router on first use and returns that same router forever after (`PanelRouter`, `LegacyRouters`). A router is an opaque handle. Its only observable is its location: either the entry it was seeded with, or the last place it was sent.
- **The coordination state machine** of `PanelSystemProvider` (`SystemProvider`, `CreatePanel`, `CreatePanelSystem`).
  - State: the host path and query, each panel's router cell, and the last value the layout effect saw per panel.
  - `getRouter`, `navigatePanel`, `closePanel`, `isPanelOpen` and `navigateMain` each read one render-time snapshot.
  - They move panel routers at once and hand the host router a navigation. The layout effect is the explicit step `Sync`.
- **Links.** `createPanelLink`, `createSystemLink`/`createMainLink`, and the older `components/ui/link.tsx` components. Each is a pair: the `href` it shows and the calls a plain click makes (`PanelLink`, `SystemLink`, `UiLink`).
- **The older two-panel shell** `routes/components/PanelShell.tsx` (`PanelShell`). It speaks the same protocol, hard-wired to `left` and `right`.
- **Breadcrumbs** (`Breadcrumbs`): prefix patterns, route lookup, lenient `$word` substitution and the render guards.
- **Search validators and predicates**:
  - the root routes' `validateSearch`, `isPanelMode` and the sidebar's active rule (`RootRoute`);
  - the view-key router and its `PanelNav` (`ViewRouter`).

Every operation is paired with an independent statement of what it should do: an inverse, an
invariant, or a reference definition. A lemma, or the operation's own contract, links the two:

- **Codec round trips**: `BuildThenParse`, `ParseSerialize`, `DecodeEncode`.
- **Consistency invariant.** `Sync` restores consistency from any recoverable state (`SyncRestores`), and every single operation keeps the state recoverable (`PerformRecoverable`).
- **Params**: the params a link's type demands are exactly those `resolvePath` looks up (`ReferencedIsExtracted`).
- **Path templating.** `$`-free text is copied (`LiteralPrefixCopied`) and each `$name` becomes `encodeURIComponent(params[name])` (`NameSubstituted`).
- **Click sequences.** The multi-panel link's click makes, name by name, the calls a per-name reference gives, up to the first target that fails (`ClickLoop`, `SystemClick`).
- **Agreement between copies.** The copies of one rule agree: the legacy codec and the panel-system codec, and the root route's validation and the panel system's.

Behaviour worth knowing, as the code has it:

- An empty panel value counts as an open panel, but the sync step never moves its router for it (`CreatePanelSystem.EmptyValueIsOpen`). A direct `navigatePanel(name, '')` still moves the router at once.
- The legacy shell hands the whole value to its router as the path, query included (`PanelShell.WholeValueAsPath`).
- `LinkRightPanel`'s click forces the left panel open at `/` while its href keeps `left` as it is (`UiLink.RightClick`).
- `PanelNav`'s Back button needs a non-empty parent, so `/x` shows none (`ViewRouter.BackShownIff`).
- A `navigateTo` to something that is not a view key is reset by validation to the panel's default view (`ViewRouter.NavigateToValidated`).

## Model

| member | source | states |
|---|---|---|
| PanelUtils.ParsePanelValue | lib/panel-system/panel-utils.ts:7-17 | path followed by query string is the value; the path holds no `?`; the query string is empty or starts with `?`; no `?` gives an empty query string |
| PanelUtils.ParsePanelValueUnique | lib/panel-system/panel-utils.ts:11-16 | any split of the value into a `?`-free path and a query starting with `?` (or empty) is the one `parsePanelValue` returns |
| PanelUtils.ParseWithoutQuery | lib/panel-system/panel-utils.ts:12 | a value without `?` parses to itself and an empty query string |
| PanelUtils.NonEmptyValues | lib/panel-system/panel-utils.ts:24-26 | the filter keeps exactly the entries whose value is not `''`, and drops no key it keeps |
| PanelUtils.NonEmptyValuesAppend | lib/panel-system/panel-utils.ts:24-26 | the filter keeps order: filtering a concatenation concatenates the filtered parts |
| PanelUtils.BuildPanelValue | lib/panel-system/panel-utils.ts:19-30 | with no search, an empty one or only `''` values the result is the path; otherwise it is the path, `?` and the form-serialized non-empty entries |
| PanelUtils.BuildThenParse | lib/panel-system/panel-utils.ts:7-30 | for a `?`-free path, parsing the built value gives back the path, and its query parses back to exactly the non-empty entries |
| PanelUtils.BuiltQueryHasNoEmptyValue | lib/panel-system/panel-utils.ts:24-28 | no entry in a built value's query has an empty value |
| PanelUtils.ResolvePath | lib/panel-system/panel-utils.ts:34-38 | without params, or without any `$`, the path is returned unchanged |
| PanelUtils.LiteralPrefixCopied | lib/panel-system/panel-utils.ts:39 | text without `$` is copied unchanged ahead of what the rest resolves to |
| PanelUtils.NameSubstituted | lib/panel-system/panel-utils.ts:39-46 | a `$name` that runs to a `/` or the end becomes `encodeURIComponent(params[name])` ahead of the rest, or throws the missing-param message when `name` is not a key |
| PanelUtils.ResolveCategoryExample | lib/panel-system/panel-utils.ts:34-48 | `resolvePath('/categories/$category', {category: 'a b'})` is `/categories/a%20b` |
| PanelUtils.NoDollarUnchanged | lib/panel-system/panel-utils.ts:39 | a path with no `$` is substituted to itself |
| PanelUtils.Substitute | lib/panel-system/panel-utils.ts:39-46 | the global `replace` of `\$([^/]+)`; SubstituteFails says when it succeeds, LiteralPrefixCopied and NameSubstituted say what each piece becomes |
| PanelUtils.SubstituteFails | lib/panel-system/panel-utils.ts:39-47 | substitution succeeds iff every referenced name has a param; on failure the error is the message for some missing referenced name |
| PanelUtils.ResolvePathSucceeds | lib/panel-system/panel-utils.ts:34-48 | with params, `resolvePath` succeeds iff every `$name` it references is a key; otherwise it throws the missing-param message for such a key |
| PanelUtils.MissingParamMessageNamesKey | lib/panel-system/panel-utils.ts:42-44 | the error message starts with `Missing param "<key>"` |
| PanelUtils.SubstituteBySegment | lib/panel-system/panel-utils.ts:39 | a name stops at `/`: substituting `a/b` is substituting `a`, then `/`, then `b` |
| PanelUtils.SubstituteAddsNoSlash | lib/panel-system/panel-utils.ts:46 | substitution introduces no `/`: a segment without `/` resolves to one without `/`, since `encodeURIComponent` escapes it |
| PanelUtils.TargetOf | lib/panel-system/panel-utils.ts:52-63 | the router is sent to the value's path, with the query's entries as its search exactly when the query string is non-empty |
| PanelUtils.PanelNavigateLands | lib/panel-system/panel-utils.ts:52-63 | after `panelNavigate` the handle stands at the value's target, and navigating to the same value again changes nothing |
| PanelUtils.PanelNavigate | lib/panel-system/panel-utils.ts:52-63 | `panelNavigate` keeps the router's tree and pending config; PanelNavigateLands says it lands at the value's target |
| PanelUtils.NavigateToBuiltValue | lib/panel-system/panel-utils.ts:19-63 | navigating to a built value lands on the path, with the non-empty search entries as search (none when all are empty) |
| PanelUtils.PendingFor | lib/panel-system/panel-utils.ts:80-82 | pending config (200 ms) is set iff a pending component is given |
| PanelUtils.CreatePanelRouterFactory | lib/panel-system/panel-utils.ts:67-73 | the factory starts with an empty cell, seeds with `/` by default, and carries the tree and pending config |
| PanelUtils.FactoryBuildsOnce | lib/panel-system/panel-utils.ts:71-86 | every call of a sequence returns the router seeded from the first call's `initialPath ?? '/'` |
| PanelRouter.Navigate | lib/panel-system/panel-utils.ts:57-62 | navigating keeps tree and pending config and sets the location to the target |
| PanelRouter.Call | lib/panel-system/panel-utils.ts:73-86 | a filled cell returns its router unchanged; an empty one creates a router seeded with `initialPath ?? fallback` and stores it |
| PanelRouter.FilledCellKeeps | lib/panel-system/panel-utils.ts:74-85 | once filled, a cell returns its router to every later call, whatever the argument, and never changes |
| PanelRouter.AtMostOneRouter | lib/panel-system/panel-utils.ts:71-86 | from an empty cell, a sequence of calls creates exactly one router, seeded by the first argument, and returns it to every call |
| PathParams.Extract | lib/panel-system/types.ts:6-11 | the extracted name set is empty iff the path has no `$` |
| PathParams.ReferencedIsExtracted | lib/panel-system/types.ts:6-11 | the names `resolvePath` looks up are exactly the type-level extracted names, less the empty name a `$` right before `/` or the end gives |
| PathParams.LinkPropsResolve | lib/panel-system/types.ts:46-56 | a link whose params satisfy `PanelLinkProps` never reaches the missing-param error |
| PathParams.ResolveNeedsReferenced | lib/panel-system/types.ts:13-16 | a successful resolution had a param for every non-empty extracted name |
| SystemProvider.GetRouter | lib/panel-system/system-provider.tsx:58-66 | `null` iff the name is unregistered; otherwise the panel's cell router, created from `search[name] \|\| defaultPath` when empty; no other cell changes |
| SystemProvider.Obtain | lib/panel-system/system-provider.tsx:60-63 | a filled cell is returned as is; an empty one is filled with a router seeded from the value or, if absent or empty, the default path |
| SystemProvider.SyncOne | lib/panel-system/system-provider.tsx:70-78 | the panel's router moves to the value iff it is non-empty and differs from the last one seen; the value, `undefined` included, becomes the last seen; other panels unchanged |
| SystemProvider.Sync | lib/panel-system/system-provider.tsx:69-79 | the layout effect keeps the registration well-formed and never touches the host path or query |
| SystemProvider.SyncAllEffect | lib/panel-system/system-provider.tsx:70-78 | after the loop every visited panel has its value recorded and, when non-empty, shown |
| SystemProvider.SyncAll | lib/panel-system/system-provider.tsx:70-78 | the effect's loop over the names leaves the registration, host path and query alone; SyncAllEffect says what it does to each panel |
| SystemProvider.SyncRestores | lib/panel-system/system-provider.tsx:69-79 | from any recoverable state, after the sync step every open panel with a non-empty value shows it and the whole query has been seen |
| SystemProvider.SyncIdempotent | lib/panel-system/system-provider.tsx:69-79 | running the sync step twice is running it once |
| SystemProvider.TracksSeenRecoverable | lib/panel-system/system-provider.tsx:71-78 | when panels show what the effect last saw, any host navigation (back, forward, typed URL) leaves a recoverable state |
| SystemProvider.PanelValue | lib/panel-system/system-provider.tsx:87 | without a search the value is `to`; for a `to` without `?` the value parses back to `to`, has a query exactly when some search value is non-empty, and that query parses to exactly the non-empty entries |
| SystemProvider.NextSearch | lib/panel-system/system-provider.tsx:93-100 | the next query has exactly the registered keys; the target gets the value and every other key its snapshot value |
| SystemProvider.NavigatePanel | lib/panel-system/system-provider.tsx:81-107 | a registered panel's router is moved to the value at once; an unregistered name moves nothing; the host is sent to `/` with the next query |
| SystemProvider.ClosePanel | lib/panel-system/system-provider.tsx:109-123 | the host is sent to `/` with exactly the registered keys, the named one `undefined` and every other as it is |
| SystemProvider.NavigateMain | lib/panel-system/system-provider.tsx:130-143 | the host path becomes `to` and every registered key `undefined` |
| SystemProvider.IsPanelOpen | lib/panel-system/system-provider.tsx:125-128 | a panel is open iff its value in the snapshot is not `undefined`, `''` included; UseNavDelegates and AnyOpenExists carry it to `useNav` and `isPanelMode` |
| SystemProvider.Apply | lib/panel-system/system-provider.tsx:101-104 | a host navigation replaces the path and the whole query and touches no router |
| SystemProvider.PerformAll | lib/panel-system/system-provider.tsx:93-104 | a handler's calls leave all but the router cells unchanged and yield one host navigation per call |
| SystemProvider.Perform | lib/panel-system/system-provider.tsx:145-154 | one call into the context (`navigatePanel`, `closePanel` or `navigateMain`) changes only router cells and yields the host navigation that call issues; PerformRecoverable shows each keeps the provider recoverable |
| SystemProvider.LastWriteWins | lib/panel-system/system-provider.tsx:93-104 | host navigations built from one snapshot and applied in order leave exactly what the last one wrote |
| SystemProvider.PerformRecoverable | lib/panel-system/system-provider.tsx:81-143 | each single call, applied, keeps the state recoverable |
| SystemProvider.NavigateRecoverable | lib/panel-system/system-provider.tsx:81-107 | `navigatePanel` applied keeps every panel recoverable |
| SystemProvider.CloseRecoverable | lib/panel-system/system-provider.tsx:109-123 | `closePanel` applied keeps every panel recoverable |
| SystemProvider.NavigateThenSync | lib/panel-system/system-provider.tsx:81-107 | after `navigatePanel` and the sync step the URL holds the value, the state is consistent, and a non-empty value is shown |
| SystemProvider.GetRouterRecoverable | lib/panel-system/system-provider.tsx:58-66 | creating a router while rendering keeps the state recoverable |
| SystemProvider.ReopenRenavigates | lib/panel-system/system-provider.tsx:71-78 | closing records `undefined` as last seen, so reopening at any non-empty value, even the old one, moves the router there |
| SystemProvider.Mount | lib/panel-system/system-provider.tsx:55 | the provider starts with nothing seen and is recoverable |
| CreatePanel.CreatePanel | lib/panel-system/create-panel.tsx:10-60 | the panel carries its name, tree and default path, and one empty router cell whose pending config is set iff a pending component is given |
| CreatePanel.Outlet | lib/panel-system/create-panel.tsx:17-35 | nothing without a provider or for an unregistered panel; otherwise the panel's router under an identity named for the panel |
| CreatePanel.IdentityNavigate | lib/panel-system/create-panel.tsx:28 | the identity's `navigate` is a navigation of its own panel with the given path and search; OutletBindsName shows it performs as `navigatePanel` for that panel |
| CreatePanel.IdentityClose | lib/panel-system/create-panel.tsx:29 | the identity's `close` closes its own panel; OutletBindsName shows it performs as `closePanel` for that panel |
| CreatePanel.OutletBindsName | lib/panel-system/create-panel.tsx:25-31 | the identity's `navigate` and `close` are `navigatePanel` and `closePanel` for this panel, and rendering keeps the provider recoverable |
| CreatePanel.UseNav | lib/panel-system/create-panel.tsx:37-49 | throws iff no provider, with the panel-naming message; otherwise controls for this panel whose `isOpen` is `isPanelOpen(name)` |
| CreatePanel.UseNavDelegates | lib/panel-system/create-panel.tsx:44-48 | `useNav()`'s `navigate`, `close` and `isOpen` are `navigatePanel`, `closePanel` and `isPanelOpen` for this panel's name |
| CreatePanel.NavNavigate | lib/panel-system/create-panel.tsx:45 | the control's `navigate` is a navigation of its own panel; UseNavDelegates shows it performs as `navigatePanel` for that name |
| CreatePanel.NavClose | lib/panel-system/create-panel.tsx:46 | the control's `close` closes its own panel; UseNavDelegates shows it performs as `closePanel` for that name |
| CreatePanel.UseNavMessageNamesPanel | lib/panel-system/create-panel.tsx:40-42 | the message holds the panel name between the opening text and a closing quote; two messages are equal iff the names are |
| CreatePanelSystem.CreatePanelSystem | lib/panel-system/create-panel-system.tsx:16-24 | the name list is the panels' keys in order, and each name maps to its panel's definition |
| CreatePanelSystem.MountWellFormed | lib/panel-system/create-panel-system.tsx:20-22 | the provider built from a system has distinct names that are exactly its panels |
| CreatePanelSystem.AppSystem | routes/left-panel/index.tsx:37-42 | the app's system has panels `left` (default `/categories`) and `right` (default `/`), in that order |
| CreatePanelSystem.ValidateSearch | lib/panel-system/create-panel-system.tsx:26-35 | the result has exactly the registered keys; a key keeps the raw value iff it is a string, else `undefined` |
| CreatePanelSystem.ValidateIdempotent | lib/panel-system/create-panel-system.tsx:26-35 | validating a validated query changes nothing |
| CreatePanelSystem.AnyOpenExists | lib/panel-system/create-panel-system.tsx:53 | the `some` loop holds iff some registered panel is open |
| CreatePanelSystem.AnyOpen | lib/panel-system/create-panel-system.tsx:53 | `panelNames.some(isPanelOpen)`; AnyOpenExists shows it holds iff some registered panel is open |
| CreatePanelSystem.UsePanel | lib/panel-system/create-panel-system.tsx:37-57 | throws the fixed message iff no provider; otherwise one control per name bound to it with `isOpen`, and `isPanelMode` iff some panel is open |
| CreatePanelSystem.UsePanelDelegates | lib/panel-system/create-panel-system.tsx:44-51 | each control is that panel's `useNav()` result: `navigate` and `close` reach the provider under its own name |
| CreatePanelSystem.EmptyValueIsOpen | lib/panel-system/system-provider.tsx:125-128 | a panel whose value is `''` is open, yet the sync step leaves its router alone |
| PanelLink.LinkValue | lib/panel-system/panel-link.tsx:22-30 | fails exactly as `resolvePath` does; otherwise the resolved path, built with the search when one is given |
| PanelLink.LinkHref | lib/panel-system/panel-link.tsx:32-48 | without a provider `/?<name>=<encodeURIComponent(value)>`; with one, `/` with exactly the registered names, this panel's set to the value and every other as it is now |
| PanelLink.LiteralHrefCarriesValue | lib/panel-system/panel-link.tsx:33-34 | the literal href starts with `/?<name>=` and the rest unescapes back to the value |
| PanelLink.LinkClick | lib/panel-system/panel-link.tsx:50-58 | a modified click or no provider does nothing and keeps the default; a plain click prevents it and calls `navigatePanel(name, value)` once with no options |
| PanelLink.ClickFollowsHref | lib/panel-system/panel-link.tsx:32-58 | a plain click lands the host where the href points, with the panel's router at the value |
| PanelLink.HrefIsNavigatePanelQuery | lib/panel-system/panel-link.tsx:35-47 | with a provider, the href query is the one `navigatePanel` asks for |
| PanelLink.ClickThenSync | lib/panel-system/panel-link.tsx:50-58 | after a plain click and the sync step, the URL holds the value, the panel shows it and the state is consistent |
| SystemLink.ResolveTarget | lib/panel-system/system-link.tsx:13-18 | `false` stays `false`; a string is returned as given; a route fails iff `resolvePath` does, and is otherwise the resolved path built with its search |
| SystemLink.HrefEntry | lib/panel-system/system-link.tsx:34-42 | omitted keeps the previous value; `false` gives `undefined`; otherwise the resolved value, never `''` |
| SystemLink.HrefQuery | lib/panel-system/system-link.tsx:31-45 | fails iff some registered target fails; otherwise exactly the registered names, each with its entry |
| SystemLink.HrefIgnoresOthers | lib/panel-system/system-link.tsx:33-34 | targets for unregistered names do not change the href |
| SystemLink.SystemHref | lib/panel-system/system-link.tsx:27-47 | `/` without a provider; otherwise `/` with the href query |
| SystemLink.ClickLoop | lib/panel-system/system-link.tsx:54-65 | the calls are, name by name in registration order, `closePanel` for `false`, `navigatePanel(name, resolved)` without options for a resolved target and none for an omitted one, up to the first target that fails; that target's error is raised and earlier calls stand; no error iff every given target resolves |
| SystemLink.SystemClick | lib/panel-system/system-link.tsx:49-66 | a modified click or no provider does nothing; a plain click prevents the default and makes the per-name calls of the loop, in order, up to the first failing target |
| SystemLink.RunClick | lib/panel-system/system-link.tsx:54-65 | running a handler's calls keeps the registration and what the sync step has seen |
| SystemLink.AsWrittenClickDiverges | lib/panel-system/system-link.tsx:54-65 | two targets, first panel open and synced: the first router moves, the second navigation writes the old value back, and after the sync step the state is inconsistent |
| SystemLink.AtomicClick | lib/panel-system/system-link.tsx:27-47 | the corrected click succeeds iff the href does, moves only router cells and issues exactly the href's navigation |
| SystemLink.AtomicClickSyncs | lib/panel-system/system-link.tsx:54-65 | after the corrected click and the sync step the state is consistent, and every panel sent to a non-empty value holds it in the URL and shows it |
| SystemLink.AtomicRecoverable | lib/panel-system/system-link.tsx:54-65 | the corrected click, applied, keeps the provider well-formed and recoverable |
| SystemLink.MainLinkSearch | lib/panel-system/system-link.tsx:80-88 | the main link's search has exactly the registered names, all `undefined`, whatever the caller passed |
| SystemLink.MainLinkIsNavigateMain | lib/panel-system/system-link.tsx:80-88 | following a main link is `navigateMain` to the same place |
| PanelUrl.ParsePanelValue | lib/panel-url.ts:1-11 | path followed by query string is the value; the path holds no `?`; no `?` gives an empty query string |
| PanelUrl.ParseSameAsPanelSystem | lib/panel-url.ts:1-11 | the legacy parser equals the panel system's on every value |
| PanelUrl.BuildPanelValue | lib/panel-url.ts:13-24 | no search, empty or all-`''` gives the path; otherwise path, `?` and a query |
| PanelUrl.BuildSameAsPanelSystem | lib/panel-url.ts:13-24 | the legacy builder equals the panel system's on every input |
| PanelUrl.LegacyBuildThenParse | lib/panel-url.ts:1-24 | parsing a built value gives back a `?`-free path and the non-empty entries |
| LegacyRouters.CreatePanelRouter | lib/create-panel-router.ts:8-27 | an empty cell with fallback `defaultPath` and a 200 ms pending config |
| LegacyRouters.LegacyFactoryBuildsOnce | lib/create-panel-router.ts:12-25 | every call returns the router seeded with the first call's `initialPath ?? defaultPath` |
| LegacyRouters.CreateLeftRouter | routes/left-panel/route.tsx:36-43 | the left tree, 200 ms pending, seeded with the path or `/dash` |
| LegacyRouters.CreateRightRouter | routes/right-panel/route.tsx:27-36 | the right tree, 200 ms pending, seeded with the path or `/posts` |
| LegacyRouters.GetLeftRouter | routes/left-panel/route.tsx:45-54 | the module cell creates the left router only while empty and returns what it holds |
| LegacyRouters.GetRightRouter | routes/right-panel/route.tsx:38-47 | the module cell creates the right router only while empty and returns what it holds |
| LegacyRouters.LeftSingleton | routes/left-panel/route.tsx:45-54 | from an empty cell every call returns the router created by the first call |
| LegacyRouters.FilledLeftCellKeeps | routes/left-panel/route.tsx:50-53 | a filled cell returns its router to every call, whatever path is given |
| LegacyRouters.RightSingleton | routes/right-panel/route.tsx:40-47 | from an empty cell every call returns the router created by the first call |
| LegacyRouters.FilledRightCellKeeps | routes/right-panel/route.tsx:43-46 | a filled cell returns its router to every call, whatever path is given |
| PanelShell.ShellTarget | routes/components/PanelShell.tsx:18-20 | the shell sends a router to the whole value as path, with no search |
| PanelShell.WholeValueAsPath | routes/components/PanelShell.tsx:18-20 | the shell's target agrees with `panelNavigate`'s iff the value has no `?` |
| PanelShell.Render | routes/components/PanelShell.tsx:15-16 | both cells are filled; an empty left cell is seeded with `left \|\| '/'` and an empty right one with `right \|\| '/posts'` |
| PanelShell.Mount | routes/components/PanelShell.tsx:22-23 | both `prevRef`s start `undefined`, so nothing has been seen and the shell is recoverable |
| PanelShell.SyncSide | routes/components/PanelShell.tsx:25-37 | a side's router moves iff its value is non-empty and differs from the last seen; the value is recorded in every case |
| PanelShell.Sync | routes/components/PanelShell.tsx:25-37 | the effects record both current values and leave the host untouched |
| PanelShell.SyncRestores | routes/components/PanelShell.tsx:25-37 | from a recoverable shell, after the effects each side with a non-empty value shows it |
| PanelShell.SyncTwice | routes/components/PanelShell.tsx:25-37 | running the effects again changes nothing |
| PanelShell.Perform | routes/components/PanelShell.tsx:39-81 | `navigateLeft` moves left and writes `{left: to, right}`; `navigateRight`/`showRight` move right and write `{left: left \|\| '/', right: to}`; `closeRight` writes `right: undefined`; `navigateMain` clears both |
| PanelShell.PerformRecoverable | routes/components/PanelShell.tsx:39-81 | every navigator call, applied, keeps the shell recoverable |
| PanelShell.RightCallsKeepLeftOpen | routes/components/PanelShell.tsx:49-71 | opening, showing or closing the right panel leaves left open and shown: as it was if non-empty, else at `/` |
| PanelShell.NavigateLeftThenSync | routes/components/PanelShell.tsx:41-48 | after `navigateLeft(to)` and the effects the left side shows `to` and right is unchanged |
| PanelShell.CloseThenReopen | routes/components/PanelShell.tsx:32-37 | closing right records `undefined`, so reopening at the same value navigates the router again |
| PanelShell.Visible | routes/components/PanelShell.tsx:86-96 | a side is drawn iff its value is non-empty |
| PanelShell.DrawnPanelsShowTheirValue | routes/components/PanelShell.tsx:86-96 | after the effects every drawn side shows its value; an empty left value is panel mode yet draws nothing |
| UiLink.LinkTarget | components/ui/link.tsx:15-34 | to `to ?? '/'` with both panels cleared |
| UiLink.LinkPanelsTarget | components/ui/link.tsx:43-63 | to `/` with `left` set and `right` as given |
| UiLink.LinksAndPanelMode | components/ui/link.tsx:20-61 | a `Link` leaves panel mode and a `LinkPanels` enters it |
| UiLink.LeftValue | components/ui/link.tsx:79-82 | the value is the one `navigatePanel` writes, and for a `to` without `?` the legacy parser reads it back as `to` with exactly the non-empty search entries |
| UiLink.LeftHref | components/ui/link.tsx:84-90 | `left` set to the value, `right` kept |
| UiLink.RightHref | components/ui/link.tsx:119-125 | `left` kept, `right` set to `to` |
| UiLink.LeftClick | components/ui/link.tsx:84-97 | a modified click or no context does nothing; a plain click calls `navigateLeft(value)` once, which asks the host for exactly the link's href and moves the left router to the value |
| UiLink.RightClick | components/ui/link.tsx:119-132 | a modified click or no context does nothing; a plain click calls `navigateRight(to)` once, which asks for exactly the link's href iff `left` is non-empty |
| RootRoute.ValidateSearch | routes/route.tsx:40-43 | `left` and `right` keep the raw value iff it is a string, else `undefined`; nothing else is kept |
| RootRoute.ValidateIdempotent | routes/main.tsx:54-57 | validating a validated search changes nothing |
| RootRoute.SameAsPanelSystemValidate | routes/route.tsx:40-43 | the root validation is the panel system's for the names `left` and `right` |
| RootRoute.PanelModeAsInPanelSystem | routes/route.tsx:22 | `isPanelMode` holds iff one of the two panels is open in the panel system's sense |
| RootRoute.IsPanelMode | routes/route.tsx:22 | `left` or `right` is defined; PanelModeAsInPanelSystem ties it to the panel system's open test |
| RootRoute.ShellBody | routes/route.tsx:28-34 | the shell renders iff `left` or `right` is defined, otherwise the outlet |
| RootRoute.MainLinksAreNavItems | routes/main.tsx:24-41 | the top-bar links go where the sidebar items go: `/home` and `/settings/billing` cleared, `/` with `left = /dash` |
| RootRoute.FollowingItemActivatesIt | routes/components/AppSidebar.tsx:14-37 | following a sidebar item makes it active; the Home and Settings items leave panel mode, where Panels is not active, and Panels opens `left = /dash` |
| RootRoute.IsActive | routes/components/AppSidebar.tsx:34-37 | the Panels item is active iff in panel mode, any other item iff the path starts with its target; FollowingItemActivatesIt shows following an item activates it |
| Breadcrumbs.Segments | routes/components/Breadcrumbs.tsx:32 | segments are non-empty and hold no `/` |
| Breadcrumbs.Prefixes | routes/components/Breadcrumbs.tsx:34-36 | one pattern per segment, the i-th being `/` and the first i+1 segments joined |
| Breadcrumbs.PrefixExtends | routes/components/Breadcrumbs.tsx:34-36 | each pattern extends the previous one by `/` and one segment |
| Breadcrumbs.PrefixSegments | routes/components/Breadcrumbs.tsx:32-36 | a pattern's own segments are the first i+1 segments |
| Breadcrumbs.OnlyLastPatternIsCurrent | routes/components/Breadcrumbs.tsx:53 | only the last pattern can equal the current full path |
| Breadcrumbs.RootHasNoPatterns | routes/components/Breadcrumbs.tsx:32-36 | `/` yields no patterns, hence no crumb |
| Breadcrumbs.WordAt | routes/components/Breadcrumbs.tsx:49 | `\w+` takes the longest run of word characters |
| Breadcrumbs.LenientToken | routes/components/Breadcrumbs.tsx:49-51 | `$word` becomes `params[word] ?? ''`, so a missing key gives `''` and never fails |
| Breadcrumbs.Lenient | routes/components/Breadcrumbs.tsx:49-51 | a path without `$` is returned as is; LenientToken, LenientCopiesHead and LenientPrefixCopied say what each piece becomes |
| Breadcrumbs.LenientCopiesHead | routes/components/Breadcrumbs.tsx:49 | a character that does not start a `$word`, a `$` before a non-word character included, is copied unchanged |
| Breadcrumbs.LenientPrefixCopied | routes/components/Breadcrumbs.tsx:49 | text without `$` is copied unchanged ahead of what the rest becomes |
| Breadcrumbs.FindRoute | routes/components/Breadcrumbs.tsx:42 | the first route with that full path, or none iff no route has it |
| Breadcrumbs.CrumbFor | routes/components/Breadcrumbs.tsx:41-69 | no route or no breadcrumb gives no crumb; a static label gives a crumb iff it is non-empty, a function breadcrumb iff its result (fed loader data only on the current pattern) is truthy; the crumb has the leniently substituted path and carries that label |
| Breadcrumbs.Collect | routes/components/Breadcrumbs.tsx:41-70 | at most one crumb per pattern; CollectAppend fixes their order and CollectMembers which crumbs appear |
| Breadcrumbs.CollectAppend | routes/components/Breadcrumbs.tsx:41-70 | the crumbs of two pattern lists are the crumbs of each, in order |
| Breadcrumbs.CollectMembers | routes/components/Breadcrumbs.tsx:41-70 | a crumb is collected iff some pattern yields it |
| Breadcrumbs.BuildCrumbs | routes/components/Breadcrumbs.tsx:23-73 | the crumbs of the prefix patterns in pattern order; a crumb appears iff some prefix pattern yields it; at most one per segment, each with a non-empty label |
| Breadcrumbs.LoaderDataOnlyForCurrent | routes/components/Breadcrumbs.tsx:53-64 | every pattern but the last gets no loader data |
| Breadcrumbs.LoaderFor | routes/components/Breadcrumbs.tsx:53-64 | a function breadcrumb gets the match's loader data only on the current pattern; LoaderDataOnlyForCurrent shows every earlier pattern gets none |
| Breadcrumbs.Render | routes/components/Breadcrumbs.tsx:75-123 | nothing with no match or at most one crumb; otherwise the last crumb is the page and the others are panel links in a shell and cleared main links outside |
| Breadcrumbs.MainCrumbLeavesPanelMode | routes/components/Breadcrumbs.tsx:108-114 | a main crumb link leaves panel mode |
| Breadcrumbs.PanelCrumbClick | routes/components/Breadcrumbs.tsx:128-141 | a modified click or no context does nothing; a plain click calls `navigateLeft(path)` once, which asks the host for exactly the crumb's href |
| Breadcrumbs.PanelCrumbHref | routes/components/Breadcrumbs.tsx:128-134 | the panel crumb's href is the left-panel link's href for the crumb's path: `left` set to it, `right` kept |
| ViewRouter.ValidateSearch | router.tsx:14-23 | both results are view keys; `left` keeps a raw string view key or becomes `home`, `right` the same with `dashboard` |
| ViewRouter.ValidateIdempotent | router.tsx:14-23 | validating a validated search changes nothing |
| ViewRouter.ValidKeptAsIs | router.tsx:15-20 | a search is kept as is iff both its values are view keys |
| ViewRouter.RouteMapCoversViews | router.tsx:81-89 | the route map's keys are exactly the view keys, so every validated search names two routes |
| ViewRouter.ParentPath | components/PanelNav.tsx:17-19 | there is a parent iff the path contains `/` |
| ViewRouter.ParentDropsLastSegment | components/PanelNav.tsx:17-19 | the parent is everything before the last `/` |
| ViewRouter.ParentOfChild | components/PanelNav.tsx:17-19 | the parent of `p/segment` is `p` |
| ViewRouter.BackShownIff | components/PanelNav.tsx:52 | the Back button shows iff the path has a `/` after its first character |
| ViewRouter.BackShown | components/PanelNav.tsx:52 | `parentPath && …`: Back needs a non-empty parent; BackShownIff says when that is |
| ViewRouter.NavigateTo | components/PanelNav.tsx:21-28 | only this panel's key changes |
| ViewRouter.NavigateToValidated | components/PanelNav.tsx:21-28 | after validation the panel lands on the new path iff it is a view key (or the default), and the other panel never moves |
| ViewRouter.SubItems | components/PanelNav.tsx:36-47 | only `home` and `dashboard` have sub-items |
| ViewRouter.SubItemsAreChildren | components/PanelNav.tsx:36-47 | every sub-item is a view one segment below the current page, so its parent is that page and the page's entry stays active |
| ViewRouter.IsActive | components/PanelNav.tsx:69 | an entry is active iff the current path starts with its path; ActiveOnSubPages shows a page's entry stays active on its sub-pages |
| ViewRouter.ActiveOnSubPages | components/PanelNav.tsx:36-47 | on every sub-page of a view the entry for that view is active |
| ViewRouter.BackTargetsAreViews | components/PanelNav.tsx:17-19 | on a view, Back shows exactly on the four sub-pages and leads to a view |
| ViewRouter.NavEntriesAreViews | components/PanelNav.tsx:30-34 | the bar's entries are views |
| UrlEncoding.EncodeUriComponent | lib/panel-system/panel-utils.ts:46 | output characters are `%` or unreserved; an all-unreserved string is unchanged |
| UrlEncoding.UnescapeEncodeUriComponent | lib/panel-system/panel-link.tsx:34 | unescaping `encodeURIComponent(s)` gives `s` back |
| UrlEncoding.EncodeUriComponentInjective | lib/panel-system/panel-utils.ts:46 | distinct strings encode differently |
| UrlEncoding.EncodeUriComponentSpace | lib/panel-system/panel-utils.test.ts:70-73 | `a b` encodes as `a%20b` |
| UrlEncoding.Serialize | lib/panel-system/panel-utils.ts:28 | the serialisation is empty iff there are no entries, and holds no `?` or `#` |
| UrlEncoding.ParseSerialize | lib/panel-system/panel-utils.ts:28 | parsing a serialisation gives back the entries, in order |
| UrlEncoding.FormDecodeEncode | lib/panel-system/panel-utils.ts:28 | form-decoding a form-encoded string gives it back |
| Utf8.DecodeEncode | lib/panel-system/panel-utils.ts:46 | decoding the UTF-8 encoding of a string gives it back |
| Utf8.EncodeInjective | lib/panel-system/panel-utils.ts:46 | distinct strings have distinct UTF-8 encodings |
| Json.Stringify | lib/panel-system/panel-utils.ts:43 | a braced object text, `{}` iff the record is empty |
| Json.PlainTextUnescaped | lib/panel-system/panel-utils.ts:43 | text without quotes, backslashes or control characters is quoted verbatim |

## Left out

- TanStack Router internals are not modelled: route matching, loaders, memory history, `buildLocation`'s text and `RouterProvider`. A router is a handle whose only observable is its location. An href built by the host router is its target path and query, not its text.
- React timing, context and memoisation are not modelled. The layout effects are the explicit `Sync` step, run after a host navigation is applied. The `onNavigate` callback and the logger only observe, so they are left out.
- Every call in one event handler reads the same render-time snapshot. The host applies the calls' navigations in order after the handler returns.
- Record key order is taken as given. JavaScript's reordering of integer-like keys is not modelled.
- Prototype-inherited keys (`params["constructor"]`) are treated as absent.
- Non-string `params` values are left out, because the types only admit strings.
- Lone surrogates cannot occur in a Dafny string, so `encodeURIComponent`'s `URIError` is not modelled.
- The `LinkLeftPanel` href turns `right: ''` into `undefined` only through `??`. The model keeps the value as it is, which is the same thing, since `??` only replaces `undefined`.
- The legacy `PanelNavigators` members `showLeft`, `closeLeft`, `isLeftOpen` and `isRightOpen` are not modelled: the shell does not provide them.
- `components/PanelShell.tsx` is not part of this model. It is a superseded prototype that reads keys no validator provides.
- `lib/panel-system/panel-hooks.ts` is left out. It only forwards to router hooks.
- `lib/logger.ts` and the log panels are left out. They are subscription plumbing and clocks.
- The page route files are not modelled: `routes/home`, `routes/docs`, `routes/features`, `routes/settings`, `routes/users`, `routes/index.tsx`, `routes/bottom-panel.tsx`, the panel subtrees under `routes/left-panel/routes` and `routes/right-panel/routes`, and the view components under `views/`. They define pages, loaders and breadcrumb data. From the route files the model keeps the root route's validation and shell choice (`routes/route.tsx`), the main route's validation and top-bar links (`routes/main.tsx`), the two legacy panel routers (`routes/left-panel/route.tsx`, `routes/right-panel/route.tsx`), the panel configurations (`routes/left-panel/index.tsx`), the sidebar items, and the view router's tables (`router.tsx`, `components/PanelNav.tsx`) as constants.
- `PathParams.ReferencedIsExtracted`: the type `ExtractPathParams` yields `""` for a `$` directly before `/` or the end, and `resolvePath` never looks that name up. The property is stated with `""` removed.
- `SystemLink.AsWrittenClickDiverges`: it exhibits the divergence for two panels and two path targets, not for every shape of link.

## Findings

| source | as written | input that shows it | evidently intended | confidence | as-written member | corrected member |
|---|---|---|---|---|---|---|
| lib/panel-system/system-link.tsx:54-65 | a multi-panel click calls `navigatePanel` once per panel; each call builds the whole next query from the same render-time snapshot and moves its panel's router at once, so the last host navigation writes the earlier panels' old values back | panels `left` and `right`, `left` open and synced at `/categories`; a link `{left: "/categories/phones", right: "/posts"}`: the left router moves to `/categories/phones`, the URL keeps `left=/categories`, and the sync step skips `left` since that value was already seen | one host navigation carrying every panel's target, as the link's own href does | medium, not executed | SystemLink.AsWrittenClickDiverges | SystemLink.AtomicClick, SystemLink.AtomicClickSyncs |

=== FILE: breadcrumbs.dfy ===
/** Breadcrumbs (routes/components/Breadcrumbs.tsx): one crumb per prefix of the current route's
    path that names a route with a breadcrumb, its `$word` tokens filled in leniently from the
    current params. */
module Breadcrumbs {
  import opened Wrappers
  import opened Strings
  import opened SplitJoin
  import opened Records
  import opened RootRoute
  import PanelShell
  import UiLink

  /** A route's `loaderData`, opaque here. */
  datatype LoaderData = LoaderData(id: string)

  /** `staticData.breadcrumb`: a label, or a function of the params and the loader data. */
  datatype Breadcrumb =
    | StaticLabel(text: string)
    | Computed(f: (map<string, string>, Option<LoaderData>) -> Option<string>)

  /** What `routesById` holds for a route: its full path and its breadcrumb, if any. */
  datatype RouteInfo = RouteInfo(fullPath: string, breadcrumb: Option<Breadcrumb>)

  /** The current (last) match. */
  datatype Match = Match(fullPath: string, params: map<string, string>, loaderData: Option<LoaderData>)

  datatype Crumb = Crumb(path: string, text: string)

  // ----- Prefixes -----

  /** `currentFullPath.split('/').filter(Boolean)`. */
  function Segments(fullPath: string): (segs: seq<string>)
    ensures forall i :: 0 <= i < |segs| ==> segs[i] != "" && '/' !in segs[i]
  {
    NonEmptyPieces(fullPath, '/')
  }

  /** `'/' + segments.slice(0, i + 1).join('/')`. */
  function Prefix(segs: seq<string>, i: nat): string
    requires i < |segs|
  {
    "/" + Join(segs[..i + 1], '/')
  }

  /** The patterns, one per segment, shortest first. */
  function Prefixes(segs: seq<string>): (ps: seq<string>)
    ensures |ps| == |segs|
    ensures forall i :: 0 <= i < |segs| ==> ps[i] == Prefix(segs, i)
  {
    seq(|segs|, i requires 0 <= i < |segs| => Prefix(segs, i))
  }

  /** Each pattern extends the one before it by `/` and the next segment. */
  lemma PrefixExtends(segs: seq<string>, i: nat)
    requires i + 1 < |segs|
    ensures Prefix(segs, i + 1) == Prefix(segs, i) + "/" + segs[i + 1]
  {
    var p := segs[..i + 2];
    JoinSnoc(p, '/');
    assert p[..|p| - 1] == segs[..i + 1];
  }

  /** Reading a pattern's segments back gives exactly the segments it was built from. */
  lemma PrefixSegments(segs: seq<string>, i: nat)
    requires i < |segs|
    requires forall j :: 0 <= j < |segs| ==> segs[j] != "" && '/' !in segs[j]
    ensures Segments(Prefix(segs, i)) == segs[..i + 1]
  {
    var p := segs[..i + 1];
    var parts := [""] + p;
    JoinCons("", p, '/');
    assert Join(parts, '/') == Prefix(segs, i);
    SplitOfJoin(parts, '/');
    FilterKeepsNonEmpty(p);
    assert parts[1..] == p;
  }

  /** Only the last pattern can be the current route's own path, so only its crumb can see the
      loader data. */
  lemma OnlyLastPatternIsCurrent(fullPath: string, i: nat)
    requires i < |Segments(fullPath)|
    ensures Prefixes(Segments(fullPath))[i] == fullPath ==> i == |Segments(fullPath)| - 1
  {
    var segs := Segments(fullPath);
    if Prefix(segs, i) == fullPath {
      PrefixSegments(segs, i);
      assert |segs[..i + 1]| == i + 1;
    }
  }

  /** The root path has no segment, hence no pattern and no crumb. */
  lemma RootHasNoPatterns()
    ensures Segments("/") == [] && Prefixes(Segments("/")) == []
  {
    assert IndexOf("/", '/') == 0;
    assert Split("/", '/') == [""] + Split("", '/');
    assert Split("", '/') == [""];
  }

  // ----- Lenient substitution -----

  /** A character of `\w`. */
  predicate WordChar(c: char)
  {
    'a' <= c <= 'z' || 'A' <= c <= 'Z' || '0' <= c <= '9' || c == '_'
  }

  /** The longest run of word characters at the front of `s`. */
  function WordAt(s: string): (w: string)
    ensures |w| <= |s| && w == s[..|w|]
    ensures forall i :: 0 <= i < |w| ==> WordChar(w[i])
    ensures |w| == |s| || !WordChar(s[|w|])
  {
    if s != "" && WordChar(s[0]) then [s[0]] + WordAt(s[1..]) else ""
  }

  /** A run of word characters followed by the end or a non-word character is the run `WordAt`
      takes. */
  lemma {:induction false} WordAtOf(w: string, t: string)
    requires forall i :: 0 <= i < |w| ==> WordChar(w[i])
    requires t == "" || !WordChar(t[0])
    ensures WordAt(w + t) == w
    decreases |w|
  {
    if w == "" {
      assert w + t == t;
    } else {
      WordAtOf(w[1..], t);
      assert (w + t)[1..] == w[1..] + t;
      assert [w[0]] + w[1..] == w;
    }
  }

  /** `String(params[key] ?? '')`. */
  function ParamOr(params: map<string, string>, key: string): string
  {
    if key in params then params[key] else ""
  }

  /** `pattern.replace(/\$(\w+)/g, …)`: each `$` followed by word characters is replaced, with the
      whole run, by the param's value or by nothing; a `$` not followed by one stays. */
  function Lenient(s: string, params: map<string, string>): (r: string)
    ensures '$' !in s ==> r == s
    decreases |s|
  {
    if s == "" then ""
    else if s[0] == '$' && WordAt(s[1..]) != "" then
      var w := WordAt(s[1..]);
      ParamOr(params, w) + Lenient(s[1 + |w|..], params)
    else
      assert '$' !in s ==> '$' !in s[1..];
      assert s == [s[0]] + s[1..];
      [s[0]] + Lenient(s[1..], params)
  }

  /** One token: `$w` with `w` a whole run of word characters becomes the param's value, or the
      empty string when the param is missing; it never throws. */
  lemma LenientToken(w: string, t: string, params: map<string, string>)
    requires w != "" && forall i :: 0 <= i < |w| ==> WordChar(w[i])
    requires t == "" || !WordChar(t[0])
    ensures Lenient("$" + w + t, params) == ParamOr(params, w) + Lenient(t, params)
    ensures w !in params ==> Lenient("$" + w + t, params) == Lenient(t, params)
  {
    var s := "$" + w + t;
    assert s != "" && s[0] == '$' && s[1..] == w + t;
    WordAtOf(w, t);
    assert WordAt(s[1..]) == w;
    assert s[1 + |w|..] == t;
    assert Lenient(s, params) == ParamOr(params, w) + Lenient(t, params);
  }

  /** A character that does not start a `$word` is copied ahead of the rest: in particular a `$`
      not followed by a word character stays. */
  lemma LenientCopiesHead(c: char, t: string, params: map<string, string>)
    requires c != '$' || WordAt(t) == ""
    ensures Lenient([c] + t, params) == [c] + Lenient(t, params)
  {
    assert ([c] + t)[0] == c && ([c] + t)[1..] == t;
  }

  /** Text without `$` is copied ahead of what the rest resolves to. */
  lemma {:induction false} LenientPrefixCopied(a: string, t: string, params: map<string, string>)
    requires '$' !in a
    ensures Lenient(a + t, params) == a + Lenient(t, params)
    decreases |a|
  {
    if a == "" {
      assert a + t == t;
    } else {
      assert '$' !in a[1..];
      LenientPrefixCopied(a[1..], t, params);
      assert a + t == [a[0]] + (a[1..] + t);
      LenientCopiesHead(a[0], a[1..] + t, params);
      assert [a[0]] + (a[1..] + Lenient(t, params)) == a + Lenient(t, params);
    }
  }

  // ----- Crumbs -----

  /** `allRoutes.find((r) => r.fullPath === pattern)`, as the position of the route found. */
  function FindRoute(routes: seq<RouteInfo>, pattern: string): (r: Option<nat>)
    ensures r.None? <==> forall i :: 0 <= i < |routes| ==> routes[i].fullPath != pattern
    ensures r.Some? ==> r.value < |routes| && routes[r.value].fullPath == pattern
    ensures r.Some? ==> forall j :: 0 <= j < r.value ==> routes[j].fullPath != pattern
  {
    if routes == [] then None
    else if routes[0].fullPath == pattern then Some(0)
    else
      var r := FindRoute(routes[1..], pattern);
      assert forall i :: 1 <= i < |routes| ==> routes[i] == routes[1..][i - 1];
      if r.Some? then Some(r.value + 1) else None
  }

  /** The loader data a function breadcrumb receives: the current match's, for its own pattern
      only. */
  function LoaderFor(m: Match, pattern: string): Option<LoaderData>
  {
    if pattern == m.fullPath then m.loaderData else None
  }

  /** The crumb for one pattern: none without a route, without a breadcrumb, or with a falsy label;
      otherwise the pattern with its params filled in, carrying the label.  A function breadcrumb
      gets the current match's loader data only on the current pattern. */
  function CrumbFor(routes: seq<RouteInfo>, m: Match, pattern: string): (c: Option<Crumb>)
    ensures FindRoute(routes, pattern).None? ==> c.None?
    ensures c.Some? ==> c.value.path == Lenient(pattern, m.params) && c.value.text != ""
    ensures FindRoute(routes, pattern).Some? ==>
              var bc := routes[FindRoute(routes, pattern).value].breadcrumb;
              (bc.None? ==> c.None?) &&
              (bc.Some? && bc.value.StaticLabel? ==>
                 (c.Some? <==> bc.value.text != "") && (c.Some? ==> c.value.text == bc.value.text)) &&
              (bc.Some? && bc.value.Computed? ==>
                 var text := bc.value.f(m.params, LoaderFor(m, pattern));
                 (c.Some? <==> Truthy(text)) && (c.Some? ==> c.value.text == text.value))
  {
    match FindRoute(routes, pattern)
    case None => None
    case Some(k) =>
      match routes[k].breadcrumb
      case None => None
      case Some(StaticLabel(t)) =>
        if t == "" then None else Some(Crumb(Lenient(pattern, m.params), t))
      case Some(Computed(f)) =>
        var text := f(m.params, LoaderFor(m, pattern));
        if Truthy(text) then Some(Crumb(Lenient(pattern, m.params), text.value)) else None
  }

  /** The loop over the patterns, in order. */
  function Collect(routes: seq<RouteInfo>, m: Match, patterns: seq<string>): (cs: seq<Crumb>)
    ensures |cs| <= |patterns|
    decreases |patterns|
  {
    if patterns == [] then []
    else
      var c := CrumbFor(routes, m, patterns[0]);
      (if c.Some? then [c.value] else []) + Collect(routes, m, patterns[1..])
  }

  /** Crumbs keep the order of their patterns: collecting over two runs of patterns is collecting
      over each, one after the other. */
  lemma {:induction false} CollectAppend(routes: seq<RouteInfo>, m: Match, p1: seq<string>, p2: seq<string>)
    ensures Collect(routes, m, p1 + p2) == Collect(routes, m, p1) + Collect(routes, m, p2)
    decreases |p1|
  {
    if p1 == [] {
      assert p1 + p2 == p2;
    } else {
      CollectAppend(routes, m, p1[1..], p2);
      var c := CrumbFor(routes, m, p1[0]);
      var h := if c.Some? then [c.value] else [];
      assert (p1 + p2)[0] == p1[0] && (p1 + p2)[1..] == p1[1..] + p2;
      assert Collect(routes, m, p1 + p2) == h + Collect(routes, m, p1[1..] + p2);
      assert Collect(routes, m, p1) == h + Collect(routes, m, p1[1..]);
    }
  }

  /** A crumb is produced exactly when some pattern yields it. */
  lemma {:induction false} CollectMembers(routes: seq<RouteInfo>, m: Match, patterns: seq<string>, c: Crumb)
    ensures c in Collect(routes, m, patterns) <==>
              exists i :: 0 <= i < |patterns| && CrumbFor(routes, m, patterns[i]) == Some(c)
    decreases |patterns|
  {
    if patterns != [] {
      CollectMembers(routes, m, patterns[1..], c);
      if exists i :: 0 <= i < |patterns| && CrumbFor(routes, m, patterns[i]) == Some(c) {
        var i :| 0 <= i < |patterns| && CrumbFor(routes, m, patterns[i]) == Some(c);
        if i > 0 {
          assert patterns[1..][i - 1] == patterns[i];
        }
      }
      if c in Collect(routes, m, patterns[1..]) {
        var i :| 0 <= i < |patterns[1..]| && CrumbFor(routes, m, patterns[1..][i]) == Some(c);
        assert patterns[i + 1] == patterns[1..][i];
      }
    }
  }

  /** `buildCrumbs(router, currentMatch)`: the crumbs of the prefix patterns of the current path,
      in pattern order (`CollectAppend`).  A crumb appears exactly when some prefix pattern yields
      it, so at most one per segment, each with a non-empty label. */
  function BuildCrumbs(routes: seq<RouteInfo>, m: Match): (cs: seq<Crumb>)
    ensures cs == Collect(routes, m, Prefixes(Segments(m.fullPath)))
    ensures forall c :: c in cs <==>
              exists i :: 0 <= i < |Segments(m.fullPath)| &&
                CrumbFor(routes, m, Prefixes(Segments(m.fullPath))[i]) == Some(c)
    ensures |cs| <= |Segments(m.fullPath)|
    ensures forall i :: 0 <= i < |cs| ==> cs[i].text != ""
  {
    var ps := Prefixes(Segments(m.fullPath));
    var cs := Collect(routes, m, ps);
    forall c ensures c in cs <==> exists i :: 0 <= i < |ps| && CrumbFor(routes, m, ps[i]) == Some(c) {
      CollectMembers(routes, m, ps, c);
    }
    forall i | 0 <= i < |cs| ensures cs[i].text != "" {
      assert cs[i] in cs;
    }
    cs
  }

  /** A function breadcrumb on any pattern but the last one sees no loader data. */
  lemma LoaderDataOnlyForCurrent(m: Match, i: nat)
    requires i + 1 < |Segments(m.fullPath)|
    ensures LoaderFor(m, Prefixes(Segments(m.fullPath))[i]) == None
  {
    OnlyLastPatternIsCurrent(m.fullPath, i);
  }

  // ----- Rendering -----

  /** One rendered crumb: the current page's label, a link inside the shell, or a host link that
      closes both panels. */
  datatype CrumbView =
    | Page(text: string)
    | PanelCrumbLink(path: string, text: string)
    | MainCrumbLink(target: Nav, text: string)

  /** `Breadcrumbs()`: nothing without a current match or with at most one crumb; otherwise every
      crumb but the last is a link. */
  function Render(routes: seq<RouteInfo>, matches: seq<Match>, inShell: bool): (r: Option<seq<CrumbView>>)
    ensures matches == [] ==> r.None?
    ensures matches != [] ==> (r.None? <==> |BuildCrumbs(routes, matches[|matches| - 1])| <= 1)
    ensures r.Some? ==> var cs := BuildCrumbs(routes, matches[|matches| - 1]);
              |r.value| == |cs| && r.value[|cs| - 1] == Page(cs[|cs| - 1].text) &&
              forall i :: 0 <= i < |cs| - 1 ==>
                r.value[i] == (if inShell then PanelCrumbLink(cs[i].path, cs[i].text)
                               else MainCrumbLink(Nav(cs[i].path, Cleared), cs[i].text))
  {
    if matches == [] then None
    else
      var cs := BuildCrumbs(routes, matches[|matches| - 1]);
      if |cs| <= 1 then None
      else
        Some(seq(|cs|, i requires 0 <= i < |cs| =>
          if i == |cs| - 1 then Page(cs[i].text)
          else if inShell then PanelCrumbLink(cs[i].path, cs[i].text)
          else MainCrumbLink(Nav(cs[i].path, Cleared), cs[i].text)))
  }

  /** A crumb link leaves panel mode. */
  lemma MainCrumbLeavesPanelMode(routes: seq<RouteInfo>, matches: seq<Match>, i: nat)
    requires Render(routes, matches, false).Some? && i < |Render(routes, matches, false).value|
    requires Render(routes, matches, false).value[i].MainCrumbLink?
    ensures !IsPanelMode(Render(routes, matches, false).value[i].target.search)
  {
  }

  /** `PanelCrumbLink`'s href: `left` set to the crumb's path, `right` kept. */
  function PanelCrumbHref(prev: PanelSearch, path: string): (n: Nav)
    ensures n == UiLink.LeftHref(prev, path)
  {
    Nav("/", PanelSearch(Some(path), prev.right))
  }

  /** `PanelCrumbLink`'s click: `navigateLeft(path)` for a plain click inside the shell, which asks
      the host for exactly the crumb's href. */
  function PanelCrumbClick(ctx: Option<PanelShell.ShellState>, path: string, click: Click): (r: UiLink.ShellClick)
    ensures Modified(click) || ctx.None? ==> r == UiLink.ShellClick(false, [])
    ensures !Modified(click) && ctx.Some? ==>
              r.prevented && r.actions == [PanelShell.NavigateLeft(path)] &&
              PanelShell.Perform(ctx.value, r.actions[0]).1 == PanelCrumbHref(ctx.value.search, path)
  {
    if Modified(click) || ctx.None? then UiLink.ShellClick(false, [])
    else UiLink.ShellClick(true, [PanelShell.NavigateLeft(path)])
  }
}

=== FILE: create_panel.dfy ===
/** `createPanel` (lib/panel-system/create-panel.tsx): a panel's router factory, its `Outlet` and its
    `useNav` hook, and the two panels the application registers. */
module CreatePanel {
  import opened Wrappers
  import opened Records
  import opened PanelRouter
  import opened PanelUtils
  import opened SystemProvider

  /** What `createPanel(config)` returns, apart from its components: the name, the tree, the default
      path and the one-shot router factory, held together as the provider uses them. */
  datatype PanelInstance = PanelInstance(name: string, tree: RouteTree, def: PanelDef)

  function CreatePanel(name: string, tree: RouteTree, defaultPath: string, pendingComponent: Option<Component>)
    : (p: PanelInstance)
    ensures p.name == name && p.tree == tree && p.def.defaultPath == defaultPath
    ensures p.def.factory.instance.None? && p.def.factory.tree == tree
    ensures p.def.factory.pending.Some? <==> pendingComponent.Some?
  {
    PanelInstance(name, tree, PanelDef(defaultPath, CreatePanelRouterFactory(tree, pendingComponent)))
  }

  /** The left panel: default path `/categories`, pending component `RoutePending`. */
  const LeftPanel: PanelInstance :=
    CreatePanel("left", RouteTree("leftPanelTree"), "/categories", Some(RoutePending))

  /** The right panel: default path `/`, pending component `RoutePending`. */
  const RightPanel: PanelInstance :=
    CreatePanel("right", RouteTree("rightPanelTree"), "/", Some(RoutePending))

  /** The value of `PanelIdentityContext` an outlet provides: its `navigate` and `close` act on the
      outlet's own panel. */
  datatype Identity = Identity(name: string)

  function IdentityNavigate(id: Identity, to: string, search: Option<Entries>): (a: Action)
    ensures a.NavigateTo? && a.name == id.name && a.to == to && a.search == search
  {
    NavigateTo(id.name, to, search)
  }

  function IdentityClose(id: Identity): (a: Action)
    ensures a.Close? && a.name == id.name
  {
    Close(id.name)
  }

  /** What an outlet renders: nothing, or the panel's router under its identity. */
  datatype View = Nothing | Rendered(identity: Identity, router: Handle)

  /** `Outlet()` for panel `name`, given the provider's state if one is mounted (`None` otherwise).
      Rendering asks the provider for the router, which may create it. */
  function Outlet(ctx: Option<State>, name: string): (r: (Option<State>, View))
    ensures ctx.None? ==> r == (None, Nothing)
    ensures ctx.Some? ==> r.0 == Some(GetRouter(ctx.value, name).0)
    ensures ctx.Some? && name !in ctx.value.panels ==> r.1 == Nothing && r.0 == ctx
    ensures ctx.Some? && name in ctx.value.panels ==>
              r.1 == Rendered(Identity(name), HandleOf(r.0.value, name).value)
  {
    if ctx.None? then (None, Nothing)
    else
      var (t, h) := GetRouter(ctx.value, name);
      if h.None? then (Some(t), Nothing) else (Some(t), Rendered(Identity(name), h.value))
  }

  /** An outlet's `navigate` and `close` are the provider's `navigatePanel` and `closePanel` for
      that outlet's panel, and rendering it keeps the provider recoverable. */
  lemma OutletBindsName(s: State, name: string, to: string, search: Option<Entries>)
    requires Recoverable(s) && name in s.panels
    ensures var (t, v) := Outlet(Some(s), name);
            v.Rendered? && v.identity.name == name &&
            Perform(t.value, IdentityNavigate(v.identity, to, search)) ==
              NavigatePanel(t.value, name, to, search) &&
            Perform(t.value, IdentityClose(v.identity)) == (t.value, ClosePanel(t.value, name)) &&
            Recoverable(t.value)
  {
    GetRouterRecoverable(s, name);
  }

  /** What `useNav()` returns, and each entry of `usePanel()`: the controls of one panel. */
  datatype PanelNav = PanelNav(name: string, isOpen: bool)

  /** The control's `navigate(to, opts)`. */
  function NavNavigate(n: PanelNav, to: string, search: Option<Entries>): Action
  {
    NavigateTo(n.name, to, search)
  }

  /** The control's `close()`. */
  function NavClose(n: PanelNav): Action
  {
    Close(n.name)
  }

  const UseNavPrefix: string := "useNav for panel \""
  const UseNavSuffix: string := "\" must be used within panels.Provider"

  /** The error `useNav` throws outside a provider: the panel's name, quoted, inside fixed text. */
  function UseNavMessage(name: string): string
  {
    UseNavPrefix + name + UseNavSuffix
  }

  /** `useNav()` for panel `name`: throws without a provider, with a message naming the panel. */
  function UseNav(ctx: Option<State>, name: string): (r: Result<PanelNav, string>)
    ensures r.Failure? <==> ctx.None?
    ensures r.Failure? ==> r.error == UseNavMessage(name)
    ensures r.Success? ==> r.value.name == name && (r.value.isOpen <==> IsPanelOpen(ctx.value, name))
  {
    if ctx.None? then Failure(UseNavMessage(name))
    else Success(PanelNav(name, IsPanelOpen(ctx.value, name)))
  }

  /** `useNav()`'s controls reach the provider under this panel's name only: `navigate` is
      `navigatePanel(name, …)`, `close` is `closePanel(name)`, and `isOpen` is `isPanelOpen(name)`. */
  lemma UseNavDelegates(s: State, name: string, to: string, search: Option<Entries>)
    ensures var n := UseNav(Some(s), name).value;
            Perform(s, NavNavigate(n, to, search)) == NavigatePanel(s, name, to, search) &&
            Perform(s, NavClose(n)) == (s, ClosePanel(s, name)) &&
            (n.isOpen <==> IsPanelOpen(s, name))
  {
  }

  /** The message names the panel: the name stands between the opening text and the closing
      quote, so two panels never share a message. */
  lemma UseNavMessageNamesPanel(name: string, other: string)
    ensures var m := UseNavMessage(name);
            var i := |UseNavPrefix|;
            |m| > i + |name| && m[i..i + |name|] == name && m[i + |name|] == '"'
    ensures UseNavMessage(name) == UseNavMessage(other) <==> name == other
  {
    var i := |UseNavPrefix|;
    var m := UseNavMessage(name);
    assert UseNavSuffix[0] == '"';
    assert m[i..i + |name|] == name;
    if UseNavMessage(name) == UseNavMessage(other) {
      var o := UseNavMessage(other);
      assert |name| == |other|;
      assert o[i..i + |other|] == other;
    }
  }
}

=== FILE: create_panel_system.dfy ===
/** `createPanelSystem` (lib/panel-system/create-panel-system.tsx): one name list for the provider
    and the links, the host route's `validateSearch`, and the `usePanel` hook. */
module CreatePanelSystem {
  import opened Wrappers
  import opened Records
  import opened SystemProvider
  import opened CreatePanel

  /** The system as the provider and the links see it: the keys of the `panels` object in order,
      and the panel each key names. */
  datatype PanelSystem = PanelSystem(names: seq<string>, panels: map<string, PanelDef>)

  /** The keys of a `panels` object literal, in order. */
  function KeysInOrder(entries: seq<(string, PanelInstance)>): (ks: seq<string>)
    ensures |ks| == |entries| && forall i :: 0 <= i < |ks| ==> ks[i] == entries[i].0
  {
    if entries == [] then [] else [entries[0].0] + KeysInOrder(entries[1..])
  }

  function PanelMap(entries: seq<(string, PanelInstance)>): (m: map<string, PanelDef>)
    requires forall i, j :: 0 <= i < j < |entries| ==> entries[i].0 != entries[j].0
    ensures forall k :: k in m <==> exists i :: 0 <= i < |entries| && entries[i].0 == k
    ensures forall i :: 0 <= i < |entries| ==> entries[i].0 in m && m[entries[i].0] == entries[i].1.def
  {
    map i | 0 <= i < |entries| :: entries[i].0 := entries[i].1.def
  }

  /** `createPanelSystem({ panels })`: the provider, `Link` and `MainLink` all use
      `Object.keys(panels)`. */
  function CreatePanelSystem(entries: seq<(string, PanelInstance)>): (sys: PanelSystem)
    requires forall i, j :: 0 <= i < j < |entries| ==> entries[i].0 != entries[j].0
    ensures |sys.names| == |entries|
    ensures forall i :: 0 <= i < |entries| ==> sys.names[i] == entries[i].0
    ensures forall i :: 0 <= i < |entries| ==>
              entries[i].0 in sys.panels && sys.panels[entries[i].0] == entries[i].1.def
    ensures forall k :: k in sys.panels ==> k in sys.names
  {
    var names := KeysInOrder(entries);
    var m := PanelMap(entries);
    forall k | k in m ensures k in names {
      var i :| 0 <= i < |entries| && entries[i].0 == k;
      assert names[i] == k;
    }
    PanelSystem(names, m)
  }

  /** The provider mounted for a system starts well formed: its names are distinct and are exactly
      the registered panels. */
  lemma MountWellFormed(entries: seq<(string, PanelInstance)>, path: string, query: Query)
    requires forall i, j :: 0 <= i < j < |entries| ==> entries[i].0 != entries[j].0
    ensures var sys := CreatePanelSystem(entries); WellFormed(Mount(sys.names, sys.panels, path, query))
  {
    var sys := CreatePanelSystem(entries);
    forall n | n in sys.names ensures n in sys.panels {
      var i :| 0 <= i < |sys.names| && sys.names[i] == n;
    }
  }

  /** The application's system: `{ left: leftPanel, right: rightPanel }`. */
  function AppSystem(): (sys: PanelSystem)
    ensures sys.names == ["left", "right"]
    ensures sys.panels.Keys == {"left", "right"}
    ensures sys.panels["left"].defaultPath == "/categories" && sys.panels["right"].defaultPath == "/"
  {
    var entries := [("left", LeftPanel), ("right", RightPanel)];
    TwoPanelSystem(entries);
    CreatePanelSystem(entries)
  }

  /** A system of two distinct panels lists both names, in order, and nothing else. */
  lemma TwoPanelSystem(entries: seq<(string, PanelInstance)>)
    requires |entries| == 2 && entries[0].0 != entries[1].0
    ensures var sys := CreatePanelSystem(entries);
            sys.names == [entries[0].0, entries[1].0] && sys.panels.Keys == {entries[0].0, entries[1].0} &&
            sys.panels[entries[0].0] == entries[0].1.def && sys.panels[entries[1].0] == entries[1].1.def
  {
    var sys := CreatePanelSystem(entries);
    forall k | k in sys.panels ensures k == entries[0].0 || k == entries[1].0 {
      assert k in sys.names;
    }
  }

  // ----- validateSearch -----

  /** `validateSearch(search)`: exactly the panel names, each the raw value when it is a string
      and `undefined` otherwise; every other key is dropped. */
  function ValidateSearch(names: seq<string>, raw: RawQuery): (q: Query)
    ensures forall k :: k in q <==> k in names
    ensures forall k :: k in names ==> q[k] == StringOrUndefined(RawLookup(raw, k))
  {
    map k | k in names :: StringOrUndefined(RawLookup(raw, k))
  }

  /** A validated query read back as raw values, as the host router hands it to the next
      validation. */
  function AsRaw(q: Query): (raw: RawQuery)
    ensures raw.Keys == q.Keys
    ensures forall k :: k in q ==> StringOrUndefined(raw[k]) == q[k]
  {
    map k | k in q :: if q[k].Some? then RawString(q[k].value) else RawOther
  }

  /** Validating a validated query changes nothing. */
  lemma ValidateIdempotent(names: seq<string>, raw: RawQuery)
    ensures var q := ValidateSearch(names, raw); ValidateSearch(names, AsRaw(q)) == q
  {
    var q := ValidateSearch(names, raw);
    var q2 := ValidateSearch(names, AsRaw(q));
    assert forall k :: k in q2 ==> q2[k] == q[k] by {
      forall k | k in q2 ensures q2[k] == q[k] {
        assert RawLookup(AsRaw(q), k) == AsRaw(q)[k];
      }
    }
  }

  // ----- usePanel -----

  /** `usePanel()`'s result: a control per panel, shaped like `useNav()`'s, and `isPanelMode` (and
      `navigateMain`, the provider's own). */
  datatype UsePanelReturn = UsePanelReturn(controls: map<string, PanelNav>, isPanelMode: bool)

  /** `panelNames.some(isPanelOpen)`. */
  predicate AnyOpen(s: State, names: seq<string>)
    decreases |names|
  {
    names != [] && (IsPanelOpen(s, names[0]) || AnyOpen(s, names[1..]))
  }

  lemma {:induction false} AnyOpenExists(s: State, names: seq<string>)
    ensures AnyOpen(s, names) <==> exists i :: 0 <= i < |names| && IsPanelOpen(s, names[i])
    decreases |names|
  {
    if names != [] {
      AnyOpenExists(s, names[1..]);
      if !IsPanelOpen(s, names[0]) && AnyOpen(s, names[1..]) {
        var i :| 0 <= i < |names[1..]| && IsPanelOpen(s, names[1..][i]);
        assert IsPanelOpen(s, names[i + 1]);
      }
      if exists i :: 0 <= i < |names| && IsPanelOpen(s, names[i]) {
        var i :| 0 <= i < |names| && IsPanelOpen(s, names[i]);
        if i > 0 {
          assert names[1..][i - 1] == names[i];
        }
      }
    }
  }

  const UsePanelMessage: string := "usePanel must be used within panels.Provider"

  /** `usePanel()`: throws without a provider; otherwise one control per panel name, bound to that
      name, and `isPanelMode` when some panel is open (an empty value counts as open). */
  function UsePanel(names: seq<string>, ctx: Option<State>): (r: Result<UsePanelReturn, string>)
    ensures r.Failure? <==> ctx.None?
    ensures r.Failure? ==> r.error == UsePanelMessage
    ensures r.Success? ==> forall k :: k in r.value.controls <==> k in names
    ensures r.Success? ==> forall k :: k in names ==>
              r.value.controls[k].name == k && (r.value.controls[k].isOpen <==> IsPanelOpen(ctx.value, k))
    ensures r.Success? ==>
              (r.value.isPanelMode <==> exists i :: 0 <= i < |names| && IsPanelOpen(ctx.value, names[i]))
  {
    if ctx.None? then Failure(UsePanelMessage)
    else
      var s := ctx.value;
      AnyOpenExists(s, names);
      Success(UsePanelReturn(map k | k in names :: PanelNav(k, IsPanelOpen(s, k)), AnyOpen(s, names)))
  }

  /** Each of `usePanel()`'s controls reaches the provider under its own panel's name, exactly as
      that panel's `useNav()` does. */
  lemma UsePanelDelegates(s: State, names: seq<string>, k: string, to: string, search: Option<Entries>)
    requires k in names
    ensures var c := UsePanel(names, Some(s)).value.controls[k];
            c == UseNav(Some(s), k).value &&
            Perform(s, NavNavigate(c, to, search)) == NavigatePanel(s, k, to, search) &&
            Perform(s, NavClose(c)) == (s, ClosePanel(s, k))
  {
  }

  /** A panel is open in the sense of `isPanelMode` even while its value is empty, though the sync
      step never moves its router for it. */
  lemma EmptyValueIsOpen(s: State, name: string)
    requires name in s.panels && Lookup(s.query, name) == Some("")
    ensures IsPanelOpen(s, name)
    ensures HandleOf(SyncOne(s, name), name) == HandleOf(s, name)
  {
  }
}

=== FILE: json.dfy ===
/** `JSON.stringify` of a `Record<string, string>`, as ECMA-262 defines it (QuoteJSONString and
    SerializeJSONObject), for the error message `resolvePath` throws. */
module Json {
  import opened Records

  /** Lower-case hexadecimal digit, as `\u00xx` escapes are written. */
  function LowerHex(d: int): (c: char)
    requires 0 <= d < 16
  {
    "0123456789abcdef"[d]
  }

  /** One character inside a JSON string literal. */
  function EscapeChar(c: char): (r: string)
    ensures |r| >= 1
    ensures c != '"' && c != '\\' && c as int >= 0x20 ==> r == [c]
  {
    if c == '"' then "\\\""
    else if c == '\\' then "\\\\"
    else if c == '\U{8}' then "\\b"
    else if c == '\t' then "\\t"
    else if c == '\n' then "\\n"
    else if c == '\U{C}' then "\\f"
    else if c == '\r' then "\\r"
    else if c as int < 0x20 then "\\u00" + [LowerHex(c as int / 16), LowerHex(c as int % 16)]
    else [c]
  }

  function EscapeString(s: string): (r: string)
    ensures |r| >= |s|
  {
    if s == "" then "" else EscapeChar(s[0]) + EscapeString(s[1..])
  }

  function Quote(s: string): (r: string)
    ensures |r| >= 2 && r[0] == '"' && r[|r| - 1] == '"'
  {
    "\"" + EscapeString(s) + "\""
  }

  function Members(r: Entries): string
  {
    if r == [] then ""
    else
      var m := Quote(r[0].0) + ":" + Quote(r[0].1);
      if |r| == 1 then m else m + "," + Members(r[1..])
  }

  /** `JSON.stringify(record)`: `{"k":"v",...}` in enumeration order. */
  function Stringify(r: Entries): (s: string)
    ensures |s| >= 2 && s[0] == '{' && s[|s| - 1] == '}'
    ensures r == [] <==> s == "{}"
  {
    "{" + Members(r) + "}"
  }

  /** A character written as itself needs no escape; only the quote and the backslash among
      printable characters are escaped. */
  lemma PlainTextUnescaped(s: string)
    requires forall i :: 0 <= i < |s| ==> s[i] != '"' && s[i] != '\\' && s[i] as int >= 0x20
    ensures EscapeString(s) == s
  {
  }
}

=== FILE: legacy_routers.dfy ===
/** The older one-shot router cells: the generic `createPanelRouter(routeTree, defaultPath)`
    (lib/create-panel-router.ts) and the two module-level singletons `getLeftRouter` and
    `getRightRouter` (routes/left-panel/route.tsx, routes/right-panel/route.tsx).  All three always
    configure the pending component with a 200 ms threshold. */
module LegacyRouters {
  import opened Wrappers
  import opened PanelRouter

  const Pending200: Option<PendingConfig> := Some(PendingConfig(RoutePending, 200))

  /** `createPanelRouter(routeTree, defaultPath)`: an empty cell whose first call seeds the history
      with `initialPath ?? defaultPath`. */
  function CreatePanelRouter(tree: RouteTree, defaultPath: string): (f: Factory)
    ensures f.instance.None? && f.tree == tree && f.fallback == defaultPath
    ensures f.pending == Some(PendingConfig(RoutePending, 200))
  {
    Factory(tree, Pending200, defaultPath, None)
  }

  /** A run of calls to a fresh legacy factory: one router, seeded by the first call's path or the
      default path, with the 200 ms pending threshold, returned by every call. */
  lemma LegacyFactoryBuildsOnce(tree: RouteTree, defaultPath: string, args: seq<Option<string>>)
    requires |args| >= 1
    ensures var hs := CallAll(CreatePanelRouter(tree, defaultPath), args).1;
            forall i :: 0 <= i < |args| ==>
              hs[i] == Handle(tree, Some(PendingConfig(RoutePending, 200)), Seeded(args[0].GetOr(defaultPath)))
  {
    AtMostOneRouter(CreatePanelRouter(tree, defaultPath), args);
  }

  /** The left panel's tree of the older layout (categories are not in it: dashboard and users). */
  const LegacyLeftTree: RouteTree := RouteTree("routes/left-panel/route.tsx:leftPanelTree")
  const LegacyRightTree: RouteTree := RouteTree("routes/right-panel/route.tsx:rightPanelTree")

  /** `createLeftRouter(initialPath = '/dash')`. */
  function CreateLeftRouter(initialPath: Option<string>): (h: Handle)
    ensures h.tree == LegacyLeftTree && h.pending == Some(PendingConfig(RoutePending, 200))
    ensures h.location == Seeded(initialPath.GetOr("/dash"))
  {
    Create(LegacyLeftTree, Pending200, initialPath.GetOr("/dash"))
  }

  /** `createRightRouter(initialPath = '/posts')`. */
  function CreateRightRouter(initialPath: Option<string>): (h: Handle)
    ensures h.tree == LegacyRightTree && h.pending == Some(PendingConfig(RoutePending, 200))
    ensures h.location == Seeded(initialPath.GetOr("/posts"))
  {
    Create(LegacyRightTree, Pending200, initialPath.GetOr("/posts"))
  }

  /** `getLeftRouter(initialPath)` on the module cell `_leftRouter`: creates only while the cell is
      empty.  It is the generic one-shot cell with fallback `/dash`. */
  function GetLeftRouter(cell: Option<Handle>, initialPath: Option<string>): (r: (Option<Handle>, Handle))
    ensures r.0 == Some(r.1)
    ensures cell.Some? ==> r.1 == cell.value
    ensures cell.None? ==> r.1 == CreateLeftRouter(initialPath)
    ensures var (f, h) := Call(Factory(LegacyLeftTree, Pending200, "/dash", cell), initialPath);
            r == (f.instance, h)
  {
    if cell.None? then
      var h := CreateLeftRouter(initialPath);
      (Some(h), h)
    else (cell, cell.value)
  }

  /** `getRightRouter(initialPath)` on `_rightRouter`, the one-shot cell with fallback `/posts`. */
  function GetRightRouter(cell: Option<Handle>, initialPath: Option<string>): (r: (Option<Handle>, Handle))
    ensures r.0 == Some(r.1)
    ensures cell.Some? ==> r.1 == cell.value
    ensures cell.None? ==> r.1 == CreateRightRouter(initialPath)
    ensures var (f, h) := Call(Factory(LegacyRightTree, Pending200, "/posts", cell), initialPath);
            r == (f.instance, h)
  {
    if cell.None? then
      var h := CreateRightRouter(initialPath);
      (Some(h), h)
    else (cell, cell.value)
  }

  /** Calls to `getLeftRouter` from an empty cell, in order. */
  function GetLeftRouterAll(cell: Option<Handle>, args: seq<Option<string>>): (r: (Option<Handle>, seq<Handle>))
    ensures |r.1| == |args|
    decreases |args|
  {
    if args == [] then (cell, [])
    else
      var (c1, h) := GetLeftRouter(cell, args[0]);
      var (c2, hs) := GetLeftRouterAll(c1, args[1..]);
      (c2, [h] + hs)
  }

  /** The left singleton: whatever paths later calls pass, every call returns the router the first
      call created from its own path (or `/dash`). */
  lemma {:induction false} LeftSingleton(args: seq<Option<string>>)
    requires |args| >= 1
    ensures forall i :: 0 <= i < |args| ==> GetLeftRouterAll(None, args).1[i] == CreateLeftRouter(args[0])
  {
    var h := CreateLeftRouter(args[0]);
    FilledLeftCellKeeps(h, args[1..]);
    assert GetLeftRouterAll(None, args).1 == [h] + GetLeftRouterAll(Some(h), args[1..]).1;
  }

  lemma {:induction false} FilledLeftCellKeeps(h: Handle, args: seq<Option<string>>)
    ensures GetLeftRouterAll(Some(h), args).0 == Some(h)
    ensures forall i :: 0 <= i < |args| ==> GetLeftRouterAll(Some(h), args).1[i] == h
    decreases |args|
  {
    if args != [] {
      FilledLeftCellKeeps(h, args[1..]);
    }
  }

  /** Calls to `getRightRouter` in order. */
  function GetRightRouterAll(cell: Option<Handle>, args: seq<Option<string>>): (r: (Option<Handle>, seq<Handle>))
    ensures |r.1| == |args|
    decreases |args|
  {
    if args == [] then (cell, [])
    else
      var (c1, h) := GetRightRouter(cell, args[0]);
      var (c2, hs) := GetRightRouterAll(c1, args[1..]);
      (c2, [h] + hs)
  }

  /** The right singleton: every call returns the router the first call created. */
  lemma {:induction false} RightSingleton(args: seq<Option<string>>)
    requires |args| >= 1
    ensures forall i :: 0 <= i < |args| ==> GetRightRouterAll(None, args).1[i] == CreateRightRouter(args[0])
  {
    var h := CreateRightRouter(args[0]);
    FilledRightCellKeeps(h, args[1..]);
    assert GetRightRouterAll(None, args).1 == [h] + GetRightRouterAll(Some(h), args[1..]).1;
  }

  lemma {:induction false} FilledRightCellKeeps(h: Handle, args: seq<Option<string>>)
    ensures GetRightRouterAll(Some(h), args).0 == Some(h)
    ensures forall i :: 0 <= i < |args| ==> GetRightRouterAll(Some(h), args).1[i] == h
    decreases |args|
  {
    if args != [] {
      FilledRightCellKeeps(h, args[1..]);
    }
  }
}

=== FILE: panel_link.dfy ===
/** `createPanelLink(panelName)` (lib/panel-system/panel-link.tsx): a link that opens one panel at a
    path, keeping the other panels as they are. */
module PanelLink {
  import opened Wrappers
  import opened Records
  import opened UrlEncoding
  import opened PanelUtils
  import opened SystemProvider
  import opened SystemLink

  /** The panel value the link carries: the path with its params substituted, then the search
      appended when one is given.  A missing param is `resolvePath`'s error, thrown while rendering. */
  function LinkValue(to: string, params: Option<Entries>, search: Option<Entries>): (r: Result<string, string>)
    ensures r.Success? <==> ResolvePath(to, params).Success?
    ensures r.Failure? ==> r.error == ResolvePath(to, params).error
    ensures r.Success? && search.None? ==> r.value == ResolvePath(to, params).value
    ensures r.Success? && search.Some? ==> r.value == BuildPanelValue(ResolvePath(to, params).value, search)
  {
    var resolved :- ResolvePath(to, params);
    Success(PanelValue(resolved, search))
  }

  /** The link's `href`: without a provider the literal `/?<name>=<encoded value>`, otherwise `/`
      with every registered name, this panel's set to the value and every other one as it is now
      (the query `navigatePanel` writes). */
  function LinkHref(ctx: Option<State>, panelName: string, value: string): (h: Href)
    ensures ctx.None? ==> h == Literal("/?" + panelName + "=" + EncodeUriComponent(value))
    ensures ctx.Some? ==> h.Built? && h.path == "/"
    ensures ctx.Some? ==> forall k :: k in h.search <==> k in ctx.value.names
    ensures ctx.Some? && panelName in ctx.value.names ==> h.search[panelName] == Some(value)
    ensures ctx.Some? ==> forall k :: k in ctx.value.names && k != panelName ==> h.search[k] == Lookup(ctx.value.query, k)
  {
    if ctx.None? then Literal("/?" + panelName + "=" + EncodeUriComponent(value))
    else Built("/", NextSearch(ctx.value.names, ctx.value.query, panelName, value))
  }

  /** The literal href holds the value recoverably: after `/?<name>=` comes the value's
      `encodeURIComponent` form, which unescapes back to the value. */
  lemma LiteralHrefCarriesValue(panelName: string, value: string)
    ensures var h := LinkHref(None, panelName, value);
            var head := "/?" + panelName + "=";
            |h.text| >= |head| && h.text[..|head|] == head &&
            UnescapeComponent(h.text[|head|..]) == value
  {
    var head := "/?" + panelName + "=";
    var e := EncodeUriComponent(value);
    assert LinkHref(None, panelName, value).text == head + e;
    assert (head + e)[..|head|] == head && (head + e)[|head|..] == e;
    UnescapeEncodeUriComponent(value);
  }

  /** `handleClick`: a modified click, or a click without a provider, does nothing and lets the
      browser follow the href; a plain click calls `navigatePanel(panelName, value)` once, with no
      options. */
  function LinkClick(ctx: Option<State>, panelName: string, value: string, click: Click): (r: ClickOutcome)
    ensures r.error.None?
    ensures Modified(click) || ctx.None? ==> !r.prevented && r.actions == []
    ensures !Modified(click) && ctx.Some? ==> r.prevented && r.actions == [NavigateTo(panelName, value, None)]
  {
    if Modified(click) || ctx.None? then ClickOutcome(false, [], None)
    else ClickOutcome(true, [NavigateTo(panelName, value, None)], None)
  }

  /** One call in a handler: its single host navigation is the one that lands. */
  lemma RunOne(s: State, a: Action)
    ensures RunClick(s, [a]) == Apply(Perform(s, a).0, Perform(s, a).1)
  {
    var (t, nav) := Perform(s, a);
    assert [a][1..] == [];
    assert PerformAll(s, [a]) == (t, [nav] + []);
    assert [nav] + [] == [nav];
    assert ApplyAll(t, [nav]) == ApplyAll(Apply(t, nav), []);
  }

  /** Clicking lands where the href points: the one call's host navigation is the href's query at
      `/`, and the panel's router is already at the value when the panel is registered. */
  lemma ClickFollowsHref(s: State, panelName: string, value: string)
    ensures var out := LinkClick(Some(s), panelName, value, Click(false, false, false));
            var u := RunClick(s, out.actions);
            var h := LinkHref(Some(s), panelName, value);
            u.path == h.path && u.query == h.search &&
            (panelName in s.panels ==> At(u, panelName, value))
  {
    RunOne(s, NavigateTo(panelName, value, None));
  }

  /** With a provider, the href a panel link shows is the one `navigatePanel` would ask for. */
  lemma HrefIsNavigatePanelQuery(s: State, panelName: string, to: string, search: Option<Entries>)
    ensures LinkHref(Some(s), panelName, PanelValue(to, search)) == Built("/", NavigatePanel(s, panelName, to, search).1.search)
  {
  }

  /** A successful, mounted, plain click keeps the provider recoverable, so after the sync step the
      panel shows the value and the URL holds it. */
  lemma ClickThenSync(s: State, panelName: string, value: string)
    requires WellFormed(s) && Recoverable(s) && panelName in s.names && value != ""
    ensures var out := LinkClick(Some(s), panelName, value, Click(false, false, false));
            var r := Sync(RunClick(s, out.actions));
            Consistent(r) && Lookup(r.query, panelName) == Some(value) && At(r, panelName, value)
  {
    RunOne(s, NavigateTo(panelName, value, None));
    NavigateThenSync(s, panelName, value, None);
  }
}

=== FILE: panel_router.dfy ===
/** A panel's own router, seen from outside: an opaque handle whose only observable is its current
    location, and the one-shot cells that create it. */
module PanelRouter {
  import opened Wrappers

  /** The route tree a router serves and the pending component it shows, named but not modelled. */
  datatype RouteTree = RouteTree(id: string)
  datatype Component = Component(id: string)

  const RoutePending: Component := Component("RoutePending")

  /** `defaultPendingComponent` and `defaultPendingMs`. */
  datatype PendingConfig = PendingConfig(component: Component, ms: nat)

  /** Where a router is: the single entry its memory history was seeded with, or the target of the
      last `navigate({ to, search })` call (`search` absent when the call had none). */
  datatype Location =
    | Seeded(entry: string)
    | Navigated(to: string, search: Option<map<string, string>>)

  datatype Handle = Handle(tree: RouteTree, pending: Option<PendingConfig>, location: Location)

  /** `createRouter` with a memory history holding `[entry]`. */
  function Create(tree: RouteTree, pending: Option<PendingConfig>, entry: string): (h: Handle)
    ensures h.tree == tree && h.pending == pending && h.location == Seeded(entry)
  {
    Handle(tree, pending, Seeded(entry))
  }

  /** `router.navigate({ to, search })`: the router is the same, only its location moves. */
  function Navigate(h: Handle, to: string, search: Option<map<string, string>>): (r: Handle)
    ensures r.tree == h.tree && r.pending == h.pending
    ensures r.location == Navigated(to, search)
  {
    h.(location := Navigated(to, search))
  }

  /** A router factory with its cell.  The three copies in the program differ only in the fallback
      for a missing initial path and in the pending configuration they pass to `createRouter`. */
  datatype Factory = Factory(
    tree: RouteTree,
    pending: Option<PendingConfig>,
    fallback: string,
    instance: Option<Handle>)

  /** One call `factory(initialPath)`: the first call creates the router seeded with
      `initialPath ?? fallback`, every later call returns it and ignores its argument. */
  function Call(f: Factory, initialPath: Option<string>): (r: (Factory, Handle))
    ensures r.0 == f.(instance := Some(r.1))
    ensures f.instance.Some? ==> r.1 == f.instance.value
    ensures f.instance.None? ==> r.1 == Create(f.tree, f.pending, initialPath.GetOr(f.fallback))
  {
    match f.instance
    case Some(h) => (f, h)
    case None =>
      var h := Create(f.tree, f.pending, initialPath.GetOr(f.fallback));
      (f.(instance := Some(h)), h)
  }

  /** The results of calling the factory on each argument in turn. */
  function CallAll(f: Factory, args: seq<Option<string>>): (r: (Factory, seq<Handle>))
    ensures |r.1| == |args|
    ensures r.0.tree == f.tree && r.0.pending == f.pending && r.0.fallback == f.fallback
    decreases |args|
  {
    if args == [] then (f, [])
    else
      var (f1, h) := Call(f, args[0]);
      var (f2, hs) := CallAll(f1, args[1..]);
      (f2, [h] + hs)
  }

  /** Once a cell holds a router, every call returns that router and the cell does not change. */
  lemma {:induction false} FilledCellKeeps(f: Factory, args: seq<Option<string>>)
    requires f.instance.Some?
    ensures CallAll(f, args).0 == f
    ensures forall i :: 0 <= i < |args| ==> CallAll(f, args).1[i] == f.instance.value
    decreases |args|
  {
    if args != [] {
      FilledCellKeeps(f, args[1..]);
    }
  }

  /** From an empty cell, a run of calls creates exactly one router: the one the first call seeds
      with its own argument, or the fallback, and all calls return it. */
  lemma {:induction false} AtMostOneRouter(f: Factory, args: seq<Option<string>>)
    requires f.instance.None? && |args| >= 1
    ensures var h := Create(f.tree, f.pending, args[0].GetOr(f.fallback));
            CallAll(f, args).0.instance == Some(h) &&
            forall i :: 0 <= i < |args| ==> CallAll(f, args).1[i] == h
  {
    var (f1, h) := Call(f, args[0]);
    FilledCellKeeps(f1, args[1..]);
  }
}

=== FILE: panel_shell.dfy ===
/** The older two-panel coordinator (routes/components/PanelShell.tsx): the same protocol as the panel
    system's provider, written out for `left` and `right`, with the routers kept in the module cells
    of `getLeftRouter` and `getRightRouter`.  Unlike the provider, it hands the whole panel value to
    the router as the path, and opening or closing the right panel forces the left one open. */
module PanelShell {
  import opened Wrappers
  import opened Records
  import opened PanelRouter
  import opened LegacyRouters
  import opened RootRoute
  import PanelUtils

  /** The host's path and validated search, the two router cells, and the last values the two
      layout effects saw (`prevLeftRef`, `prevRightRef`). */
  datatype ShellState = ShellState(
    path: string,
    search: PanelSearch,
    leftCell: Option<Handle>,
    rightCell: Option<Handle>,
    prevLeft: Option<string>,
    prevRight: Option<string>)

  /** The shell's `panelNavigate(router, to)`: `navigate({ to })` with the whole value as the path. */
  function ShellTarget(value: string): (loc: Location)
    ensures loc.Navigated? && loc.to == value && loc.search.None?
  {
    Navigated(value, None)
  }

  /** The shell as first mounted: no router created yet, nothing seen. */
  function Mount(path: string, search: PanelSearch, leftCell: Option<Handle>, rightCell: Option<Handle>): (s: ShellState)
    ensures Recoverable(s)
  {
    ShellState(path, search, leftCell, rightCell, None, None)
  }

  /** Rendering: `getLeftRouter(search.left || '/')` and `getRightRouter(search.right || '/posts')`
      fill the cells the first time and return what they hold afterwards. */
  function Render(s: ShellState): (r: ShellState)
    ensures r.leftCell.Some? && r.rightCell.Some?
    ensures s.leftCell.Some? ==> r.leftCell == s.leftCell
    ensures s.rightCell.Some? ==> r.rightCell == s.rightCell
    ensures s.leftCell.None? ==> r.leftCell.value.location == Seeded(OrElse(s.search.left, "/"))
    ensures s.rightCell.None? ==> r.rightCell.value.location == Seeded(OrElse(s.search.right, "/posts"))
    ensures r.path == s.path && r.search == s.search && r.prevLeft == s.prevLeft && r.prevRight == s.prevRight
  {
    var l := GetLeftRouter(s.leftCell, Some(OrElse(s.search.left, "/"))).0;
    var rr := GetRightRouter(s.rightCell, Some(OrElse(s.search.right, "/posts"))).0;
    s.(leftCell := l, rightCell := rr)
  }

  /** A side's router shows `value`. */
  predicate Shows(cell: Option<Handle>, value: string)
  {
    cell.Some? && cell.value.location == ShellTarget(value)
  }

  /** One side's layout effect: navigate iff the value is non-empty and differs from the last one
      seen; then remember the value, `undefined` included. */
  function SyncSide(cell: Option<Handle>, v: Option<string>, prev: Option<string>): (r: (Option<Handle>, Option<string>))
    ensures r.1 == v
    ensures Truthy(v) && v != prev && cell.Some? ==> Shows(r.0, v.value)
    ensures !(Truthy(v) && v != prev) ==> r.0 == cell
    ensures r.0.Some? <==> cell.Some?
  {
    if Truthy(v) && v != prev && cell.Some? then (Some(Navigate(cell.value, v.value, None)), v)
    else (cell, v)
  }

  /** Render, then the left effect, then the right one. */
  function Sync(s: ShellState): (r: ShellState)
    ensures r.path == s.path && r.search == s.search
    ensures r.prevLeft == s.search.left && r.prevRight == s.search.right
  {
    var t := Render(s);
    var (l, pl) := SyncSide(t.leftCell, t.search.left, t.prevLeft);
    var (rr, pr) := SyncSide(t.rightCell, t.search.right, t.prevRight);
    t.(leftCell := l, prevLeft := pl, rightCell := rr, prevRight := pr)
  }

  /** Every side with a non-empty value shows it. */
  predicate Consistent(s: ShellState)
  {
    (Truthy(s.search.left) ==> Shows(s.leftCell, s.search.left.value)) &&
    (Truthy(s.search.right) ==> Shows(s.rightCell, s.search.right.value))
  }

  /** Both effects have seen the current search. */
  predicate Synced(s: ShellState)
  {
    s.prevLeft == s.search.left && s.prevRight == s.search.right
  }

  /** A side the effects will skip (its value is the last one seen) already shows that value. */
  predicate Recoverable(s: ShellState)
  {
    (Truthy(s.search.left) && s.search.left == s.prevLeft ==> Shows(s.leftCell, s.search.left.value)) &&
    (Truthy(s.search.right) && s.search.right == s.prevRight ==> Shows(s.rightCell, s.search.right.value))
  }

  /** The effects restore agreement: from a recoverable state, after the sync step every side with a
      non-empty value shows it and both values are remembered. */
  lemma SyncRestores(s: ShellState)
    requires Recoverable(s)
    ensures Consistent(Sync(s)) && Synced(Sync(s)) && Recoverable(Sync(s))
  {
  }

  /** The sync step on a synced state changes nothing but may fill empty cells. */
  lemma SyncTwice(s: ShellState)
    requires Recoverable(s)
    ensures Sync(Sync(s)) == Sync(s)
  {
  }

  // ----- navigators -----

  /** The calls of the context's `navigators`. */
  datatype ShellAction =
    | NavigateLeft(to: string)
    | NavigateRight(to: string)
    | ShowRight(to: string)
    | CloseRight
    | NavigateMain(to: string)

  /** One call, against the rendered state: the router it moves, and the host navigation it asks
      for, built from the render's search. */
  function Perform(s: ShellState, a: ShellAction): (r: (ShellState, Nav))
    ensures r.0.path == s.path && r.0.search == s.search && r.0.prevLeft == s.prevLeft && r.0.prevRight == s.prevRight
    ensures a.NavigateLeft? ==> Shows(r.0.leftCell, a.to) && r.1 == Nav("/", PanelSearch(Some(a.to), s.search.right))
    ensures a.NavigateRight? || a.ShowRight? ==>
              Shows(r.0.rightCell, a.to) && r.1 == Nav("/", PanelSearch(Some(OrElse(s.search.left, "/")), Some(a.to)))
    ensures a.CloseRight? ==> r.1 == Nav("/", PanelSearch(Some(OrElse(s.search.left, "/")), None))
    ensures a.NavigateMain? ==> r.1 == Nav(a.to, Cleared)
    ensures !a.NavigateLeft? ==> r.0.leftCell == Render(s).leftCell
    ensures !(a.NavigateRight? || a.ShowRight?) ==> r.0.rightCell == Render(s).rightCell
  {
    var t := Render(s);
    match a
    case NavigateLeft(to) =>
      (t.(leftCell := Some(Navigate(t.leftCell.value, to, None))), Nav("/", PanelSearch(Some(to), s.search.right)))
    case NavigateRight(to) =>
      (t.(rightCell := Some(Navigate(t.rightCell.value, to, None))),
       Nav("/", PanelSearch(Some(OrElse(s.search.left, "/")), Some(to))))
    case ShowRight(to) =>
      (t.(rightCell := Some(Navigate(t.rightCell.value, to, None))),
       Nav("/", PanelSearch(Some(OrElse(s.search.left, "/")), Some(to))))
    case CloseRight => (t, Nav("/", PanelSearch(Some(OrElse(s.search.left, "/")), None)))
    case NavigateMain(to) => (t, Nav(to, Cleared))
  }

  /** The host takes the navigation. */
  function Apply(s: ShellState, nav: Nav): (r: ShellState)
    ensures r.path == nav.to && r.search == nav.search
    ensures r.leftCell == s.leftCell && r.rightCell == s.rightCell
    ensures r.prevLeft == s.prevLeft && r.prevRight == s.prevRight
  {
    s.(path := nav.to, search := nav.search)
  }

  /** From a synced state, every call keeps the shell recoverable: a side it writes a new value to
      either shows it already or differs from what the effects last saw. */
  lemma PerformRecoverable(s: ShellState, a: ShellAction)
    requires Consistent(s) && Synced(s)
    ensures var (t, nav) := Perform(s, a); Recoverable(Apply(t, nav))
  {
  }

  /** Opening the right panel, showing it or closing it leaves the left panel open: after the sync
      step the left side holds a non-empty value and shows it. */
  lemma RightCallsKeepLeftOpen(s: ShellState, a: ShellAction)
    requires Consistent(s) && Synced(s)
    requires a.NavigateRight? || a.ShowRight? || a.CloseRight?
    ensures var (t, nav) := Perform(s, a);
            var r := Sync(Apply(t, nav));
            Truthy(r.search.left) && Shows(r.leftCell, r.search.left.value) &&
            (Truthy(s.search.left) ==> r.search.left == s.search.left) &&
            (!Truthy(s.search.left) ==> r.search.left == Some("/"))
  {
    PerformRecoverable(s, a);
    var (t, nav) := Perform(s, a);
    SyncRestores(Apply(t, nav));
  }

  /** After `navigateLeft(to)` and the sync step, the left side shows `to` (when non-empty) and the
      right side is as it was. */
  lemma NavigateLeftThenSync(s: ShellState, to: string)
    requires Consistent(s) && Synced(s)
    ensures var (t, nav) := Perform(s, NavigateLeft(to));
            var r := Sync(Apply(t, nav));
            r.search == PanelSearch(Some(to), s.search.right) && Consistent(r) &&
            (to != "" ==> Shows(r.leftCell, to))
  {
    PerformRecoverable(s, NavigateLeft(to));
    var (t, nav) := Perform(s, NavigateLeft(to));
    SyncRestores(Apply(t, nav));
  }

  /** Closing the right panel records `undefined` as its last value, so reopening it later at the
      very same value navigates its router again. */
  lemma CloseThenReopen(s: ShellState, reopened: Nav)
    requires Consistent(s) && Synced(s) && Truthy(reopened.search.right)
    ensures var (t, nav) := Perform(s, CloseRight);
            var closed := Sync(Apply(t, nav));
            closed.prevRight == None &&
            Shows(Sync(Apply(closed, reopened)).rightCell, reopened.search.right.value)
  {
  }

  /** The shell's routers take the whole value as their path, query and all; the panel system's
      `panelNavigate` splits the query off.  The two disagree on exactly the values holding `?`. */
  lemma WholeValueAsPath(value: string)
    ensures ShellTarget(value) == PanelUtils.TargetOf(value) <==> '?' !in value
  {
    if '?' !in value {
      PanelUtils.ParseWithoutQuery(value);
    }
  }

  // ----- rendering -----

  /** Which panels the shell draws: a side whose value is non-empty. */
  datatype Drawn = Drawn(left: bool, right: bool)

  function Visible(s: ShellState): (d: Drawn)
    ensures d.left <==> s.search.left.Some? && s.search.left.value != ""
    ensures d.right <==> s.search.right.Some? && s.search.right.value != ""
  {
    Drawn(Truthy(s.search.left), Truthy(s.search.right))
  }

  /** After the sync step every drawn panel shows its value; an empty value counts for panel mode
      but draws nothing. */
  lemma DrawnPanelsShowTheirValue(s: ShellState)
    requires Recoverable(s)
    ensures var r := Sync(s);
            (Visible(r).left ==> Shows(r.leftCell, r.search.left.value)) &&
            (Visible(r).right ==> Shows(r.rightCell, r.search.right.value))
    ensures s.search == PanelSearch(Some(""), None) ==> IsPanelMode(s.search) && Visible(s) == Drawn(false, false)
  {
    SyncRestores(s);
  }
}

=== FILE: panel_url.dfy ===
/** The older copy of the panel value codec (lib/panel-url.ts), which the legacy links use.  Its text
    is the same as the panel system's codec; here the split is written as a scan for the first `?`
    and both functions are proved equal to the panel system's. */
module PanelUrl {
  import opened Wrappers
  import opened Records
  import opened UrlEncoding
  import PanelUtils

  /** `parsePanelValue`: the characters before the first `?`, and the rest from that `?` on. */
  function ParsePanelValue(value: string): (p: PanelUtils.ParsedValue)
    ensures p.pathname + p.searchString == value
    ensures '?' !in p.pathname
    ensures p.searchString == "" || p.searchString[0] == '?'
    ensures '?' !in value ==> p.searchString == ""
    decreases |value|
  {
    if value == "" then PanelUtils.ParsedValue("", "")
    else if value[0] == '?' then PanelUtils.ParsedValue("", value)
    else
      var rest := ParsePanelValue(value[1..]);
      ConsParsed(value, rest);
      PanelUtils.ParsedValue([value[0]] + rest.pathname, rest.searchString)
  }

  /** The scan's step: a character other than `?` joins the path part. */
  lemma ConsParsed(value: string, rest: PanelUtils.ParsedValue)
    requires value != "" && value[0] != '?'
    requires rest.pathname + rest.searchString == value[1..] && '?' !in rest.pathname
    requires rest.searchString == "" || rest.searchString[0] == '?'
    requires '?' !in value[1..] ==> rest.searchString == ""
    ensures var p := PanelUtils.ParsedValue([value[0]] + rest.pathname, rest.searchString);
            p.pathname + p.searchString == value && '?' !in p.pathname &&
            (p.searchString == "" || p.searchString[0] == '?') &&
            ('?' !in value ==> p.searchString == "")
  {
    assert value == [value[0]] + value[1..];
    assert [value[0]] + rest.pathname + rest.searchString == [value[0]] + value[1..];
  }

  /** The two copies of `parsePanelValue` agree on every value. */
  lemma ParseSameAsPanelSystem(value: string)
    ensures ParsePanelValue(value) == PanelUtils.ParsePanelValue(value)
  {
    var p := ParsePanelValue(value);
    PanelUtils.ParsePanelValueUnique(value, p.pathname, p.searchString);
  }

  /** `buildPanelValue`: the path alone when the search is absent, empty or holds only empty
      values; otherwise `?` and the serialized non-empty entries follow it. */
  function BuildPanelValue(pathname: string, search: Option<Entries>): (v: string)
    ensures search.None? || PanelUtils.NonEmptyValues(search.value) == [] ==> v == pathname
    ensures search.Some? && PanelUtils.NonEmptyValues(search.value) != [] ==>
              v == pathname + "?" + Serialize(PanelUtils.NonEmptyValues(search.value))
  {
    if search.None? || |search.value| == 0 then pathname
    else
      var filtered := PanelUtils.NonEmptyValues(search.value);
      if |filtered| == 0 then pathname else pathname + "?" + Serialize(filtered)
  }

  /** The two copies of `buildPanelValue` agree on every input. */
  lemma BuildSameAsPanelSystem(pathname: string, search: Option<Entries>)
    ensures BuildPanelValue(pathname, search) == PanelUtils.BuildPanelValue(pathname, search)
  {
    if search.Some? && |search.value| == 0 {
      assert PanelUtils.NonEmptyValues(search.value) == [];
    }
  }

  /** Round trip through the legacy codec: a path without `?` comes back from the value built on
      it, and the query part reads back as the non-empty entries. */
  lemma LegacyBuildThenParse(pathname: string, search: Option<Entries>)
    requires '?' !in pathname
    ensures var p := ParsePanelValue(BuildPanelValue(pathname, search));
            p.pathname == pathname &&
            (search.Some? && PanelUtils.NonEmptyValues(search.value) != [] ==>
               Parse(p.searchString) == PanelUtils.NonEmptyValues(search.value))
  {
    BuildSameAsPanelSystem(pathname, search);
    ParseSameAsPanelSystem(BuildPanelValue(pathname, search));
    PanelUtils.BuildThenParse(pathname, search);
  }
}

=== FILE: panel_utils.dfy ===
/** The panel value codec, path templating, `panelNavigate` and the router factory of the panel
    system (lib/panel-system/panel-utils.ts).  A panel value is the string stored under the panel's
    key in the host query: a path, optionally followed by `?` and a query string. */
module PanelUtils {
  import opened Wrappers
  import opened Strings
  import opened SplitJoin
  import opened Records
  import opened UrlEncoding
  import opened PanelRouter
  import Json

  // ----- Panel value codec -----

  datatype ParsedValue = ParsedValue(pathname: string, searchString: string)

  /** `parsePanelValue`: split at the first `?`, which stays with the query part. */
  function ParsePanelValue(value: string): (p: ParsedValue)
    ensures p.pathname + p.searchString == value
    ensures '?' !in p.pathname
    ensures p.searchString == "" || p.searchString[0] == '?'
  {
    var q := IndexOf(value, '?');
    if q == -1 then ParsedValue(value, "")
    else
      assert value == value[..q] + value[q..];
      ParsedValue(value[..q], value[q..])
  }

  /** The two facts above pin the split down: any prefix without `?` followed by a rest that is empty
      or starts with `?` is the one `parsePanelValue` returns. */
  lemma ParsePanelValueUnique(value: string, pathname: string, searchString: string)
    requires pathname + searchString == value && '?' !in pathname
    requires searchString == "" || searchString[0] == '?'
    ensures ParsePanelValue(value) == ParsedValue(pathname, searchString)
  {
    var p := ParsePanelValue(value);
    assert p.pathname == value[..|p.pathname|] && pathname == value[..|pathname|];
  }

  /** With no `?` the whole value is the path. */
  lemma ParseWithoutQuery(value: string)
    requires '?' !in value
    ensures ParsePanelValue(value) == ParsedValue(value, "")
  {
    ParsePanelValueUnique(value, value, "");
  }

  /** `Object.entries(search).filter(([, v]) => v !== '')`. */
  function NonEmptyValues(r: Entries): (f: Entries)
    ensures forall e :: e in f <==> e in r && e.1 != ""
    ensures |f| <= |r|
    ensures DistinctKeys(r) ==> DistinctKeys(f)
  {
    if r == [] then []
    else
      var rest := NonEmptyValues(r[1..]);
      assert forall e :: e in r[1..] ==> e in r;
      assert forall i :: 1 <= i < |r| ==> r[i] == r[1..][i - 1];
      if r[0].1 == "" then rest else [r[0]] + rest
  }

  /** The filter keeps the order of the entries: filtering a concatenation filters each part and
      concatenates the results. */
  lemma {:induction false} NonEmptyValuesAppend(a: Entries, b: Entries)
    ensures NonEmptyValues(a + b) == NonEmptyValues(a) + NonEmptyValues(b)
    decreases |a|
  {
    if a == [] {
      assert a + b == b;
    } else {
      assert (a + b)[0] == a[0] && (a + b)[1..] == a[1..] + b;
      NonEmptyValuesAppend(a[1..], b);
    }
  }

  /** `buildPanelValue(pathname, search)`: the path alone when there is no search or no entry with a
      non-empty value, else the path, `?` and the serialized non-empty entries in their order. */
  function BuildPanelValue(pathname: string, search: Option<Entries>): (v: string)
    ensures search.None? || NonEmptyValues(search.value) == [] ==> v == pathname
    ensures search.Some? && NonEmptyValues(search.value) != [] ==>
              v == pathname + "?" + Serialize(NonEmptyValues(search.value)) && |v| > |pathname| + 1
  {
    if search.None? || |search.value| == 0 then pathname
    else
      var filtered := NonEmptyValues(search.value);
      if |filtered| == 0 then pathname else pathname + "?" + Serialize(filtered)
  }

  /** The query part a built value carries: for a path without `?`, parsing the value gives the path
      back, and reading its query string gives exactly the non-empty entries, in order. */
  lemma BuildThenParse(pathname: string, search: Option<Entries>)
    requires '?' !in pathname
    ensures var p := ParsePanelValue(BuildPanelValue(pathname, search));
            p.pathname == pathname &&
            (search.None? || NonEmptyValues(search.value) == [] ==> p.searchString == "") &&
            (search.Some? && NonEmptyValues(search.value) != [] ==>
               p.searchString != "" && Parse(p.searchString) == NonEmptyValues(search.value))
  {
    var v := BuildPanelValue(pathname, search);
    if search.None? || NonEmptyValues(search.value) == [] {
      ParseWithoutQuery(v);
    } else {
      var filtered := NonEmptyValues(search.value);
      var qs := Serialize(filtered);
      assert v == pathname + ("?" + qs);
      ParsePanelValueUnique(v, pathname, "?" + qs);
      ParseSerialize(filtered);
      assert ("?" + qs)[1..] == qs;
    }
  }

  /** No entry with an empty value reaches the query string. */
  lemma BuiltQueryHasNoEmptyValue(pathname: string, search: Entries)
    requires '?' !in pathname
    ensures var p := ParsePanelValue(BuildPanelValue(pathname, Some(search)));
            forall e :: e in Parse(p.searchString) ==> e.1 != ""
  {
    BuildThenParse(pathname, Some(search));
    var p := ParsePanelValue(BuildPanelValue(pathname, Some(search)));
    if NonEmptyValues(search) == [] {
      assert p.searchString == "";
      assert Split("", '&') == [""];
    }
  }

  // ----- Path templating -----

  /** The name after a `$`: the longest run of characters other than `/` (the `[^/]+` of the
      pattern `\$([^/]+)`); empty when `/` or the end follows at once. */
  function NameAt(s: string): (name: string)
    ensures '/' !in name && |name| <= |s| && name == s[..|name|]
    ensures |name| == |s| || s[|name|] == '/'
  {
    var j := IndexOf(s, '/');
    if j == -1 then s else s[..j]
  }

  /** The names `resolvePath` looks up in `to`, scanning left to right as a global `replace` does:
      a `$` followed by a non-empty name consumes the name, a bare `$` is kept. */
  function Referenced(s: string): set<string>
    decreases |s|
  {
    if s == "" then {}
    else if s[0] == '$' && NameAt(s[1..]) != "" then
      {NameAt(s[1..])} + Referenced(s[1 + |NameAt(s[1..])|..])
    else Referenced(s[1..])
  }

  /** The message thrown for a name missing from `params`. */
  function MissingParamMessage(key: string, to: string, params: Entries): string
  {
    "Missing param \"" + key + "\" for path \"" + to + "\". Got params: " + Json.Stringify(params)
  }

  /** Substitutes `encodeURIComponent(params[name])` for each referenced `$name` of `s`, failing at
      the first name `params` lacks. */
  function Substitute(s: string, params: Entries, to: string): (r: Result<string, string>)
    decreases |s|
  {
    if s == "" then Success("")
    else if s[0] == '$' && NameAt(s[1..]) != "" then
      var name := NameAt(s[1..]);
      match Get(params, name)
      case None => Failure(MissingParamMessage(name, to, params))
      case Some(v) =>
        var rest :- Substitute(s[1 + |name|..], params, to);
        Success(EncodeUriComponent(v) + rest)
    else
      var rest :- Substitute(s[1..], params, to);
      Success([s[0]] + rest)
  }

  /** `resolvePath(to, params)`: `Failure` is the error thrown. */
  function ResolvePath(to: string, params: Option<Entries>): (r: Result<string, string>)
    ensures params.None? ==> r == Success(to)
    ensures '$' !in to ==> r == Success(to)
  {
    if params.None? then Success(to)
    else
      NoDollarUnchanged(to, params.value, to);
      Substitute(to, params.value, to)
  }

  lemma {:induction false} NoDollarUnchanged(s: string, params: Entries, to: string)
    ensures '$' !in s ==> Substitute(s, params, to) == Success(s)
    decreases |s|
  {
    if s != "" && '$' !in s {
      assert '$' !in s[1..];
      NoDollarUnchanged(s[1..], params, to);
      assert s == [s[0]] + s[1..];
    }
  }

  /** Substitution succeeds exactly when every referenced name is a key of `params`; when it fails,
      the message names one referenced key that is missing. */
  lemma {:induction false} SubstituteFails(s: string, params: Entries, to: string)
    ensures Substitute(s, params, to).Success? <==> Referenced(s) <= KeysOf(params)
    ensures Substitute(s, params, to).Failure? ==>
              exists key :: key in Referenced(s) && key !in KeysOf(params) &&
                Substitute(s, params, to).error == MissingParamMessage(key, to, params)
    decreases |s|
  {
    if s != "" {
      if s[0] == '$' && NameAt(s[1..]) != "" {
        var name := NameAt(s[1..]);
        SubstituteFails(s[1 + |name|..], params, to);
        if Get(params, name).None? {
          assert name in Referenced(s);
        }
      } else {
        SubstituteFails(s[1..], params, to);
      }
    }
  }

  /** The thrown message begins with `Missing param "<key>"`. */
  lemma MissingParamMessageNamesKey(key: string, to: string, params: Entries)
    ensures var m := MissingParamMessage(key, to, params);
            var head := "Missing param \"" + key + "\"";
            |m| > |head| && m[..|head|] == head
  {
  }

  /** `resolvePath` with `params` succeeds exactly when every referenced name is a key, and the
      error otherwise is the missing-param message for one of them. */
  lemma ResolvePathSucceeds(to: string, params: Entries)
    ensures ResolvePath(to, Some(params)).Success? <==> Referenced(to) <= KeysOf(params)
    ensures ResolvePath(to, Some(params)).Failure? ==>
              exists key :: key in Referenced(to) && key !in KeysOf(params) &&
                ResolvePath(to, Some(params)).error == MissingParamMessage(key, to, params)
  {
    SubstituteFails(to, params, to);
  }

  /** Text without `$` is copied as it is, ahead of whatever the rest resolves to. */
  lemma {:induction false} LiteralPrefixCopied(a: string, b: string, params: Entries, to: string)
    requires '$' !in a
    ensures Substitute(a + b, params, to) == PrependText(a, Substitute(b, params, to))
    decreases |a|
  {
    if a == "" {
      assert a + b == b;
      PrependNothing(Substitute(b, params, to));
    } else {
      var c, t := a[0], a[1..];
      assert '$' !in t;
      LiteralPrefixCopied(t, b, params, to);
      assert a + b == [c] + (t + b);
      CopiedHead(c, t + b, params, to);
      assert [c] + t == a;
      PrependTextCons(c, t, Substitute(b, params, to));
    }
  }

  lemma PrependNothing(r: Result<string, string>)
    ensures PrependText("", r) == r
  {
    if r.Success? {
      assert "" + r.value == r.value;
    }
  }

  lemma PrependTextCons(c: char, t: string, r: Result<string, string>)
    ensures Prepend(c, PrependText(t, r)) == PrependText([c] + t, r)
  {
    if r.Success? {
      assert [c] + (t + r.value) == ([c] + t) + r.value;
    }
  }

  /** A `$name` running up to a `/` or the end becomes `encodeURIComponent(params[name])`, ahead of
      whatever the rest resolves to; a name `params` lacks makes the missing-param error. */
  lemma NameSubstituted(name: string, rest: string, params: Entries, to: string)
    requires name != "" && '/' !in name
    requires rest == "" || rest[0] == '/'
    ensures Substitute("$" + name + rest, params, to) ==
              if Get(params, name).None? then Failure(MissingParamMessage(name, to, params))
              else PrependText(EncodeUriComponent(Get(params, name).value), Substitute(rest, params, to))
  {
    var s := "$" + name + rest;
    if rest == "" {
      assert s == "$" + name;
      NameAtEnd(name);
    } else {
      var b := rest[1..];
      assert rest == "/" + b;
      assert s == "$" + name + "/" + b;
      NameBeforeSlash(name, b);
    }
    NamedHead(s, name, params, to);
  }

  /** The example path `/categories/$category` with `category` set to `a b` resolves to
      `/categories/a%20b`. */
  lemma ResolveCategoryExample()
    ensures ResolvePath("/categories/$category", Some([("category", "a b")])) ==
              Success("/categories/a%20b")
  {
    var params := [("category", "a b")];
    var to := "/categories/$category";
    var tail := "$" + CategoryName + "";
    CategoryTemplateSplits();
    assert ResolvePath(to, Some(params)) == Substitute(CategoriesPrefix + tail, params, to);
    LiteralPrefixCopied(CategoriesPrefix, tail, params, to);
    CategoryNameSubstituted(params, to);
    EncodeUriComponentSpace();
    assert Substitute(tail, params, to) == Success("a%20b" + "");
    CategoryJoin();
  }

  lemma CategoryJoin()
    ensures CategoriesPrefix + ("a%20b" + "") == "/categories/a%20b"
  {
  }

  const CategoriesPrefix: string := "/categories/"
  const CategoryName: string := "category"

  /** The example template is a `$`-free prefix followed by `$category`. */
  lemma CategoryTemplateSplits()
    ensures "/categories/$category" == CategoriesPrefix + ("$" + CategoryName + "")
    ensures '$' !in CategoriesPrefix && CategoryName != "" && '/' !in CategoryName
  {
    assert forall i :: 0 <= i < |CategoriesPrefix| ==> CategoriesPrefix[i] != '$';
    assert forall i :: 0 <= i < |CategoryName| ==> CategoryName[i] != '/';
  }

  /** `$category` with `category` set to `a b` becomes its encoding. */
  lemma CategoryNameSubstituted(params: Entries, to: string)
    requires params == [("category", "a b")]
    ensures Substitute("$" + CategoryName + "", params, to) == Success(EncodeUriComponent("a b") + "")
  {
    CategoryTemplateSplits();
    NameSubstituted(CategoryName, "", params, to);
    assert Get(params, CategoryName) == Some("a b");
  }

  /** Joins two substitution results around a `/`, keeping the first failure. */
  function AroundSlash(a: Result<string, string>, b: Result<string, string>): Result<string, string>
  {
    var ra :- a;
    var rb :- b;
    Success(ra + "/" + rb)
  }

  /** Names never run across a `/`, so a template is resolved one segment at a time: the first
      segment, then the rest. */
  lemma {:induction false} SubstituteBySegment(a: string, b: string, params: Entries, to: string)
    requires '/' !in a
    ensures Substitute(a + "/" + b, params, to) ==
              AroundSlash(Substitute(a, params, to), Substitute(b, params, to))
    decreases |a|
  {
    if a == "" {
      EmptySegment(b, params, to);
    } else if a[0] == '$' && |a| > 1 {
      assert a == "$" + a[1..];
      SegmentIsName(a[1..], b, params, to);
    } else {
      SubstituteBySegment(a[1..], b, params, to);
      assert a == [a[0]] + a[1..];
      SegmentStartsLiteral(a[0], a[1..], b, params, to);
    }
  }

  /** An empty first segment: the result is the rest's, after the `/`. */
  lemma EmptySegment(b: string, params: Entries, to: string)
    ensures Substitute("" + "/" + b, params, to) ==
              AroundSlash(Substitute("", params, to), Substitute(b, params, to))
  {
    SlashThen(b, params, to);
    assert "" + "/" + b == "/" + b;
    if Substitute(b, params, to).Success? {
      assert "" + "/" + Substitute(b, params, to).value == "/" + Substitute(b, params, to).value;
    }
  }

  /** A leading `/` is copied. */
  lemma SlashThen(b: string, params: Entries, to: string)
    ensures Substitute("/" + b, params, to) ==
              if Substitute(b, params, to).Success? then Success("/" + Substitute(b, params, to).value)
              else Substitute(b, params, to)
  {
    assert ("/" + b)[1..] == b;
  }

  /** A segment `$name`: the name is the whole rest of the segment on both sides. */
  lemma SegmentIsName(name: string, b: string, params: Entries, to: string)
    requires '/' !in name && name != ""
    ensures Substitute("$" + name + "/" + b, params, to) ==
              AroundSlash(Substitute("$" + name, params, to), Substitute(b, params, to))
  {
    NameBeforeSlash(name, b);
    NameAtEnd(name);
    NamedHead("$" + name + "/" + b, name, params, to);
    NamedHead("$" + name, name, params, to);
    assert Substitute("", params, to) == Success("");
    SlashThen(b, params, to);
    if Get(params, name).Some? {
      AppendAround(EncodeUriComponent(Get(params, name).value), Substitute(b, params, to));
    }
  }

  /** `e` followed by the result, or the failure. */
  function PrependText(e: string, r: Result<string, string>): Result<string, string>
  {
    var v :- r;
    Success(e + v)
  }

  /** The step of `Substitute` at a `$` followed by a non-empty name. */
  lemma NamedHead(s: string, name: string, params: Entries, to: string)
    requires s != "" && s[0] == '$' && NameAt(s[1..]) == name && name != ""
    ensures Substitute(s, params, to) ==
              if Get(params, name).None? then Failure(MissingParamMessage(name, to, params))
              else PrependText(EncodeUriComponent(Get(params, name).value), Substitute(s[1 + |name|..], params, to))
  {
  }

  lemma AppendAround(e: string, y: Result<string, string>)
    ensures PrependText(e, if y.Success? then Success("/" + y.value) else y) ==
              AroundSlash(PrependText(e, Success("")), y)
  {
    if y.Success? {
      assert e + ("/" + y.value) == (e + "") + "/" + y.value;
    }
  }

  /** In `$name/b` the name after `$` is `name`, and the scan resumes at `/b`. */
  lemma NameBeforeSlash(name: string, b: string)
    requires '/' !in name && name != ""
    ensures var s := "$" + name + "/" + b;
            s[0] == '$' && NameAt(s[1..]) == name && s[1 + |name|..] == "/" + b
  {
    var s := "$" + name + "/" + b;
    assert s[1..] == name + "/" + b;
    IndexOfAfterFree(name, '/', b);
  }

  /** In `$name` the name after `$` is `name`, and the scan ends. */
  lemma NameAtEnd(name: string)
    requires '/' !in name && name != ""
    ensures var a := "$" + name;
            a[0] == '$' && NameAt(a[1..]) == name && a[1 + |name|..] == ""
  {
    assert ("$" + name)[1..] == name;
  }

  /** A segment whose first character is copied: the step of the induction on the segment. */
  lemma SegmentStartsLiteral(c: char, rest: string, b: string, params: Entries, to: string)
    requires '/' !in rest && c != '/' && (c != '$' || rest == "")
    requires Substitute(rest + "/" + b, params, to) ==
               AroundSlash(Substitute(rest, params, to), Substitute(b, params, to))
    ensures Substitute([c] + rest + "/" + b, params, to) ==
              AroundSlash(Substitute([c] + rest, params, to), Substitute(b, params, to))
  {
    var t := rest + "/" + b;
    LoneDollar(c, rest, b);
    assert [c] + rest + "/" + b == [c] + t;
    CopiedHead(c, t, params, to);
    PrependAround(c, Substitute(rest, params, to), Substitute(b, params, to));
    CopiedHead(c, rest, params, to);
  }

  /** A lone `$` before a `/` names nothing. */
  lemma LoneDollar(c: char, rest: string, b: string)
    requires c != '$' || rest == ""
    ensures c != '$' || (NameAt(rest + "/" + b) == "" && NameAt(rest) == "")
  {
    if c == '$' {
      assert rest + "/" + b == "/" + b;
    }
  }

  /** `c` followed by the result, or the failure. */
  function Prepend(c: char, r: Result<string, string>): Result<string, string>
  {
    var v :- r;
    Success([c] + v)
  }

  lemma PrependAround(c: char, x: Result<string, string>, y: Result<string, string>)
    ensures Prepend(c, AroundSlash(x, y)) == AroundSlash(Prepend(c, x), y)
  {
    if x.Success? && y.Success? {
      assert [c] + (x.value + "/" + y.value) == ([c] + x.value) + "/" + y.value;
    }
  }

  /** A character that does not start a reference is copied ahead of the rest's result. */
  lemma CopiedHead(c: char, t: string, params: Entries, to: string)
    requires c != '$' || NameAt(t) == ""
    ensures Substitute([c] + t, params, to) == Prepend(c, Substitute(t, params, to))
  {
    assert ([c] + t)[0] == c && ([c] + t)[1..] == t;
  }

  /** A segment resolves to a segment: encodeURIComponent escapes `/`, so none is created. */
  lemma {:induction false} SubstituteAddsNoSlash(s: string, params: Entries, to: string)
    requires '/' !in s && Substitute(s, params, to).Success?
    ensures '/' !in Substitute(s, params, to).value
    decreases |s|
  {
    if s != "" {
      if s[0] == '$' && NameAt(s[1..]) != "" {
        var name := NameAt(s[1..]);
        SubstituteAddsNoSlash(s[1 + |name|..], params, to);
        var v := Get(params, name).value;
        assert '/' !in EncodeUriComponent(v) by {
          var e := EncodeUriComponent(v);
          forall i | 0 <= i < |e| ensures e[i] != '/' {
            assert e[i] == '%' || KeptChar(EncodeSet.Component, e[i]);
          }
        }
      } else {
        SubstituteAddsNoSlash(s[1..], params, to);
      }
    }
  }

  // ----- panelNavigate -----

  /** Where `panelNavigate(router, value)` moves a router: to the value's path, with the entries of
      its query string as `search` when there is a query string (even a bare `?`). */
  function TargetOf(value: string): (loc: Location)
    ensures loc.Navigated?
    ensures loc.to == ParsePanelValue(value).pathname
    ensures loc.search.Some? <==> '?' in value
  {
    var p := ParsePanelValue(value);
    var search := if p.searchString != "" then Some(FromEntries(Parse(p.searchString))) else None;
    assert '?' in value ==> p.searchString != "";
    Navigated(p.pathname, search)
  }

  /** `panelNavigate(router, value)`. */
  function PanelNavigate(h: Handle, value: string): (r: Handle)
    ensures r.tree == h.tree && r.pending == h.pending
  {
    var p := ParsePanelValue(value);
    var search := if p.searchString != "" then Some(FromEntries(Parse(p.searchString))) else None;
    Navigate(h, p.pathname, search)
  }

  /** Navigating to a value lands on that value's target, wherever the router was, so navigating
      twice to the same value is the same as once. */
  lemma PanelNavigateLands(h: Handle, value: string)
    ensures PanelNavigate(h, value).location == TargetOf(value)
    ensures PanelNavigate(PanelNavigate(h, value), value) == PanelNavigate(h, value)
  {
  }

  /** End to end: a value built from a path and search entries navigates a router to that path with
      exactly the non-empty entries as its search, and to the bare path when there are none. */
  lemma NavigateToBuiltValue(h: Handle, pathname: string, search: Entries)
    requires '?' !in pathname && DistinctKeys(search)
    ensures var f := NonEmptyValues(search);
            PanelNavigate(h, BuildPanelValue(pathname, Some(search))).location ==
              if f == [] then Navigated(pathname, None) else Navigated(pathname, Some(FromEntries(f)))
  {
    BuildThenParse(pathname, Some(search));
  }

  // ----- Router factory -----

  /** The pending configuration `createPanelRouterFactory` passes: only when a component is given. */
  function PendingFor(component: Option<Component>): (p: Option<PendingConfig>)
    ensures p.Some? <==> component.Some?
    ensures p.Some? ==> p.value == PendingConfig(component.value, 200)
  {
    if component.Some? then Some(PendingConfig(component.value, 200)) else None
  }

  /** `createPanelRouterFactory(routeTree, pendingComponent)`: an empty cell that falls back to `/`. */
  function CreatePanelRouterFactory(tree: RouteTree, component: Option<Component>): (f: Factory)
    ensures f.instance.None? && f.tree == tree && f.fallback == "/"
    ensures f.pending.Some? <==> component.Some?
  {
    Factory(tree, PendingFor(component), "/", None)
  }

  /** A run of calls to a fresh factory: one router, seeded with `[initialPath ?? '/']` by the first
      call, returned by every call, with pending settings only when a component was given. */
  lemma FactoryBuildsOnce(tree: RouteTree, component: Option<Component>, args: seq<Option<string>>)
    requires |args| >= 1
    ensures var hs := CallAll(CreatePanelRouterFactory(tree, component), args).1;
            forall i :: 0 <= i < |args| ==>
              hs[i] == Handle(tree, PendingFor(component), Seeded(args[0].GetOr("/")))
  {
    AtMostOneRouter(CreatePanelRouterFactory(tree, component), args);
  }
}

=== FILE: path_params.dfy ===
/** The type-level path-parameter rule of the panel system (lib/panel-system/types.ts): which
    `$name` tokens a path needs, and when a link's `params` satisfy `PanelLinkProps`. */
module PathParams {
  import opened Wrappers
  import opened Strings
  import opened Records
  import opened PanelUtils

  /** `ExtractPathParams<T>`: from the first `$`, the name runs to the next `/` and the rule starts
      again on `/` and what follows; with no `/` left, the name is the rest of the path.  A name may
      be empty (`$` right before `/` or at the end) and may contain a later `$`. */
  function Extract(s: string): (names: set<string>)
    ensures names == {} <==> '$' !in s
    decreases 2 * |s|
  {
    if '$' !in s then {} else ExtractAfter(s[IndexOf(s, '$') + 1..])
  }

  /** The names extracted from what follows a `$`. */
  function ExtractAfter(t: string): (names: set<string>)
    ensures names != {}
    decreases 2 * |t| + 1
  {
    var j := IndexOf(t, '/');
    if j == -1 then {t} else {t[..j]} + Extract("/" + t[j + 1..])
  }

  /** Characters before the first `$` never start a reference. */
  lemma {:induction false} ReferencedSkips(p: string, s: string)
    requires '$' !in p
    ensures Referenced(p + s) == Referenced(s)
    decreases |p|
  {
    if p == "" {
      assert p + s == s;
    } else {
      var ps := p + s;
      assert ps[0] == p[0] && p[0] != '$';
      assert ps[1..] == p[1..] + s;
      ReferencedSkips(p[1..], s);
    }
  }

  /** The names `resolvePath` substitutes are exactly the names the type extracts, except the
      empty one: the pattern `\$([^/]+)` needs at least one character after `$`. */
  lemma {:induction false} ReferencedIsExtracted(s: string)
    ensures Referenced(s) == Extract(s) - {""}
    decreases 2 * |s|
  {
    if '$' in s {
      var i := IndexOf(s, '$');
      var t := s[i + 1..];
      assert s == s[..i] + ("$" + t);
      ReferencedSkips(s[..i], "$" + t);
      ReferencedAfter(t);
    } else {
      assert s + "" == s;
      ReferencedSkips(s, "");
    }
  }

  /** What follows a `$`: a non-empty name is substituted, an empty one is not. */
  lemma {:induction false} ReferencedAfter(t: string)
    ensures Referenced("$" + t) == ExtractAfter(t) - {""}
    decreases 2 * |t| + 1
  {
    var j := IndexOf(t, '/');
    if j == -1 {
      AfterLastSegment(t);
    } else {
      var r := "/" + t[j + 1..];
      ReferencedIsExtracted(r);
      AfterSegment(t, j, r);
    }
  }

  /** The step of `ReferencedAfter` when no `/` follows: the name is the whole rest. */
  lemma AfterLastSegment(t: string)
    requires '/' !in t
    ensures Referenced("$" + t) == ExtractAfter(t) - {""}
  {
    DollarThen(t);
    assert NameAt(t) == t && t[|t|..] == "";
    assert Referenced("") == {};
  }

  /** The step of `ReferencedAfter` at the first `/`, given the claim for the rest `r`. */
  lemma AfterSegment(t: string, j: int, r: string)
    requires j == IndexOf(t, '/') && j != -1 && r == "/" + t[j + 1..]
    requires Referenced(r) == Extract(r) - {""}
    ensures Referenced("$" + t) == ExtractAfter(t) - {""}
  {
    var name := t[..j];
    DollarThen(t);
    assert NameAt(t) == name && t[|name|..] == r;
    assert ExtractAfter(t) == {name} + Extract(r);
    MinusDistributes({name}, Extract(r), {""});
  }

  lemma MinusDistributes<T>(a: set<T>, b: set<T>, c: set<T>)
    ensures (a - c) + (b - c) == (a + b) - c
  {
  }

  /** One step of the scan at a `$`: the name after it, unless empty, then the scan of the rest. */
  lemma DollarThen(t: string)
    ensures var name := NameAt(t);
            Referenced("$" + t) == ({name} - {""}) + Referenced(t[|name|..])
  {
    assert ("$" + t)[0] == '$' && ("$" + t)[1..] == t;
    assert t[0..] == t;
  }

  /** `PanelLinkProps`: no `params` when the path has no token, otherwise a record holding every
      extracted name. */
  predicate LinkPropsOk(to: string, params: Option<Entries>)
  {
    if Extract(to) == {} then params.None?
    else params.Some? && Extract(to) <= KeysOf(params.value)
  }

  /** A link whose props type-check never reaches the missing-param error. */
  lemma LinkPropsResolve(to: string, params: Option<Entries>)
    requires LinkPropsOk(to, params)
    ensures ResolvePath(to, params).Success?
  {
    if params.Some? {
      ReferencedIsExtracted(to);
      ResolvePathSucceeds(to, params.value);
    }
  }

  /** The converse direction fails only through the empty name: a type-correct `params` may lack
      nothing `resolvePath` looks up. */
  lemma ResolveNeedsReferenced(to: string, params: Entries)
    requires ResolvePath(to, Some(params)).Success?
    ensures Extract(to) - {""} <= KeysOf(params)
  {
    ReferencedIsExtracted(to);
    ResolvePathSucceeds(to, params);
  }
}

=== FILE: records.dfy ===
/** The JavaScript objects the panel code passes around: string records, the host router's query
    object, raw query values before validation, and the navigations handed to the host router. */
module Records {
  import opened Wrappers

  /** A `Record<string, string>` as its entries in enumeration order. */
  type Entries = seq<(string, string)>

  /** The keys of a JavaScript object are distinct. */
  predicate DistinctKeys(r: Entries)
  {
    forall i, j :: 0 <= i < j < |r| ==> r[i].0 != r[j].0
  }

  function KeysOf(r: Entries): (ks: set<string>)
    ensures forall k :: k in ks <==> exists i :: 0 <= i < |r| && r[i].0 == k
  {
    set i | 0 <= i < |r| :: r[i].0
  }

  /** `Object.fromEntries(r)`: a later entry for a key overwrites an earlier one. */
  function FromEntries(r: Entries): (m: map<string, string>)
    ensures forall k :: k in m <==> k in KeysOf(r)
  {
    if r == [] then map[]
    else
      KeysOfSnoc(r);
      FromEntries(r[..|r| - 1])[r[|r| - 1].0 := r[|r| - 1].1]
  }

  lemma KeysOfSnoc(r: Entries)
    requires r != []
    ensures KeysOf(r) == KeysOf(r[..|r| - 1]) + {r[|r| - 1].0}
  {
    forall k | k in KeysOf(r) ensures k in KeysOf(r[..|r| - 1]) + {r[|r| - 1].0} {
      var i :| 0 <= i < |r| && r[i].0 == k;
      if i < |r| - 1 {
        assert r[..|r| - 1][i].0 == k;
      }
    }
  }

  /** Each key of an object read back through `Object.fromEntries` keeps its value. */
  lemma {:induction false} FromEntriesValues(r: Entries)
    requires DistinctKeys(r)
    ensures forall i :: 0 <= i < |r| ==> r[i].0 in FromEntries(r) && FromEntries(r)[r[i].0] == r[i].1
    decreases |r|
  {
    if r != [] {
      var init := r[..|r| - 1];
      FromEntriesValues(init);
      forall i | 0 <= i < |r| ensures r[i].0 in FromEntries(r) && FromEntries(r)[r[i].0] == r[i].1 {
        if i < |r| - 1 {
          assert init[i] == r[i];
        }
      }
    }
  }

  /** `r[k]`, with `None` for `undefined`: the value of the first entry with that key, which for a
      JavaScript object is the only one. */
  function Get(r: Entries, k: string): (v: Option<string>)
    ensures v.None? <==> k !in KeysOf(r)
    ensures forall i :: 0 <= i < |r| && r[i].0 == k && (forall j :: 0 <= j < i ==> r[j].0 != k) ==>
              v == Some(r[i].1)
  {
    if r == [] then None
    else if r[0].0 == k then Some(r[0].1)
    else
      assert KeysOf(r) == {r[0].0} + KeysOf(r[1..]) by {
        forall x | x in KeysOf(r) ensures x in {r[0].0} + KeysOf(r[1..]) {
          var i :| 0 <= i < |r| && r[i].0 == x;
          if i > 0 {
            assert r[1..][i - 1].0 == x;
          }
        }
      }
      var v := Get(r[1..], k);
      assert forall i :: 1 <= i < |r| ==> r[i] == r[1..][i - 1];
      v
  }

  /** A query object: each key maps to a string or to `undefined`. */
  type Query = map<string, Option<string>>

  /** `search[k]`: a missing key reads as `undefined`, like a key holding `undefined`. */
  function Lookup(q: Query, k: string): Option<string>
  {
    if k in q then q[k] else None
  }

  /** JavaScript truthiness of `string | undefined`: defined and not empty. */
  predicate Truthy(v: Option<string>)
  {
    v.Some? && v.value != ""
  }

  /** `v || fallback` for `string | undefined`. */
  function OrElse(v: Option<string>, fallback: string): (r: string)
    ensures Truthy(v) ==> r == v.value
    ensures !Truthy(v) ==> r == fallback
  {
    if v.Some? && v.value != "" then v.value else fallback
  }

  /** A raw query value before a route validates it: a string, or anything else (a number, an array,
      an object, `undefined`). */
  datatype Raw = RawString(s: string) | RawOther

  type RawQuery = map<string, Raw>

  function RawLookup(q: RawQuery, k: string): Raw
  {
    if k in q then q[k] else RawOther
  }

  /** `typeof v === 'string' ? v : undefined`. */
  function StringOrUndefined(v: Raw): Option<string>
  {
    if v.RawString? then Some(v.s) else None
  }

  /** A call to the host router's `navigate({ to, search })` with an object `search`. */
  datatype HostNav = HostNav(to: string, search: Query)

  /** A link target built by the host router's `buildLocation`: the path and the query it encodes. */
  datatype Href = Built(path: string, search: Query) | Literal(text: string)

  /** The modifier keys the click handlers look at. */
  datatype Click = Click(meta: bool, ctrl: bool, shift: bool)

  predicate Modified(c: Click)
  {
    c.meta || c.ctrl || c.shift
  }
}

=== FILE: root_route.dfy ===
/** The host application's root route in the older two-panel layout (routes/route.tsx, with its
    twin routes/main.tsx) and its sidebar (routes/components/AppSidebar.tsx): the host query has
    exactly the keys `left` and `right`, and the app is in panel mode when either is defined. */
module RootRoute {
  import opened Wrappers
  import opened Strings
  import opened Records
  import SystemProvider
  import CreatePanelSystem

  /** The validated root search `{ left, right }`. */
  datatype PanelSearch = PanelSearch(left: Option<string>, right: Option<string>)

  /** A call to the host router's `navigate({ to, search })`, or the target of a host `Link`. */
  datatype Nav = Nav(to: string, search: PanelSearch)

  const Cleared: PanelSearch := PanelSearch(None, None)

  /** `validateSearch`: `left` and `right` kept when they are strings, `undefined` otherwise; every
      other key dropped.  Both route files define the same one. */
  function ValidateSearch(raw: RawQuery): (p: PanelSearch)
    ensures p.left == StringOrUndefined(RawLookup(raw, "left"))
    ensures p.right == StringOrUndefined(RawLookup(raw, "right"))
  {
    PanelSearch(StringOrUndefined(RawLookup(raw, "left")), StringOrUndefined(RawLookup(raw, "right")))
  }

  /** The validated search as a host query with the two keys. */
  function AsQuery(p: PanelSearch): (q: Query)
    ensures q.Keys == {"left", "right"}
    ensures q["left"] == p.left && q["right"] == p.right
  {
    map["left" := p.left, "right" := p.right]
  }

  /** The search read back raw, as the host hands it to the next validation. */
  function AsRaw(p: PanelSearch): (raw: RawQuery)
    ensures StringOrUndefined(RawLookup(raw, "left")) == p.left
    ensures StringOrUndefined(RawLookup(raw, "right")) == p.right
  {
    var l := if p.left.Some? then RawString(p.left.value) else RawOther;
    var r := if p.right.Some? then RawString(p.right.value) else RawOther;
    map["left" := l, "right" := r]
  }

  /** Validating a validated search changes nothing. */
  lemma ValidateIdempotent(raw: RawQuery)
    ensures ValidateSearch(AsRaw(ValidateSearch(raw))) == ValidateSearch(raw)
  {
  }

  /** This validation is the panel system's `validateSearch` for the names `left` and `right`. */
  lemma SameAsPanelSystemValidate(raw: RawQuery)
    ensures AsQuery(ValidateSearch(raw)) == CreatePanelSystem.ValidateSearch(["left", "right"], raw)
  {
    var q := CreatePanelSystem.ValidateSearch(["left", "right"], raw);
    assert "left" in ["left", "right"] && "right" in ["left", "right"];
    assert q.Keys == {"left", "right"};
  }

  /** `isPanelMode`: `left` or `right` is not `undefined` (an empty value counts). */
  predicate IsPanelMode(p: PanelSearch)
  {
    p.left.Some? || p.right.Some?
  }

  /** This panel mode is the panel system's: some panel open among `left` and `right`. */
  lemma PanelModeAsInPanelSystem(s: SystemProvider.State, p: PanelSearch)
    requires s.query == AsQuery(p)
    ensures IsPanelMode(p) <==> exists i :: 0 <= i < 2 && SystemProvider.IsPanelOpen(s, ["left", "right"][i])
  {
    assert SystemProvider.IsPanelOpen(s, "left") <==> p.left.Some?;
    assert SystemProvider.IsPanelOpen(s, "right") <==> p.right.Some?;
    assert ["left", "right"][0] == "left" && ["left", "right"][1] == "right";
  }

  /** What the app shell shows below the sidebar. */
  datatype Body = PanelShellBody | MainOutlet

  /** The shell renders the panel shell in panel mode and the main outlet otherwise. */
  function ShellBody(p: PanelSearch): (b: Body)
    ensures b == PanelShellBody <==> p.left.Some? || p.right.Some?
    ensures b == MainOutlet <==> p.left.None? && p.right.None?
  {
    if IsPanelMode(p) then PanelShellBody else MainOutlet
  }

  // ----- Navigation targets -----

  /** An entry of `NAV_ITEMS`, the sidebar's links. */
  datatype NavItem = NavItem(caption: string, to: string, search: PanelSearch)

  const NavItems: seq<NavItem> := [
    NavItem("Home", "/home", Cleared),
    NavItem("Settings", "/settings/billing", Cleared),
    NavItem("Panels", "/", PanelSearch(Some("/dash"), None))
  ]

  /** The links in routes/main.tsx's top bar: the same three targets. */
  const MainLinks: seq<Nav> := [
    Nav("/home", Cleared),
    Nav("/settings/billing", Cleared),
    Nav("/", PanelSearch(Some("/dash"), None))
  ]

  /** The top bar and the sidebar link to the same places. */
  lemma MainLinksAreNavItems()
    ensures |MainLinks| == |NavItems|
    ensures forall i :: 0 <= i < |NavItems| ==> MainLinks[i] == Nav(NavItems[i].to, NavItems[i].search)
  {
  }

  /** `isActive`: the `/` item is active in panel mode; every other item when the current path
      starts with its target. */
  predicate IsActive(item: NavItem, pathname: string, search: PanelSearch)
  {
    if item.to == "/" then IsPanelMode(search) else StartsWith(pathname, item.to)
  }

  /** Following an item's link makes that item active: the Home and Settings links leave panel mode
      (so the Panels item goes dark), the Panels link enters it with the left panel at `/dash`. */
  lemma FollowingItemActivatesIt(i: nat)
    requires i < |NavItems|
    ensures var it := NavItems[i]; IsActive(it, it.to, it.search)
    ensures i < 2 ==> !IsPanelMode(NavItems[i].search) && !IsActive(NavItems[2], NavItems[i].to, NavItems[i].search)
    ensures i == 2 ==> IsPanelMode(NavItems[i].search) && NavItems[i].search.left == Some("/dash")
  {
    var it := NavItems[i];
    assert it.to[..|it.to|] == it.to;
  }
}

=== FILE: split_join.dfy ===
/** Facts about `Strings.Split` and `Strings.Join`, kept apart from their definitions. */
module SplitJoin {
  import opened Strings

  /** Joining the pieces of a split with the same separator gives the string back. */
  lemma {:induction false} JoinOfSplit<T>(s: seq<T>, sep: T)
    ensures Join(Split(s, sep), sep) == s
    decreases |s|
  {
    if sep in s {
      JoinOfSplit(s[IndexOf(s, sep) + 1..], sep);
      JoinOfSplitStep(s, sep);
    } else {
      SplitFree(s, sep);
    }
  }

  /** A string without the separator is its own single piece. */
  lemma {:induction false} SplitFree<T>(s: seq<T>, sep: T)
    requires sep !in s
    ensures Split(s, sep) == [s]
  {
  }

  lemma {:induction false} JoinOfSplitStep<T>(s: seq<T>, sep: T)
    requires sep in s
    requires Join(Split(s[IndexOf(s, sep) + 1..], sep), sep) == s[IndexOf(s, sep) + 1..]
    ensures Join(Split(s, sep), sep) == s
  {
    var i := IndexOf(s, sep);
    var head, rest := s[..i], s[i + 1..];
    var tail := Split(rest, sep);
    SplitAtFirst(s, sep);
    JoinCons(head, tail, sep);
    Around(s, i);
  }

  /** Splitting at a separator peels off the text before its first occurrence. */
  lemma {:induction false} SplitAtFirst<T>(s: seq<T>, sep: T)
    requires sep in s
    ensures Split(s, sep) == [s[..IndexOf(s, sep)]] + Split(s[IndexOf(s, sep) + 1..], sep)
  {
  }

  /** A string containing the separator splits into at least two pieces. */
  lemma {:induction false} SplitHasTwo<T>(s: seq<T>, sep: T)
    requires sep in s
    ensures |Split(s, sep)| >= 2
  {
    SplitAtFirst(s, sep);
  }

  lemma {:induction false} JoinCons<T>(head: seq<T>, tail: seq<seq<T>>, sep: T)
    requires |tail| >= 1
    ensures Join([head] + tail, sep) == head + [sep] + Join(tail, sep)
  {
    assert ([head] + tail)[1..] == tail;
  }

  lemma {:induction false} DropLastCons<T>(h: T, t: seq<T>)
    requires |t| >= 1
    ensures ([h] + t)[..|t|] == [h] + t[..|t| - 1]
  {
  }

  /** Splitting a join of separator-free pieces gives the pieces back. */
  lemma {:induction false} SplitOfJoin<T>(parts: seq<seq<T>>, sep: T)
    requires |parts| >= 1
    requires forall i :: 0 <= i < |parts| ==> sep !in parts[i]
    ensures Split(Join(parts, sep), sep) == parts
    decreases |parts|
  {
    var head := parts[0];
    if |parts| == 1 {
      assert IndexOf(head, sep) == -1;
    } else {
      var tail := parts[1..];
      SplitOfJoin(tail, sep);
      JoinCons(head, tail, sep);
      assert parts == [head] + tail;
      var s := Join(parts, sep);
      assert s == head + [sep] + Join(tail, sep);
      IndexOfAfterFree(head, sep, Join(tail, sep));
      assert s[..|head|] == head && s[|head| + 1..] == Join(tail, sep);
      SplitAtFirst(s, sep);
    }
  }

  /** The first separator of `head + [sep] + rest` is the one right after a separator-free `head`. */
  lemma {:induction false} IndexOfAfterFree<T>(head: seq<T>, sep: T, rest: seq<T>)
    requires sep !in head
    ensures IndexOf(head + [sep] + rest, sep) == |head|
  {
    var s := head + [sep] + rest;
    assert s[|head|] == sep;
    assert forall j :: 0 <= j < |head| ==> s[j] == head[j];
  }

  /** Joining all but the last piece, then the separator and the last piece, is the whole join. */
  lemma {:induction false} JoinSnoc<T>(parts: seq<seq<T>>, sep: T)
    requires |parts| >= 2
    ensures Join(parts, sep) == Join(parts[..|parts| - 1], sep) + [sep] + parts[|parts| - 1]
    decreases |parts|
  {
    var tail := parts[1..];
    JoinCons(parts[0], tail, sep);
    assert parts == [parts[0]] + tail;
    if |parts| > 2 {
      JoinSnoc(tail, sep);
      var init := parts[..|parts| - 1];
      assert init == [parts[0]] + tail[..|tail| - 1];
      JoinCons(parts[0], tail[..|tail| - 1], sep);
    } else {
      assert parts[..1] == [parts[0]];
    }
  }

  /** A separator at `r` with none after it is the last one. */
  lemma {:induction false} LastIndexOfUnique<T>(s: seq<T>, c: T, r: nat)
    requires r < |s| && s[r] == c
    requires forall j :: r < j < |s| ==> s[j] != c
    ensures LastIndexOf(s, c) == r
  {
    assert c in s;
  }

  lemma Around<T>(s: seq<T>, i: nat)
    requires i < |s|
    ensures s == s[..i] + [s[i]] + s[i + 1..]
  {
  }

  /** A value that occurs in no piece and is not the separator does not occur in the join. */
  lemma {:induction false} JoinFree<T>(parts: seq<seq<T>>, sep: T, c: T)
    requires c != sep && forall i :: 0 <= i < |parts| ==> c !in parts[i]
    ensures c !in Join(parts, sep)
    decreases |parts|
  {
    if |parts| >= 2 {
      JoinFree(parts[1..], sep, c);
    }
  }

  /** The join starts with the first piece. */
  lemma {:induction false} JoinStartsWithFirst<T>(parts: seq<seq<T>>, sep: T)
    requires |parts| >= 1
    ensures |Join(parts, sep)| >= |parts[0]| && Join(parts, sep)[..|parts[0]|] == parts[0]
  {
    if |parts| >= 2 {
      assert Join(parts, sep) == parts[0] + [sep] + Join(parts[1..], sep);
    }
  }

  /** Dropping empty pieces keeps a list that has none. */
  lemma {:induction false} FilterKeepsNonEmpty(parts: seq<string>)
    requires forall i :: 0 <= i < |parts| ==> parts[i] != ""
    ensures Filter(parts) == parts
    decreases |parts|
  {
    if parts != [] {
      FilterKeepsNonEmpty(parts[1..]);
      assert parts == [parts[0]] + parts[1..];
    }
  }
}

=== FILE: strings.dfy ===
/** The few JavaScript string primitives the panel code relies on, over `seq<char>`
    (the sequence primitives are generic, so the URL code reuses them on bytes). */
module Strings {

  /** `s.indexOf(c)`: the first position of `c` in `s`, or -1 (also used on byte sequences). */
  function IndexOf<T(==)>(s: seq<T>, c: T): (r: int)
    ensures r == -1 <==> c !in s
    ensures r != -1 ==> 0 <= r < |s| && s[r] == c
    ensures r != -1 ==> forall j :: 0 <= j < r ==> s[j] != c
  {
    if |s| == 0 then -1
    else if s[0] == c then 0
    else
      var k := IndexOf(s[1..], c);
      if k == -1 then -1 else k + 1
  }

  /** `s.lastIndexOf(c)`: the last position of `c` in `s`, or -1. */
  function LastIndexOf<T(==)>(s: seq<T>, c: T): (r: int)
    ensures r == -1 <==> c !in s
    ensures r != -1 ==> 0 <= r < |s| && s[r] == c
    ensures r != -1 ==> forall j :: r < j < |s| ==> s[j] != c
    decreases |s|
  {
    var i := IndexOf(s, c);
    if i == -1 then -1
    else
      var k := LastIndexOf(s[i + 1..], c);
      if k == -1 then i else i + 1 + k
  }

  /** `s.split(sep)` for a one-element separator: the maximal separator-free pieces, in order. */
  function Split<T(==)>(s: seq<T>, sep: T): (parts: seq<seq<T>>)
    ensures |parts| >= 1
    ensures forall i :: 0 <= i < |parts| ==> sep !in parts[i]
    decreases |s|
  {
    var i := IndexOf(s, sep);
    if i == -1 then [s] else [s[..i]] + Split(s[i + 1..], sep)
  }

  /** `parts.join(sep)`. */
  function Join<T>(parts: seq<seq<T>>, sep: T): seq<T>
  {
    if |parts| == 0 then []
    else if |parts| == 1 then parts[0]
    else parts[0] + [sep] + Join(parts[1..], sep)
  }

  /** `s.split(sep).filter(Boolean)`: the non-empty pieces. */
  function NonEmptyPieces(s: string, sep: char): (parts: seq<string>)
    ensures forall i :: 0 <= i < |parts| ==> parts[i] != "" && sep !in parts[i]
  {
    Filter(Split(s, sep))
  }

  function Filter(parts: seq<string>): (r: seq<string>)
    ensures forall p :: p in r <==> p in parts && p != ""
    ensures forall i :: 0 <= i < |r| ==> r[i] in parts
  {
    if |parts| == 0 then []
    else (if parts[0] == "" then [] else [parts[0]]) + Filter(parts[1..])
  }

  /** `s.startsWith(prefix)`. */
  predicate StartsWith<T(==)>(s: seq<T>, prefix: seq<T>)
  {
    |prefix| <= |s| && s[..|prefix|] == prefix
  }
}

=== FILE: system_link.dfy ===
/** The multi-panel link and the main link (lib/panel-system/system-link.tsx).  A system link names a
    target per panel: omitted (leave the panel as it is), `false` (close it), a path, or a route with
    params and search. */
module SystemLink {
  import opened Wrappers
  import opened Records
  import opened PanelRouter
  import opened PanelUtils
  import opened SystemProvider

  datatype Target =
    | Omitted
    | Closed
    | PathTarget(path: string)
    | RouteTarget(to: string, params: Option<Entries>, search: Option<Entries>)

  /** The link's props: a target per name; a name it does not mention is omitted. */
  type Props = map<string, Target>

  function PropFor(props: Props, name: string): Target
  {
    if name in props then props[name] else Omitted
  }

  /** `resolveTarget(target)`: `None` for `false`; a path as given, with no substitution; a route
      resolved with its params and, when it has a search, built into a panel value.  `Failure` is
      the error `resolvePath` throws. */
  function ResolveTarget(t: Target): (r: Result<Option<string>, string>)
    requires !t.Omitted?
    ensures t.Closed? <==> r == Success(None)
    ensures t.PathTarget? ==> r == Success(Some(t.path))
    ensures t.RouteTarget? ==> (r.Success? <==> ResolvePath(t.to, t.params).Success?)
    ensures t.RouteTarget? && r.Success? ==>
              r.value == Some(PanelValue(ResolvePath(t.to, t.params).value, t.search))
  {
    match t
    case Closed => Success(None)
    case PathTarget(p) => Success(Some(p))
    case RouteTarget(to, params, search) =>
      var resolved :- ResolvePath(to, params);
      Success(Some(PanelValue(resolved, search)))
  }

  /** What the href's query holds for one panel: the previous value when the target is omitted,
      `undefined` for `false`, and otherwise the resolved value, an empty one read as `undefined`. */
  function HrefEntry(prev: Query, name: string, t: Target): (r: Result<Option<string>, string>)
    ensures t.Omitted? ==> r == Success(Lookup(prev, name))
    ensures t.Closed? ==> r == Success(None)
    ensures !t.Omitted? && !t.Closed? ==> (r.Success? <==> ResolveTarget(t).Success?)
    ensures r.Success? && !t.Omitted? ==> r.value.None? || r.value.value != ""
  {
    if t.Omitted? then Success(Lookup(prev, name))
    else if t.Closed? then Success(None)
    else
      var v :- ResolveTarget(t);
      Success(if v == Some("") then None else v)
  }

  /** The href's query: every registered name, in order; the first target that fails to resolve
      makes the render throw. */
  function HrefQuery(names: seq<string>, prev: Query, props: Props): (r: Result<Query, string>)
    ensures r.Success? <==> forall i :: 0 <= i < |names| ==> HrefEntry(prev, names[i], PropFor(props, names[i])).Success?
    ensures r.Success? ==> forall k :: k in r.value <==> k in names
    ensures r.Success? ==> forall k :: k in names ==> r.value[k] == HrefEntry(prev, k, PropFor(props, k)).value
    decreases |names|
  {
    if names == [] then Success(map[])
    else
      var e := HrefEntry(prev, names[0], PropFor(props, names[0]));
      var rest := HrefQuery(names[1..], prev, props);
      assert forall i :: 1 <= i < |names| ==> names[i] == names[1..][i - 1];
      if e.Failure? then Failure(e.error)
      else if rest.Failure? then Failure(rest.error)
      else Success(rest.value[names[0] := e.value])
  }

  /** The link's `href`: `/` without a provider, otherwise `/` with the href query. */
  function SystemHref(ctx: Option<State>, props: Props): (r: Result<Href, string>)
    ensures ctx.None? ==> r == Success(Literal("/"))
    ensures ctx.Some? ==> (r.Success? <==> HrefQuery(ctx.value.names, ctx.value.query, props).Success?)
    ensures ctx.Some? && r.Success? ==>
              r.value == Built("/", HrefQuery(ctx.value.names, ctx.value.query, props).value)
  {
    if ctx.None? then Success(Literal("/"))
    else
      var q :- HrefQuery(ctx.value.names, ctx.value.query, props);
      Success(Built("/", q))
  }

  /** Targets for names that are not registered never reach the href. */
  lemma {:induction false} HrefIgnoresOthers(names: seq<string>, prev: Query, props: Props, other: Props)
    requires forall k :: k in names ==> PropFor(props, k) == PropFor(other, k)
    ensures HrefQuery(names, prev, props) == HrefQuery(names, prev, other)
    decreases |names|
  {
    if names != [] {
      HrefIgnoresOthers(names[1..], prev, props, other);
    }
  }

  // ----- The click handler -----

  /** What a click does: whether it prevents the browser's navigation, the provider calls it makes
      in order, and the error that stopped it, if any (calls made before the error stay made). */
  datatype ClickOutcome = ClickOutcome(prevented: bool, actions: seq<Action>, error: Option<string>)

  /** A target that makes the click throw: one that is given and does not resolve. */
  predicate Fails(props: Props, name: string)
  {
    !PropFor(props, name).Omitted? && ResolveTarget(PropFor(props, name)).Failure?
  }

  /** The position of the first registered name whose target fails, or `|names|` when none does. */
  function FirstFailure(names: seq<string>, props: Props): (j: nat)
    ensures j <= |names|
    ensures forall i :: 0 <= i < j ==> !Fails(props, names[i])
    ensures j < |names| ==> Fails(props, names[j])
    decreases |names|
  {
    if names == [] then 0
    else if Fails(props, names[0]) then 0
    else
      assert forall i :: 1 <= i < |names| ==> names[i] == names[1..][i - 1];
      1 + FirstFailure(names[1..], props)
  }

  /** The calls the click makes for one panel whose target resolves: `closePanel(name)` for
      `false`, `navigatePanel(name, value)` with no options for a value, and none when omitted. */
  function CallsFor(name: string, props: Props): (cs: seq<Action>)
    ensures PropFor(props, name).Omitted? ==> cs == []
    ensures PropFor(props, name).Closed? ==> cs == [Close(name)]
    ensures PropFor(props, name).PathTarget? ==> cs == [NavigateTo(name, PropFor(props, name).path, None)]
    ensures PropFor(props, name).RouteTarget? && !Fails(props, name) ==>
              var t := PropFor(props, name);
              cs == [NavigateTo(name, PanelValue(ResolvePath(t.to, t.params).value, t.search), None)]
  {
    var t := PropFor(props, name);
    if t.Omitted? then []
    else match ResolveTarget(t)
      case Failure(_) => []
      case Success(None) => [Close(name)]
      case Success(Some(v)) => [NavigateTo(name, v, None)]
  }

  /** The calls for each of `ns`, in order. */
  function CallsOf(ns: seq<string>, props: Props): (css: seq<seq<Action>>)
    ensures |css| == |ns| && forall i :: 0 <= i < |ns| ==> css[i] == CallsFor(ns[i], props)
  {
    seq(|ns|, i requires 0 <= i < |ns| => CallsFor(ns[i], props))
  }

  /** The concatenation of a sequence of call lists. */
  function Flatten(css: seq<seq<Action>>): seq<Action>
    decreases |css|
  {
    if css == [] then [] else css[0] + Flatten(css[1..])
  }

  /** The loop over the registered names: `closePanel` for `false`, `navigatePanel(name, value)`
      (no options) for a resolved target, nothing for an omitted one.  The calls are those of each
      name in order, up to the first target that fails to resolve; that target's error stops the
      loop, and the calls made before it stand. */
  function ClickLoop(names: seq<string>, props: Props): (r: (seq<Action>, Option<string>))
    ensures LoopOutcome(names, props, r)
    ensures forall a :: a in r.0 ==> (a.NavigateTo? || a.Close?) && a.name in names
    ensures forall a :: a in r.0 && a.NavigateTo? ==> a.search.None?
    ensures r.1.None? <==> forall i :: 0 <= i < |names| ==>
              PropFor(props, names[i]).Omitted? || ResolveTarget(PropFor(props, names[i])).Success?
    decreases |names|
  {
    if names == [] then ([], None)
    else
      var name := names[0];
      var t := PropFor(props, name);
      var (rest, err) := ClickLoop(names[1..], props);
      assert forall i :: 1 <= i < |names| ==> names[i] == names[1..][i - 1];
      if t.Omitted? then
        LoopStep(names, props, rest, err);
        (rest, err)
      else match ResolveTarget(t)
        case Failure(e) =>
          assert CallsOf(names[..0], props) == [];
          ([], Some(e))
        case Success(None) =>
          LoopStep(names, props, rest, err);
          ([Close(name)] + rest, err)
        case Success(Some(v)) =>
          LoopStep(names, props, rest, err);
          ([NavigateTo(name, v, None)] + rest, err)
  }

  /** What the loop returns: the calls for each name in order up to the first target that fails,
      and that target's error, if any. */
  predicate LoopOutcome(names: seq<string>, props: Props, r: (seq<Action>, Option<string>))
  {
    var j := FirstFailure(names, props);
    r.0 == Flatten(CallsOf(names[..j], props)) &&
    (r.1.None? <==> j == |names|) &&
    (j < |names| ==> r.1 == Some(ResolveTarget(PropFor(props, names[j])).error))
  }

  /** The loop's step at a name whose target resolves. */
  lemma LoopStep(names: seq<string>, props: Props, rest: seq<Action>, err: Option<string>)
    requires names != [] && !Fails(props, names[0])
    requires LoopOutcome(names[1..], props, (rest, err))
    ensures LoopOutcome(names, props, (CallsFor(names[0], props) + rest, err))
  {
    FlattenStep(names, props);
  }

  /** When the first target resolves, the calls up to the first failure are its calls followed by
      the rest's. */
  lemma FlattenStep(names: seq<string>, props: Props)
    requires names != [] && !Fails(props, names[0])
    ensures var j := FirstFailure(names, props);
            j >= 1 && j - 1 == FirstFailure(names[1..], props) &&
            Flatten(CallsOf(names[..j], props)) ==
              CallsFor(names[0], props) + Flatten(CallsOf(names[1..][..j - 1], props))
  {
    var j := FirstFailure(names, props);
    var css := CallsOf(names[..j], props);
    assert css[1..] == CallsOf(names[1..][..j - 1], props);
  }

  /** `handleClick`: a modified click or a click without a provider does nothing and lets the
      browser follow the href. */
  function SystemClick(ctx: Option<State>, props: Props, click: Click): (r: ClickOutcome)
    ensures Modified(click) || ctx.None? ==> r == ClickOutcome(false, [], None)
    ensures !Modified(click) && ctx.Some? ==> r.prevented
    ensures forall a :: a in r.actions ==> ctx.Some? && (a.NavigateTo? || a.Close?) && a.name in ctx.value.names
    ensures !Modified(click) && ctx.Some? ==>
              LoopOutcome(ctx.value.names, props, (r.actions, r.error))
  {
    if Modified(click) || ctx.None? then ClickOutcome(false, [], None)
    else
      var (actions, err) := ClickLoop(ctx.value.names, props);
      ClickOutcome(true, actions, err)
  }

  /** The calls of a click as the source makes them: each reads the same snapshot, and the host
      navigations they issue are taken in order. */
  function RunClick(s: State, actions: seq<Action>): (r: State)
    ensures r.names == s.names && r.lastSeen == s.lastSeen
  {
    var (t, navs) := PerformAll(s, actions);
    ApplyAll(t, navs)
  }

  // ----- The click made atomic -----

  /** The routers a click moves: each registered name whose target resolves to a value. */
  function MoveAll(s: State, ns: seq<string>, props: Props): (r: State)
    ensures SameButCells(s, r)
    decreases |ns|
  {
    if ns == [] then s
    else
      var t := PropFor(props, ns[0]);
      var moved :=
        if !t.Omitted? && ResolveTarget(t).Success? && ResolveTarget(t).value.Some? then
          NavigatePanel(s, ns[0], ResolveTarget(t).value.value, None).0
        else s;
      MoveAll(moved, ns[1..], props)
  }

  /** The value a target resolves to, if it is one. */
  function Moves(props: Props, name: string): Option<string>
  {
    var t := PropFor(props, name);
    if !t.Omitted? && ResolveTarget(t).Success? then ResolveTarget(t).value else None
  }

  /** The click as evidently intended: it moves the routers as the source does, then issues one host
      navigation carrying every target at once, the same query the href shows. */
  function AtomicClick(s: State, props: Props): (r: Result<(State, HostNav), string>)
    ensures r.Success? <==> HrefQuery(s.names, s.query, props).Success?
    ensures r.Success? ==> SameButCells(s, r.value.0)
    ensures r.Success? ==> r.value.1 == HostNav("/", HrefQuery(s.names, s.query, props).value)
  {
    var q :- HrefQuery(s.names, s.query, props);
    Success((MoveAll(s, s.names, props), HostNav("/", q)))
  }

  /** `MoveAll` leaves a name it does not visit alone. */
  lemma {:induction false} MoveAllFrame(s: State, ns: seq<string>, props: Props, m: string)
    requires m !in ns
    ensures HandleOf(MoveAll(s, ns, props), m) == HandleOf(s, m)
    decreases |ns|
  {
    if ns != [] {
      var t := PropFor(props, ns[0]);
      var moved :=
        if !t.Omitted? && ResolveTarget(t).Success? && ResolveTarget(t).value.Some? then
          NavigatePanel(s, ns[0], ResolveTarget(t).value.value, None).0
        else s;
      MoveAllFrame(moved, ns[1..], props, m);
    }
  }

  /** `MoveAll` leaves each visited panel where its target sends it, or where it was. */
  lemma {:induction false} MoveAllEffect(s: State, ns: seq<string>, props: Props)
    requires forall n :: n in ns ==> n in s.panels
    requires forall i, j :: 0 <= i < j < |ns| ==> ns[i] != ns[j]
    ensures forall n :: n in ns && Moves(props, n).Some? ==> At(MoveAll(s, ns, props), n, Moves(props, n).value)
    ensures forall n :: n in ns && Moves(props, n).None? ==> HandleOf(MoveAll(s, ns, props), n) == HandleOf(s, n)
    decreases |ns|
  {
    if ns != [] {
      var n := ns[0];
      var t := PropFor(props, n);
      var moved :=
        if !t.Omitted? && ResolveTarget(t).Success? && ResolveTarget(t).value.Some? then
          NavigatePanel(s, n, ResolveTarget(t).value.value, None).0
        else s;
      assert MoveAll(s, ns, props) == MoveAll(moved, ns[1..], props);
      MoveAllEffect(moved, ns[1..], props);
      assert n !in ns[1..];
      MoveAllFrame(moved, ns[1..], props, n);
      forall m | m in ns[1..] && Moves(props, m).None?
        ensures HandleOf(MoveAll(s, ns, props), m) == HandleOf(s, m)
      {
        assert HandleOf(moved, m) == HandleOf(s, m);
      }
    }
  }

  /** The atomic click keeps the provider recoverable, so after the sync step every panel shows
      what the URL holds, and every panel the link sends to a non-empty value shows that value. */
  lemma AtomicClickSyncs(s: State, props: Props)
    requires WellFormed(s) && Recoverable(s)
    requires AtomicClick(s, props).Success?
    ensures var (t, nav) := AtomicClick(s, props).value;
            var r := Sync(Apply(t, nav));
            Consistent(r) &&
            forall n :: n in s.names && Moves(props, n).Some? && Moves(props, n).value != "" ==>
              Lookup(r.query, n) == Moves(props, n) && At(r, n, Moves(props, n).value)
  {
    var (t, nav) := AtomicClick(s, props).value;
    var u := Apply(t, nav);
    AtomicRecoverable(s, props);
    SyncRestores(u);
    forall n | n in s.names && Moves(props, n).Some? && Moves(props, n).value != ""
      ensures Lookup(u.query, n) == Moves(props, n)
    {
      AtomicEntry(s, props, n);
    }
  }

  /** Right after the atomic click, before the sync step, the provider is still recoverable. */
  lemma AtomicRecoverable(s: State, props: Props)
    requires WellFormed(s) && Recoverable(s)
    requires AtomicClick(s, props).Success?
    ensures WellFormed(Apply(AtomicClick(s, props).value.0, AtomicClick(s, props).value.1))
    ensures Recoverable(Apply(AtomicClick(s, props).value.0, AtomicClick(s, props).value.1))
  {
    var (t, nav) := AtomicClick(s, props).value;
    var u := Apply(t, nav);
    MoveAllEffect(s, s.names, props);
    forall n | n in u.panels ensures RecoverableAt(u, n) {
      assert n in s.names;
      AtomicRecoverableAt(s, props, n);
    }
  }

  /** The atomic click writes, under each registered key, what the href shows for it. */
  lemma AtomicEntry(s: State, props: Props, n: string)
    requires AtomicClick(s, props).Success? && n in s.names
    ensures Lookup(AtomicClick(s, props).value.1.search, n) == HrefEntry(s.query, n, PropFor(props, n)).value
    ensures HrefEntry(s.query, n, PropFor(props, n)).Success?
  {
    var q := HrefQuery(s.names, s.query, props).value;
    assert q[n] == HrefEntry(s.query, n, PropFor(props, n)).value;
  }

  /** One panel after the atomic click: an omitted panel keeps its value and router, a closed or
      emptied one needs nothing, a moved one shows its new value. */
  lemma AtomicRecoverableAt(s: State, props: Props, n: string)
    requires WellFormed(s) && RecoverableAt(s, n) && n in s.names
    requires AtomicClick(s, props).Success?
    requires Moves(props, n).Some? ==> At(MoveAll(s, s.names, props), n, Moves(props, n).value)
    requires Moves(props, n).None? ==> HandleOf(MoveAll(s, s.names, props), n) == HandleOf(s, n)
    ensures var (t, nav) := AtomicClick(s, props).value; RecoverableAt(Apply(t, nav), n)
  {
    AtomicEntry(s, props, n);
    var tn := PropFor(props, n);
    if !tn.Omitted? && !tn.Closed? {
      assert HrefEntry(s.query, n, tn).value.Some? ==> Moves(props, n) == HrefEntry(s.query, n, tn).value;
    }
  }

  // ----- The finding: the click as written is not atomic -----

  /** As written: in a two-panel system whose first panel is open and synced at some value, a link
      that sends the first panel to a different place and the second one anywhere moves the first
      panel's router, but the second host navigation, built from the same snapshot, writes the old
      value back.  The sync step then skips the first panel (its value equals the last one seen), so
      the panel shows the new place while the URL keeps the old value. */
  lemma AsWrittenClickDiverges(s: State, a: string, b: string, x: string, y: string)
    requires WellFormed(s) && s.names == [a, b]
    requires Truthy(Lookup(s.query, a)) && Lookup(s.lastSeen, a) == Lookup(s.query, a)
    requires TargetOf(x) != TargetOf(Lookup(s.query, a).value)
    ensures var props := map[a := PathTarget(x), b := PathTarget(y)];
            var out := SystemClick(Some(s), props, Click(false, false, false));
            var r := Sync(RunClick(s, out.actions));
            out.actions == [NavigateTo(a, x, None), NavigateTo(b, y, None)] &&
            Lookup(r.query, a) == Lookup(s.query, a) && At(r, a, x) && !Consistent(r)
  {
    assert s.names[0] != s.names[1];
    ClickTwo(s, a, b, x, y);
    RunTwo(s, a, b, x, y);
    var u := RunClick(s, [NavigateTo(a, x, None), NavigateTo(b, y, None)]);
    SyncTwoSkipsFirst(u, a, b);
    assert a in Sync(u).panels;
  }

  /** The click's calls for two path targets. */
  lemma ClickTwo(s: State, a: string, b: string, x: string, y: string)
    requires s.names == [a, b] && a != b
    ensures SystemClick(Some(s), map[a := PathTarget(x), b := PathTarget(y)], Click(false, false, false)).actions ==
              [NavigateTo(a, x, None), NavigateTo(b, y, None)]
  {
    var props := map[a := PathTarget(x), b := PathTarget(y)];
    assert PropFor(props, a) == PathTarget(x) && PropFor(props, b) == PathTarget(y);
    assert [a, b][1..] == [b] && [b][1..] == [];
    assert ResolveTarget(PathTarget(y)) == Success(Some(y));
    assert ClickLoop([], props) == ([], None);
    assert [NavigateTo(b, y, None)] + [] == [NavigateTo(b, y, None)];
    assert ClickLoop([b], props) == ([NavigateTo(b, y, None)], None);
  }

  /** Two calls in one handler: both read the snapshot, so the host navigations are the ones each
      call would issue on its own against the routers left by the calls before it. */
  lemma PerformTwo(s: State, c1: Action, c2: Action)
    ensures var (t1, nav1) := Perform(s, c1);
            var (t2, nav2) := Perform(t1, c2);
            PerformAll(s, [c1, c2]) == (t2, [nav1, nav2])
  {
    var (t1, nav1) := Perform(s, c1);
    var (t2, nav2) := Perform(t1, c2);
    assert [c1, c2][1..] == [c2] && [c2][1..] == [];
    assert PerformAll(t2, []) == (t2, []);
    assert PerformAll(t1, [c2]) == (t2, [nav2] + []);
    assert [nav1] + ([nav2] + []) == [nav1, nav2];
  }

  /** Running the two calls: the first panel's router moves, the URL is the second call's. */
  lemma RunTwo(s: State, a: string, b: string, x: string, y: string)
    requires a in s.names && a in s.panels && a != b
    ensures var u := RunClick(s, [NavigateTo(a, x, None), NavigateTo(b, y, None)]);
            At(u, a, x) && Lookup(u.query, a) == Lookup(s.query, a) &&
            u.names == s.names && u.panels.Keys == s.panels.Keys && u.lastSeen == s.lastSeen
  {
    var c1 := NavigateTo(a, x, None);
    var c2 := NavigateTo(b, y, None);
    var (t1, nav1) := Perform(s, c1);
    var (t2, nav2) := Perform(t1, c2);
    PerformTwo(s, c1, c2);
    LastWriteWins(t2, [nav1, nav2]);
    SecondKeepsFirst(s, a, b, x, y);
    assert RunClick(s, [c1, c2]) == Apply(t2, nav2);
  }

  /** The second call leaves the first panel's router alone and writes the first panel's value from
      the snapshot. */
  lemma SecondKeepsFirst(s: State, a: string, b: string, x: string, y: string)
    requires a in s.names && a in s.panels && a != b
    ensures var t1 := NavigatePanel(s, a, x, None).0;
            var (t2, nav2) := NavigatePanel(t1, b, y, None);
            At(t2, a, x) && Lookup(nav2.search, a) == Lookup(s.query, a)
  {
    var t1 := NavigatePanel(s, a, x, None).0;
    var (t2, nav2) := NavigatePanel(t1, b, y, None);
    assert HandleOf(t2, a) == HandleOf(t1, a);
    assert nav2.search[a] == Lookup(t1.query, a);
  }

  /** The sync step on two panels when the first one's value is the one last seen: the first
      panel's router is left where it is. */
  lemma SyncTwoSkipsFirst(u: State, a: string, b: string)
    requires WellFormed(u) && u.names == [a, b] && a != b
    requires Lookup(u.lastSeen, a) == Lookup(u.query, a)
    ensures HandleOf(Sync(u), a) == HandleOf(u, a)
  {
    var v1 := SyncOne(u, a);
    var r := SyncOne(v1, b);
    assert [a, b][1..] == [b] && [b][1..] == [];
    assert SyncAll(u, [a, b]) == SyncAll(v1, [b]) == SyncAll(r, []);
  }

  /** A value without `?` sends a router to that path with no search. */
  lemma PlainTarget(v: string)
    requires '?' !in v
    ensures TargetOf(v) == Navigated(v, None)
  {
    ParseWithoutQuery(v);
  }

  /** The instance: left open at `/categories`, the link sends left to `/categories/phones` and
      right to `/posts`; the two targets differ. */
  lemma ExampleTargetsDiffer()
    ensures TargetOf("/categories/phones") != TargetOf("/categories")
  {
    var x := "/categories/phones";
    var v := "/categories";
    assert forall i :: 0 <= i < |x| ==> x[i] != '?';
    assert forall i :: 0 <= i < |v| ==> v[i] != '?';
    PlainTarget(x);
    PlainTarget(v);
  }

  // ----- MainLink -----

  /** `createMainLink(names)`: whatever `search` the caller passes, the link's search sets every
      panel name to `undefined`. */
  function MainLinkSearch(names: seq<string>, callerSearch: Option<Query>): (q: Query)
    ensures forall k :: k in q <==> k in names
    ensures forall k :: k in names ==> q[k] == None
  {
    map k | k in names :: None
  }

  /** Following a main link closes every panel, exactly as `navigateMain` does. */
  lemma MainLinkIsNavigateMain(s: State, to: string, callerSearch: Option<Query>)
    ensures HostNav(to, MainLinkSearch(s.names, callerSearch)) == NavigateMain(s, to)
  {
  }
}

=== FILE: system_provider.dfy ===
/** The panel system's provider (lib/panel-system/system-provider.tsx): the coordination state
    machine that keeps each panel's own router in step with the host URL.  The host query holds one
    key per panel; an absent or `undefined` key means the panel is closed.

    Every operation reads one render-time snapshot of the host query.  Operations move panel routers
    at once and hand the host router a navigation (`HostNav`); applying the navigation is a separate
    step (`Apply`), and the provider's layout effect is the explicit step `Sync`. */
module SystemProvider {
  import opened Wrappers
  import opened Records
  import opened PanelRouter
  import opened PanelUtils
  import UrlEncoding

  /** A registered panel: its default path and its one-shot router cell. */
  datatype PanelDef = PanelDef(defaultPath: string, factory: Factory)

  /** The provider with the host router it reads: the panel names in key order, the panels, the
      host path and query, and `prevRefs.current`, the last value the sync step saw per panel. */
  datatype State = State(
    names: seq<string>,
    panels: map<string, PanelDef>,
    path: string,
    query: Query,
    lastSeen: map<string, Option<string>>)

  /** `panelNames` is `Object.keys(panels)`: distinct, and exactly the registered panels. */
  predicate WellFormed(s: State)
  {
    (forall i, j :: 0 <= i < j < |s.names| ==> s.names[i] != s.names[j]) &&
    (forall n :: n in s.names ==> n in s.panels) &&
    (forall n :: n in s.panels ==> n in s.names)
  }

  /** The router a panel's cell holds, if it was created. */
  function HandleOf(s: State, name: string): Option<Handle>
  {
    if name in s.panels then s.panels[name].factory.instance else None
  }

  /** The panel's router stands where `value` sends it. */
  predicate At(s: State, name: string, value: string)
  {
    HandleOf(s, name).Some? && HandleOf(s, name).value.location == TargetOf(value)
  }

  /** Only the panels' cells differ between two states. */
  predicate SameButCells(s: State, t: State)
  {
    t.names == s.names && t.panels.Keys == s.panels.Keys && t.path == s.path &&
    t.query == s.query && t.lastSeen == s.lastSeen
  }

  /** `panel.getRouter(search[name] || panel.defaultPath)` for a registered panel. */
  function Obtain(s: State, name: string): (r: (State, Handle))
    requires name in s.panels
    ensures SameButCells(s, r.0)
    ensures HandleOf(r.0, name) == Some(r.1)
    ensures HandleOf(s, name).Some? ==> r.0 == s && r.1 == HandleOf(s, name).value
    ensures HandleOf(s, name).None? ==>
              r.1 == Create(s.panels[name].factory.tree, s.panels[name].factory.pending,
                            OrElse(Lookup(s.query, name), s.panels[name].defaultPath))
    ensures forall m :: m != name ==> HandleOf(r.0, m) == HandleOf(s, m)
  {
    var p := s.panels[name];
    var (f, h) := Call(p.factory, Some(OrElse(Lookup(s.query, name), p.defaultPath)));
    (s.(panels := s.panels[name := p.(factory := f)]), h)
  }

  /** `getRouter(name)`: `null` for a name that is not registered, otherwise the panel's router,
      created on first use from the current value or, when that is absent or empty, the default. */
  function GetRouter(s: State, name: string): (r: (State, Option<Handle>))
    ensures SameButCells(s, r.0)
    ensures r.1.None? <==> name !in s.panels
    ensures name !in s.panels ==> r.0 == s
    ensures name in s.panels ==> r.1 == HandleOf(r.0, name) && r.0 == Obtain(s, name).0
    ensures forall m :: m != name ==> HandleOf(r.0, m) == HandleOf(s, m)
  {
    if name !in s.panels then (s, None)
    else
      var (t, h) := Obtain(s, name);
      (t, Some(h))
  }

  /** A registered panel's router after it moved. */
  function SetHandle(s: State, name: string, h: Handle): (r: State)
    requires name in s.panels
    ensures SameButCells(s, r)
    ensures HandleOf(r, name) == Some(h)
    ensures forall m :: m != name ==> HandleOf(r, m) == HandleOf(s, m)
  {
    var p := s.panels[name];
    s.(panels := s.panels[name := p.(factory := p.factory.(instance := Some(h)))])
  }

  // ----- The sync step -----

  /** One pass of the layout effect's loop: a non-empty value that differs from the last one seen
      moves the panel's router there; the value seen is recorded in every case. */
  function SyncOne(s: State, name: string): (r: State)
    requires name in s.panels
    ensures r.names == s.names && r.panels.Keys == s.panels.Keys
    ensures r.path == s.path && r.query == s.query
    ensures Lookup(r.lastSeen, name) == Lookup(s.query, name) && name in r.lastSeen
    ensures forall m :: m != name ==> HandleOf(r, m) == HandleOf(s, m)
    ensures forall m :: m != name ==> Lookup(r.lastSeen, m) == Lookup(s.lastSeen, m)
    ensures forall m :: m != name && m in s.lastSeen ==> m in r.lastSeen
    ensures var v := Lookup(s.query, name);
            if Truthy(v) && v != Lookup(s.lastSeen, name) then At(r, name, v.value)
            else HandleOf(r, name) == HandleOf(s, name)
  {
    var current := Lookup(s.query, name);
    var moved :=
      if Truthy(current) && current != Lookup(s.lastSeen, name) then
        var (t, h) := Obtain(s, name);
        PanelNavigateLands(h, current.value);
        SetHandle(t, name, PanelNavigate(h, current.value))
      else s;
    moved.(lastSeen := moved.lastSeen[name := current])
  }

  /** The loop over `ns`, in order. */
  function SyncAll(s: State, ns: seq<string>): (r: State)
    requires forall n :: n in ns ==> n in s.panels
    ensures r.names == s.names && r.panels.Keys == s.panels.Keys
    ensures r.path == s.path && r.query == s.query
    decreases |ns|
  {
    if ns == [] then s else SyncAll(SyncOne(s, ns[0]), ns[1..])
  }

  /** The layout effect, run after the host query changed. */
  function Sync(s: State): (r: State)
    requires WellFormed(s)
    ensures WellFormed(r) && r.path == s.path && r.query == s.query
  {
    SyncAll(s, s.names)
  }

  // ----- Invariants -----

  /** Every registered panel whose value is non-empty shows that value. */
  predicate Consistent(s: State)
  {
    forall n :: n in s.panels && Truthy(Lookup(s.query, n)) ==> At(s, n, Lookup(s.query, n).value)
  }

  /** The sync step has seen the current query. */
  predicate Synced(s: State)
  {
    forall n :: n in s.panels ==> n in s.lastSeen && s.lastSeen[n] == Lookup(s.query, n)
  }

  /** Every panel shows the last non-empty value the sync step saw for it. */
  predicate TracksSeen(s: State)
  {
    forall n :: n in s.panels && Truthy(Lookup(s.lastSeen, n)) ==> At(s, n, Lookup(s.lastSeen, n).value)
  }

  /** The condition for one panel under which the next sync step leaves it consistent: the sync
      step skips a panel whose value equals the last one seen, so such a panel must already show it. */
  predicate RecoverableAt(s: State, n: string)
  {
    var v := Lookup(s.query, n);
    Truthy(v) && v == Lookup(s.lastSeen, n) ==> At(s, n, v.value)
  }

  predicate Recoverable(s: State)
  {
    forall n :: n in s.panels ==> RecoverableAt(s, n)
  }

  /** A panel the sync step is done with: value seen, and shown when non-empty. */
  predicate SyncedAt(s: State, n: string)
  {
    var v := Lookup(s.query, n);
    n in s.lastSeen && s.lastSeen[n] == v && (Truthy(v) ==> At(s, n, v.value))
  }

  /** One pass makes its panel synced, given the panel was recoverable. */
  lemma SyncOneSyncs(s: State, name: string)
    requires name in s.panels && RecoverableAt(s, name)
    ensures SyncedAt(SyncOne(s, name), name)
  {
  }

  /** The loop leaves every panel it does not visit as it was. */
  lemma {:induction false} SyncAllFrame(s: State, ns: seq<string>, m: string)
    requires forall n :: n in ns ==> n in s.panels
    requires m !in ns
    ensures HandleOf(SyncAll(s, ns), m) == HandleOf(s, m)
    ensures Lookup(SyncAll(s, ns).lastSeen, m) == Lookup(s.lastSeen, m)
    ensures m in s.lastSeen ==> m in SyncAll(s, ns).lastSeen
    decreases |ns|
  {
    if ns != [] {
      SyncAllFrame(SyncOne(s, ns[0]), ns[1..], m);
    }
  }

  /** The loop syncs every panel it visits. */
  lemma {:induction false} SyncAllEffect(s: State, ns: seq<string>)
    requires forall n :: n in ns ==> n in s.panels
    requires forall i, j :: 0 <= i < j < |ns| ==> ns[i] != ns[j]
    requires forall n :: n in ns ==> RecoverableAt(s, n)
    ensures forall n :: n in ns ==> SyncedAt(SyncAll(s, ns), n)
    decreases |ns|
  {
    if ns != [] {
      var t := SyncOne(s, ns[0]);
      SyncOneSyncs(s, ns[0]);
      forall n | n in ns[1..] ensures RecoverableAt(t, n) {
        SyncOneFrame(s, ns[0], n);
      }
      SyncAllEffect(t, ns[1..]);
      assert ns[0] !in ns[1..];
      SyncAllFrame(t, ns[1..], ns[0]);
    }
  }

  /** One pass keeps every other panel recoverable. */
  lemma SyncOneFrame(s: State, name: string, n: string)
    requires name in s.panels && n != name && RecoverableAt(s, n)
    ensures RecoverableAt(SyncOne(s, name), n)
  {
    var t := SyncOne(s, name);
    assert HandleOf(t, n) == HandleOf(s, n);
    assert Lookup(t.lastSeen, n) == Lookup(s.lastSeen, n);
  }

  /** The sync step restores consistency from any recoverable state: afterwards every panel with a
      non-empty value shows it, and the sync step has seen the whole query. */
  lemma SyncRestores(s: State)
    requires WellFormed(s) && Recoverable(s)
    ensures var r := Sync(s); Consistent(r) && Synced(r) && TracksSeen(r)
  {
    SyncAllEffect(s, s.names);
    var r := Sync(s);
    forall n | n in r.panels ensures SyncedAt(r, n) {
      assert n in s.names;
    }
  }

  /** A state whose panels show what the sync step last saw is recoverable from whatever the host
      query becomes: back and forward, a typed URL, or any navigation below. */
  lemma TracksSeenRecoverable(s: State, nav: HostNav)
    requires TracksSeen(s)
    ensures Recoverable(Apply(s, nav))
  {
    var t := Apply(s, nav);
    forall n | n in t.panels ensures RecoverableAt(t, n) {
      assert HandleOf(t, n) == HandleOf(s, n);
    }
  }

  /** Running the sync step again changes nothing. */
  lemma SyncIdempotent(s: State)
    requires WellFormed(s) && Recoverable(s)
    ensures Sync(Sync(s)) == Sync(s)
  {
    SyncRestores(s);
    SyncedUnchanged(Sync(s), Sync(s).names);
  }

  /** On a synced state every pass of the loop is a no-op. */
  lemma {:induction false} SyncedUnchanged(s: State, ns: seq<string>)
    requires Synced(s) && forall n :: n in ns ==> n in s.panels
    ensures SyncAll(s, ns) == s
    decreases |ns|
  {
    if ns != [] {
      var n := ns[0];
      assert s.lastSeen[n] == Lookup(s.query, n);
      assert Lookup(s.lastSeen, n) == Lookup(s.query, n);
      assert s.lastSeen[n := Lookup(s.query, n)] == s.lastSeen;
      assert SyncOne(s, n) == s;
      SyncedUnchanged(s, ns[1..]);
    }
  }

  // ----- Operations -----

  /** A host navigation takes effect: the host path and query become its target. */
  function Apply(s: State, nav: HostNav): (r: State)
    ensures r.names == s.names && r.panels == s.panels && r.lastSeen == s.lastSeen
    ensures r.path == nav.to && r.query == nav.search
  {
    s.(path := nav.to, query := nav.search)
  }

  /** The value `navigatePanel` writes: the path with `opts.search` appended when given.  For a
      path without `?` the value reads back as that path, with exactly the non-empty search
      entries as its query, and no query when there are none. */
  function PanelValue(to: string, search: Option<Entries>): (v: string)
    ensures search.None? ==> v == to
    ensures '?' !in to ==> ParsePanelValue(v).pathname == to
    ensures '?' !in to ==>
              (ParsePanelValue(v).searchString == "" <==> search.None? || NonEmptyValues(search.value) == [])
    ensures '?' !in to && search.Some? && NonEmptyValues(search.value) != [] ==>
              UrlEncoding.Parse(ParsePanelValue(v).searchString) == NonEmptyValues(search.value)
  {
    BuildReadsBack(to, search);
    if search.Some? then BuildPanelValue(to, search) else to
  }

  /** `BuildThenParse` for any path, guarded by its condition. */
  lemma BuildReadsBack(to: string, search: Option<Entries>)
    ensures '?' !in to ==> ParsePanelValue(BuildPanelValue(to, search)).pathname == to
    ensures '?' !in to ==>
              (ParsePanelValue(BuildPanelValue(to, search)).searchString == "" <==>
                 search.None? || NonEmptyValues(search.value) == [])
    ensures '?' !in to && search.Some? && NonEmptyValues(search.value) != [] ==>
              UrlEncoding.Parse(ParsePanelValue(BuildPanelValue(to, search)).searchString) == NonEmptyValues(search.value)
  {
    if '?' !in to {
      BuildThenParse(to, search);
    }
  }

  /** The query `navigatePanel` writes: every registered key, the target one set to `value`, the
      others as in the snapshot. */
  function NextSearch(names: seq<string>, q: Query, name: string, value: string): (r: Query)
    ensures forall k :: k in r <==> k in names
    ensures name in names ==> r[name] == Some(value)
    ensures forall k :: k in names && k != name ==> r[k] == Lookup(q, k)
  {
    map k | k in names :: if k == name then Some(value) else Lookup(q, k)
  }

  /** `navigatePanel(name, to, opts)`: moves the panel's router at once, creating it if needed,
      then asks the host for `/` with the next query.  An unregistered name moves no router and
      writes no key. */
  function NavigatePanel(s: State, name: string, to: string, search: Option<Entries>): (r: (State, HostNav))
    ensures SameButCells(s, r.0)
    ensures name in s.panels ==> At(r.0, name, PanelValue(to, search))
    ensures name !in s.panels ==> r.0 == s
    ensures forall m :: m != name ==> HandleOf(r.0, m) == HandleOf(s, m)
    ensures r.1.to == "/"
    ensures r.1.search == NextSearch(s.names, s.query, name, PanelValue(to, search))
  {
    var value := PanelValue(to, search);
    var (t, h) := GetRouter(s, name);
    var moved := if h.Some? then SetHandle(t, name, PanelNavigate(h.value, value)) else t;
    (moved, HostNav("/", NextSearch(s.names, s.query, name, value)))
  }

  /** `closePanel(name)`: every registered key kept except `name`, which becomes `undefined`; no
      router moves. */
  function ClosePanel(s: State, name: string): (nav: HostNav)
    ensures nav.to == "/"
    ensures forall k :: k in nav.search <==> k in s.names
    ensures forall k :: k in s.names && k != name ==> nav.search[k] == Lookup(s.query, k)
    ensures name in s.names ==> nav.search[name] == None
  {
    HostNav("/", map k | k in s.names :: if k == name then None else Lookup(s.query, k))
  }

  /** `isPanelOpen(name)`: the value is not `undefined`, so an empty value counts as open. */
  predicate IsPanelOpen(s: State, name: string)
  {
    Lookup(s.query, name).Some?
  }

  /** `navigateMain(to)`: the host path moves to `to` and every panel key becomes `undefined`. */
  function NavigateMain(s: State, to: string): (nav: HostNav)
    ensures nav.to == to
    ensures forall k :: k in nav.search <==> k in s.names
    ensures forall k :: k in s.names ==> nav.search[k] == None
  {
    HostNav(to, map k | k in s.names :: None)
  }

  /** A call into the provider's context. */
  datatype Action =
    | NavigateTo(name: string, to: string, search: Option<Entries>)
    | Close(name: string)
    | Main(to: string)

  function Perform(s: State, a: Action): (r: (State, HostNav))
    ensures SameButCells(s, r.0)
  {
    match a
    case NavigateTo(name, to, search) => NavigatePanel(s, name, to, search)
    case Close(name) => (s, ClosePanel(s, name))
    case Main(to) => (s, NavigateMain(s, to))
  }

  /** One event handler making several calls: all of them read the same snapshot of the query,
      routers move as each call runs, and the host navigations pile up in call order. */
  function PerformAll(s: State, actions: seq<Action>): (r: (State, seq<HostNav>))
    ensures SameButCells(s, r.0)
    ensures |r.1| == |actions|
    decreases |actions|
  {
    if actions == [] then (s, [])
    else
      var (t, nav) := Perform(s, actions[0]);
      var (u, navs) := PerformAll(t, actions[1..]);
      (u, [nav] + navs)
  }

  /** The host router takes the navigations in order. */
  function ApplyAll(s: State, navs: seq<HostNav>): (r: State)
    ensures r.names == s.names && r.panels == s.panels && r.lastSeen == s.lastSeen
    decreases |navs|
  {
    if navs == [] then s else ApplyAll(Apply(s, navs[0]), navs[1..])
  }

  /** Each navigation replaces the whole query, so the last one decides the URL. */
  lemma {:induction false} LastWriteWins(s: State, navs: seq<HostNav>)
    requires navs != []
    ensures ApplyAll(s, navs) == Apply(s, navs[|navs| - 1])
    decreases |navs|
  {
    if |navs| > 1 {
      LastWriteWins(Apply(s, navs[0]), navs[1..]);
      assert navs[1..][|navs[1..]| - 1] == navs[|navs| - 1];
    }
  }

  /** A single call, applied, keeps the state recoverable, so the next sync step makes it
      consistent again. */
  lemma PerformRecoverable(s: State, a: Action)
    requires WellFormed(s) && Recoverable(s)
    ensures var (t, nav) := Perform(s, a); Recoverable(Apply(t, nav))
  {
    match a
    case NavigateTo(name, to, search) => NavigateRecoverable(s, name, to, search);
    case Close(name) => CloseRecoverable(s, name);
    case Main(to) =>
  }

  /** The panel sent somewhere shows it already; every other panel keeps its value and router. */
  lemma NavigateRecoverable(s: State, name: string, to: string, search: Option<Entries>)
    requires WellFormed(s) && Recoverable(s)
    ensures var (t, nav) := NavigatePanel(s, name, to, search); Recoverable(Apply(t, nav))
  {
    var (t, nav) := NavigatePanel(s, name, to, search);
    var u := Apply(t, nav);
    forall n | n in u.panels ensures RecoverableAt(u, n) {
      assert n in s.names;
      if n != name {
        assert RecoverableAt(s, n);
        assert HandleOf(u, n) == HandleOf(s, n);
        assert Lookup(u.query, n) == Lookup(s.query, n);
      }
    }
  }

  /** A closed panel needs nothing; every other panel keeps its value and router. */
  lemma CloseRecoverable(s: State, name: string)
    requires WellFormed(s) && Recoverable(s)
    ensures Recoverable(Apply(s, ClosePanel(s, name)))
  {
    var u := Apply(s, ClosePanel(s, name));
    forall n | n in u.panels ensures RecoverableAt(u, n) {
      assert n in s.names;
      assert RecoverableAt(s, n);
    }
  }

  /** After a single `navigatePanel` to a registered panel and the sync step, the panel shows the
      value it was sent to (if non-empty) and the URL holds that value. */
  lemma NavigateThenSync(s: State, name: string, to: string, search: Option<Entries>)
    requires WellFormed(s) && Recoverable(s) && name in s.panels
    ensures var (t, nav) := NavigatePanel(s, name, to, search);
            var r := Sync(Apply(t, nav));
            var v := PanelValue(to, search);
            Consistent(r) && Lookup(r.query, name) == Some(v) && (v != "" ==> At(r, name, v))
  {
    PerformRecoverable(s, NavigateTo(name, to, search));
    var (t, nav) := NavigatePanel(s, name, to, search);
    SyncRestores(Apply(t, nav));
  }

  /** Rendering a panel's outlet may create its router; that keeps the state recoverable. */
  lemma GetRouterRecoverable(s: State, name: string)
    requires Recoverable(s)
    ensures Recoverable(GetRouter(s, name).0)
  {
    var t := GetRouter(s, name).0;
    forall n | n in t.panels ensures RecoverableAt(t, n) {
      assert RecoverableAt(s, n);
    }
  }

  /** A closed panel whose key comes back re-navigates its router on the next sync step, even to
      the value it had before it was closed: closing recorded `undefined` as the last value seen. */
  lemma ReopenRenavigates(s: State, name: string, reopened: HostNav)
    requires WellFormed(s) && Recoverable(s) && name in s.panels
    requires Truthy(Lookup(reopened.search, name))
    ensures var closed := Sync(Apply(s, ClosePanel(s, name)));
            Lookup(closed.lastSeen, name) == None &&
            At(Sync(Apply(closed, reopened)), name, Lookup(reopened.search, name).value)
  {
    PerformRecoverable(s, Close(name));
    var closed := Sync(Apply(s, ClosePanel(s, name)));
    SyncRestores(Apply(s, ClosePanel(s, name)));
    TracksSeenRecoverable(closed, reopened);
    SyncRestores(Apply(closed, reopened));
  }

  /** The provider as first mounted: no router created, nothing seen yet. */
  function Mount(names: seq<string>, panels: map<string, PanelDef>, path: string, query: Query): (s: State)
    ensures TracksSeen(s) && Recoverable(s)
  {
    State(names, panels, path, query, map[])
  }
}

=== FILE: ui_link.dfy ===
/** The older link components (components/ui/link.tsx): a main link that closes both panels, a link
    that sets both panels, and links that open the left or the right panel through the shell's
    navigators. */
module UiLink {
  import opened Wrappers
  import opened Records
  import opened RootRoute
  import opened PanelShell
  import PanelUrl
  import PanelUtils
  import UrlEncoding
  import SystemProvider

  /** `Link({ to })`: to `to ?? '/'`, both panels closed. */
  function LinkTarget(to: Option<string>): (n: Nav)
    ensures n.to == to.GetOr("/") && n.search.left.None? && n.search.right.None?
  {
    Nav(to.GetOr("/"), Cleared)
  }

  /** `LinkPanels({ left, right })`: to `/` with `left` set and `right` as given (`undefined` when
      omitted). */
  function LinkPanelsTarget(left: string, right: Option<string>): (n: Nav)
    ensures n.to == "/" && n.search.left == Some(left) && n.search.right == right
  {
    Nav("/", PanelSearch(Some(left), right))
  }

  /** A main link leaves panel mode and a panels link enters it. */
  lemma LinksAndPanelMode(to: Option<string>, left: string, right: Option<string>)
    ensures !IsPanelMode(LinkTarget(to).search) && ShellBody(LinkTarget(to).search) == MainOutlet
    ensures IsPanelMode(LinkPanelsTarget(left, right).search)
    ensures ShellBody(LinkPanelsTarget(left, right).search) == PanelShellBody
  {
  }

  /** `LinkLeftPanel`'s value: the legacy `buildPanelValue(to, search)` when a search is given, else
      `to`.  It is the value `navigatePanel` writes, and for a path without `?` the legacy parser
      reads it back as that path with exactly the non-empty search entries. */
  function LeftValue(to: string, search: Option<Entries>): (v: string)
    ensures v == SystemProvider.PanelValue(to, search)
    ensures search.Some? ==> v == PanelUrl.BuildPanelValue(to, search)
    ensures '?' !in to ==> PanelUrl.ParsePanelValue(v).pathname == to
    ensures '?' !in to && search.Some? && PanelUtils.NonEmptyValues(search.value) != [] ==>
              UrlEncoding.Parse(PanelUrl.ParsePanelValue(v).searchString) == PanelUtils.NonEmptyValues(search.value)
  {
    var v := SystemProvider.PanelValue(to, search);
    PanelUrl.BuildSameAsPanelSystem(to, search);
    PanelUrl.ParseSameAsPanelSystem(v);
    v
  }

  /** The left link's href: `left` set to the value, `right` as it is now. */
  function LeftHref(prev: PanelSearch, value: string): (n: Nav)
    ensures n.to == "/" && n.search.left == Some(value) && n.search.right == prev.right
  {
    Nav("/", PanelSearch(Some(value), prev.right))
  }

  /** The right link's href: `left` as it is now, `right` set to `to`. */
  function RightHref(prev: PanelSearch, to: string): (n: Nav)
    ensures n.to == "/" && n.search.left == prev.left && n.search.right == Some(to)
  {
    Nav("/", PanelSearch(prev.left, Some(to)))
  }

  /** What a click on a legacy link does: whether it prevents the browser's navigation and the
      navigator calls it makes. */
  datatype ShellClick = ShellClick(prevented: bool, actions: seq<ShellAction>)

  /** A click on a link that calls one navigator: nothing for a modified click or outside the shell,
      otherwise that one call. */
  function ClickCalls(ctx: Option<ShellState>, click: Click, a: ShellAction): (r: ShellClick)
    ensures Modified(click) || ctx.None? ==> r == ShellClick(false, [])
    ensures !Modified(click) && ctx.Some? ==> r == ShellClick(true, [a])
  {
    if Modified(click) || ctx.None? then ShellClick(false, []) else ShellClick(true, [a])
  }

  /** `LinkLeftPanel`'s click: `navigateLeft(value)`, which asks the host for exactly the link's
      href and moves the left router to the value at once. */
  function LeftClick(ctx: Option<ShellState>, value: string, click: Click): (r: ShellClick)
    ensures Modified(click) || ctx.None? ==> r == ShellClick(false, [])
    ensures !Modified(click) && ctx.Some? ==>
              r.prevented && r.actions == [NavigateLeft(value)] &&
              Perform(ctx.value, r.actions[0]).1 == LeftHref(ctx.value.search, value) &&
              Shows(Perform(ctx.value, r.actions[0]).0.leftCell, value)
  {
    ClickCalls(ctx, click, NavigateLeft(value))
  }

  /** `LinkRightPanel`'s click: `navigateRight(to)`.  It asks for the link's href only when the left
      panel holds a non-empty value: otherwise it opens the left panel at `/`, which the href does
      not. */
  function RightClick(ctx: Option<ShellState>, to: string, click: Click): (r: ShellClick)
    ensures Modified(click) || ctx.None? ==> r == ShellClick(false, [])
    ensures !Modified(click) && ctx.Some? ==>
              r.prevented && r.actions == [NavigateRight(to)] &&
              (Perform(ctx.value, r.actions[0]).1 == RightHref(ctx.value.search, to) <==>
                 Truthy(ctx.value.search.left))
  {
    if Modified(click) || ctx.None? then ClickCalls(ctx, click, NavigateRight(to))
    else
      RightNavigateHrefIff(ctx.value, to);
      ClickCalls(ctx, click, NavigateRight(to))
  }

  lemma RightNavigateHrefIff(s: ShellState, to: string)
    ensures Perform(s, NavigateRight(to)).1 == RightHref(s.search, to) <==> Truthy(s.search.left)
  {
    var n := Perform(s, NavigateRight(to)).1;
    if !Truthy(s.search.left) {
      assert n.search.left == Some("/") && n.search.left != s.search.left;
    }
  }
}

=== FILE: url_encoding.dfy ===
/** Percent-encoding as JavaScript's `encodeURIComponent` (ECMA-262) and `URLSearchParams` (the
    application/x-www-form-urlencoded serializer and parser of the WHATWG URL Standard, sections 5.1
    and 5.2) perform it.  Both encode the UTF-8 bytes of their input; they differ only in the bytes
    they leave alone and in how they write a space. */
module UrlEncoding {
  import opened Utf8
  import opened Strings
  import opened SplitJoin

  /** The two sets of bytes that are written as themselves. */
  datatype EncodeSet =
    | Component  // encodeURIComponent: ECMA-262 uriUnreserved
    | Form       // the urlencoded serializer

  predicate IsAlnum(b: Byte)
  {
    0x30 <= b <= 0x39 || 0x41 <= b <= 0x5A || 0x61 <= b <= 0x7A
  }

  /** `encodeURIComponent` keeps letters, digits and `- _ . ! ~ * ' ( )`; the urlencoded serializer
      keeps letters, digits and `* - . _`. */
  predicate Unreserved(kind: EncodeSet, b: Byte)
  {
    IsAlnum(b) ||
    match kind
    case Component =>
      b == 0x2D || b == 0x5F || b == 0x2E || b == 0x21 || b == 0x7E || b == 0x2A || b == 0x27
      || b == 0x28 || b == 0x29
    case Form => b == 0x2A || b == 0x2D || b == 0x2E || b == 0x5F
  }

  /** A character both encoders write as itself. */
  predicate KeptChar(kind: EncodeSet, c: char)
  {
    IsAscii(c) && Unreserved(kind, c as int)
  }

  /** A byte the encoder may emit: a kept byte, the `%` of an escape, or the serializer's `+`. */
  predicate Emitted(kind: EncodeSet, b: Byte)
  {
    Unreserved(kind, b) || b == 0x25 || (kind == Form && b == 0x2B)
  }

  /** Upper-case hexadecimal digit, as both encoders write them. */
  function HexByte(d: int): (b: Byte)
    requires 0 <= d < 16
    ensures IsAlnum(b) && IsHex(b) && HexValue(b) == d
  {
    if d < 10 then 0x30 + d else 0x41 + d - 10
  }

  predicate IsHex(b: Byte)
  {
    0x30 <= b <= 0x39 || 0x41 <= b <= 0x46 || 0x61 <= b <= 0x66
  }

  /** The value of a hexadecimal digit in either case. */
  function HexValue(b: Byte): (d: int)
    requires IsHex(b)
    ensures 0 <= d < 16
  {
    if b <= 0x39 then b - 0x30 else if b <= 0x46 then b - 0x41 + 10 else b - 0x61 + 10
  }

  function EncodeByte(kind: EncodeSet, b: Byte): (out: seq<Byte>)
    ensures forall i :: 0 <= i < |out| ==> Emitted(kind, out[i])
    ensures |out| == 1 || |out| == 3
  {
    if Unreserved(kind, b) then [b]
    else if kind == Form && b == 0x20 then [0x2B]
    else [0x25, HexByte(b / 16), HexByte(b % 16)]
  }

  function PercentEncode(kind: EncodeSet, bs: seq<Byte>): (out: seq<Byte>)
    ensures forall i :: 0 <= i < |out| ==> Emitted(kind, out[i])
    ensures |out| >= |bs|
  {
    if bs == [] then [] else EncodeByte(kind, bs[0]) + PercentEncode(kind, bs[1..])
  }

  lemma EmittedIsAscii(kind: EncodeSet, b: Byte)
    requires Emitted(kind, b)
    ensures b < 0x80
  {
  }

  /** The encoder output as a string: its bytes are ASCII, so each is one character. */
  function EncodedString(kind: EncodeSet, s: string): (r: string)
    ensures forall i :: 0 <= i < |r| ==> IsAscii(r[i]) && Emitted(kind, r[i] as int)
  {
    var bs := PercentEncode(kind, Encode(s));
    AsciiString(bs)
  }

  /** `encodeURIComponent(s)`. */
  function EncodeUriComponent(s: string): (r: string)
    ensures forall i :: 0 <= i < |r| ==> r[i] == '%' || KeptChar(Component, r[i])
    ensures (forall i :: 0 <= i < |s| ==> KeptChar(Component, s[i])) ==> r == s
  {
    UnreservedUnchanged(Component, s);
    EncodedString(Component, s)
  }

  /** The urlencoded serializer applied to one name or value. */
  function FormEncode(s: string): (r: string)
    ensures forall i :: 0 <= i < |r| ==> r[i] == '%' || r[i] == '+' || KeptChar(Form, r[i])
  {
    EncodedString(Form, s)
  }

  /** Text made only of kept characters is written unchanged. */
  lemma {:induction false} UnreservedUnchanged(kind: EncodeSet, s: string)
    ensures (forall i :: 0 <= i < |s| ==> KeptChar(kind, s[i])) ==> EncodedString(kind, s) == s
    decreases |s|
  {
    if forall i :: 0 <= i < |s| ==> KeptChar(kind, s[i]) {
      EncodeAscii(s);
      KeptBytes(kind, AsciiBytes(s));
    }
  }

  lemma {:induction false} KeptBytes(kind: EncodeSet, bs: seq<Byte>)
    requires forall i :: 0 <= i < |bs| ==> Unreserved(kind, bs[i])
    ensures PercentEncode(kind, bs) == bs
    decreases |bs|
  {
    if bs != [] {
      KeptBytes(kind, bs[1..]);
      assert bs == [bs[0]] + bs[1..];
    }
  }

  // ----- Decoding -----

  /** Percent-decoding (URL Standard section 1.3): `%` and two hexadecimal digits become that byte;
      every other byte, including a `%` not followed by two digits, is kept. */
  function PercentDecode(bs: seq<Byte>): (out: seq<Byte>)
    ensures |out| <= |bs|
    ensures 0x25 !in bs ==> out == bs
  {
    if bs == [] then []
    else if bs[0] == 0x25 && |bs| >= 3 && IsHex(bs[1]) && IsHex(bs[2]) then
      [HexValue(bs[1]) * 16 + HexValue(bs[2])] + PercentDecode(bs[3..])
    else
      assert bs == [bs[0]] + bs[1..];
      [bs[0]] + PercentDecode(bs[1..])
  }

  /** The parser reads `+` as a space before it percent-decodes. */
  function PlusToSpace(bs: seq<Byte>): (out: seq<Byte>)
    ensures |out| == |bs|
    ensures forall i :: 0 <= i < |bs| ==> out[i] == if bs[i] == 0x2B then 0x20 else bs[i]
  {
    seq(|bs|, i requires 0 <= i < |bs| => if bs[i] == 0x2B then 0x20 else bs[i])
  }

  /** One name or value as the urlencoded parser reads it. */
  function FormDecode(s: string): string
  {
    Decode(PercentDecode(PlusToSpace(Encode(s))))
  }

  /** Reverses `encodeURIComponent`; used only to show that it loses nothing. */
  function UnescapeComponent(s: string): string
  {
    Decode(PercentDecode(Encode(s)))
  }

  /** How the parser prepares the encoder's output for percent-decoding. */
  function Unplus(kind: EncodeSet, bs: seq<Byte>): seq<Byte>
  {
    if kind == Form then PlusToSpace(bs) else bs
  }

  lemma {:induction false} DecodeEncodeByte(kind: EncodeSet, b: Byte, rest: seq<Byte>)
    ensures PercentDecode(Unplus(kind, EncodeByte(kind, b)) + rest) == [b] + PercentDecode(rest)
  {
    var e := EncodeByte(kind, b);
    var u := Unplus(kind, e);
    if |e| == 3 {
      assert u == e;
      var bs := u + rest;
      assert bs[0] == 0x25 && bs[1] == HexByte(b / 16) && bs[2] == HexByte(b % 16);
      assert bs[3..] == rest;
    } else {
      assert u == [b] || (kind == Form && b == 0x20 && u == [0x20]);
      assert (u + rest)[1..] == rest;
    }
  }

  lemma {:induction false} PercentDecodeEncode(kind: EncodeSet, bs: seq<Byte>)
    ensures PercentDecode(Unplus(kind, PercentEncode(kind, bs))) == bs
    decreases |bs|
  {
    if bs != [] {
      var e := EncodeByte(kind, bs[0]);
      var tail := PercentEncode(kind, bs[1..]);
      assert Unplus(kind, e + tail) == Unplus(kind, e) + Unplus(kind, tail);
      DecodeEncodeByte(kind, bs[0], Unplus(kind, tail));
      PercentDecodeEncode(kind, bs[1..]);
      assert bs == [bs[0]] + bs[1..];
    }
  }

  /** The bytes of an encoder output are the bytes the encoder produced. */
  lemma EncodedBytes(kind: EncodeSet, s: string)
    ensures Encode(EncodedString(kind, s)) == PercentEncode(kind, Encode(s))
  {
    var bs := PercentEncode(kind, Encode(s));
    var r := EncodedString(kind, s);
    EncodeAscii(r);
    assert AsciiBytes(r) == bs;
  }

  /** The urlencoded parser reads back what the serializer wrote for one name or value. */
  lemma FormDecodeEncode(s: string)
    ensures FormDecode(FormEncode(s)) == s
  {
    EncodedBytes(Form, s);
    PercentDecodeEncode(Form, Encode(s));
    DecodeEncode(s);
  }

  /** `encodeURIComponent` has a left inverse, so distinct inputs give distinct outputs. */
  lemma UnescapeEncodeUriComponent(s: string)
    ensures UnescapeComponent(EncodeUriComponent(s)) == s
  {
    EncodedBytes(Component, s);
    PercentDecodeEncode(Component, Encode(s));
    DecodeEncode(s);
  }

  lemma EncodeUriComponentInjective(a: string, b: string)
    requires EncodeUriComponent(a) == EncodeUriComponent(b)
    ensures a == b
  {
    UnescapeEncodeUriComponent(a);
    UnescapeEncodeUriComponent(b);
  }

  /** The space in `a b` is escaped as `%20`. */
  lemma EncodeUriComponentSpace()
    ensures EncodeUriComponent("a b") == "a%20b"
  {
    var bs := Encode("a b");
    assert bs == [0x61, 0x20, 0x62];
    assert PercentEncode(Component, bs) == [0x61, 0x25, 0x32, 0x30, 0x62];
  }

  // ----- URLSearchParams -----

  /** The serializer's `name=value` for one entry. */
  function Pair(e: (string, string)): (p: string)
  {
    FormEncode(e.0) + "=" + FormEncode(e.1)
  }

  function Pairs(entries: seq<(string, string)>): (pairs: seq<string>)
    ensures |pairs| == |entries| && forall i :: 0 <= i < |entries| ==> pairs[i] == Pair(entries[i])
  {
    seq(|entries|, i requires 0 <= i < |entries| => Pair(entries[i]))
  }

  /** `new URLSearchParams(entries).toString()`: the pairs joined with `&`. */
  function Serialize(entries: seq<(string, string)>): (r: string)
    ensures r == "" <==> entries == []
    ensures '?' !in r && '#' !in r
  {
    SerializedShape(entries);
    Join(Pairs(entries), '&')
  }

  lemma SerializedShape(entries: seq<(string, string)>)
    ensures Join(Pairs(entries), '&') == "" <==> entries == []
    ensures '?' !in Join(Pairs(entries), '&') && '#' !in Join(Pairs(entries), '&')
  {
    var pairs := Pairs(entries);
    PairsShape(pairs, entries);
    JoinFree(pairs, '&', '?');
    JoinFree(pairs, '&', '#');
    if entries != [] {
      JoinStartsWithFirst(pairs, '&');
      assert '=' in pairs[0];
    }
  }

  lemma PairsShape(pairs: seq<string>, entries: seq<(string, string)>)
    requires |pairs| == |entries| && forall i :: 0 <= i < |pairs| ==> pairs[i] == Pair(entries[i])
    ensures forall i :: 0 <= i < |pairs| ==> '=' in pairs[i] && '?' !in pairs[i] && '#' !in pairs[i]
    ensures forall i :: 0 <= i < |pairs| ==> '&' !in pairs[i]
  {
    forall i | 0 <= i < |pairs|
      ensures '=' in pairs[i] && '?' !in pairs[i] && '#' !in pairs[i] && '&' !in pairs[i]
    {
      PairShape(entries[i]);
    }
  }

  /** A name or value as the serializer writes it holds none of `= ? # &`. */
  lemma FormEncodeFree(s: string, c: char)
    requires c in "=?#&"
    ensures c !in FormEncode(s)
  {
    var r := FormEncode(s);
    forall j | 0 <= j < |r| ensures r[j] != c {
      assert r[j] == '%' || r[j] == '+' || KeptChar(Form, r[j]);
    }
  }

  lemma PairShape(e: (string, string))
    ensures '=' in Pair(e) && '?' !in Pair(e) && '#' !in Pair(e) && '&' !in Pair(e)
  {
    var k, v := FormEncode(e.0), FormEncode(e.1);
    var p := Pair(e);
    assert p == k + "=" + v;
    assert p[|k|] == '=';
    FormEncodeFree(e.0, '?');
    FormEncodeFree(e.0, '#');
    FormEncodeFree(e.0, '&');
    FormEncodeFree(e.1, '?');
    FormEncodeFree(e.1, '#');
    FormEncodeFree(e.1, '&');
    forall c | c in "?#&" ensures c !in p {
      assert c !in k && c !in v && c != '=';
    }
  }

  /** The parser reads one serialized pair back as the entry it came from. */
  lemma ParseEntryPair(e: (string, string))
    ensures ParseEntry(Pair(e)) == e
  {
    var k, v := FormEncode(e.0), FormEncode(e.1);
    var p := Pair(e);
    assert p == k + ['='] + v;
    FormEncodeFree(e.0, '=');
    IndexOfAfterFree(k, '=', v);
    assert p[..|k|] == k && p[|k| + 1..] == v;
    FormDecodeEncode(e.0);
    FormDecodeEncode(e.1);
  }

  /** How the parser splits one non-empty piece: at its first `=`, or all name. */
  function ParseEntry(piece: string): (e: (string, string))
  {
    var eq := IndexOf(piece, '=');
    if eq == -1 then (FormDecode(piece), "")
    else (FormDecode(piece[..eq]), FormDecode(piece[eq + 1..]))
  }

  /** `new URLSearchParams(query)` read as its list of entries.  A leading `?` is dropped; the rest
      is split on `&`, empty pieces are skipped, and each piece is split at its first `=`.  The URL
      Standard splits the UTF-8 bytes rather than the characters; the two agree because `&` and `=`
      are ASCII and no byte of a multi-byte character is. */
  function Parse(query: string): (entries: seq<(string, string)>)
  {
    var body := if |query| > 0 && query[0] == '?' then query[1..] else query;
    var pieces := NonEmptyPieces(body, '&');
    seq(|pieces|, i requires 0 <= i < |pieces| => ParseEntry(pieces[i]))
  }

  /** The parser reads back exactly the entries the serializer wrote, in order. */
  lemma ParseSerialize(entries: seq<(string, string)>)
    ensures Parse(Serialize(entries)) == entries
  {
    var pairs := Pairs(entries);
    PairsShape(pairs, entries);
    var s := Serialize(entries);
    assert s == Join(pairs, '&');
    if entries == [] {
      assert Split(s, '&') == [""];
      assert NonEmptyPieces(s, '&') == [];
    } else {
      assert s[0] != '?';
      SplitOfJoin(pairs, '&');
      FilterKeepsNonEmpty(pairs);
      assert NonEmptyPieces(s, '&') == pairs;
      forall i | 0 <= i < |pairs| ensures ParseEntry(pairs[i]) == entries[i] {
        ParseEntryPair(entries[i]);
      }
    }
  }
}

=== FILE: utf8.dfy ===
/** UTF-8 as the WHATWG Encoding Standard defines it: the encoder, and the decoder that replaces
    every malformed sequence with U+FFFD instead of failing.  Strings here are sequences of Unicode
    scalar values, so the encoder is total. */
module Utf8 {

  type Byte = b: int | 0 <= b < 256

  const Replacement: char := '\U{FFFD}'

  predicate IsAscii(c: char) { c as int < 0x80 }

  predicate IsContinuation(b: Byte) { 0x80 <= b < 0xC0 }

  /** The one to four bytes of one scalar value. */
  function EncodeChar(c: char): (bs: seq<Byte>)
    ensures 1 <= |bs| <= 4
    ensures |bs| == 1 <==> IsAscii(c)
    ensures IsAscii(c) ==> bs == [c as int]
    ensures forall i :: 1 <= i < |bs| ==> IsContinuation(bs[i])
    ensures !IsAscii(c) ==> bs[0] >= 0xC2
  {
    var n := c as int;
    if n < 0x80 then [n]
    else if n < 0x800 then [0xC0 + n / 64, 0x80 + n % 64]
    else if n < 0x10000 then [0xE0 + n / 4096, 0x80 + n / 64 % 64, 0x80 + n % 64]
    else [0xF0 + n / 262144, 0x80 + n / 4096 % 64, 0x80 + n / 64 % 64, 0x80 + n % 64]
  }

  function Encode(s: string): (bs: seq<Byte>)
    ensures |bs| >= |s|
  {
    if s == "" then [] else EncodeChar(s[0]) + Encode(s[1..])
  }

  /** The bytes of a string that is all ASCII are its character codes. */
  function AsciiBytes(s: string): (bs: seq<Byte>)
    requires forall i :: 0 <= i < |s| ==> IsAscii(s[i])
    ensures |bs| == |s| && forall i :: 0 <= i < |s| ==> bs[i] == s[i] as int
  {
    seq<Byte>(|s|, i requires 0 <= i < |s| && IsAscii(s[i]) => s[i] as int)
  }

  /** The string whose characters are the given ASCII codes. */
  function AsciiString(bs: seq<Byte>): (s: string)
    requires forall i :: 0 <= i < |bs| ==> bs[i] < 0x80
    ensures |s| == |bs| && forall i :: 0 <= i < |bs| ==> s[i] as int == bs[i]
  {
    seq(|bs|, i requires 0 <= i < |bs| => bs[i] as char)
  }

  lemma {:induction false} EncodeAppend(a: string, b: string)
    ensures Encode(a + b) == Encode(a) + Encode(b)
    decreases |a|
  {
    if a != "" {
      assert (a + b)[0] == a[0] && (a + b)[1..] == a[1..] + b;
      EncodeAppend(a[1..], b);
      assert Encode(a) == EncodeChar(a[0]) + Encode(a[1..]);
      assert Encode(a + b) == EncodeChar(a[0]) + Encode(a[1..] + b);
    } else {
      assert a + b == b;
    }
  }

  /** On ASCII text the encoder is the identity on character codes. */
  lemma {:induction false} EncodeAscii(s: string)
    requires forall i :: 0 <= i < |s| ==> IsAscii(s[i])
    ensures Encode(s) == AsciiBytes(s)
    decreases |s|
  {
    if s != "" {
      EncodeAscii(s[1..]);
      assert AsciiBytes(s) == [s[0] as int] + AsciiBytes(s[1..]);
    }
  }

  // ----- Decoder -----

  /** Continuation bytes a lead byte announces: 0 for ASCII, -1 for a byte that starts no sequence. */
  function Needed(lead: Byte): int
  {
    if lead < 0x80 then 0
    else if 0xC2 <= lead <= 0xDF then 1
    else if 0xE0 <= lead <= 0xEF then 2
    else if 0xF0 <= lead <= 0xF4 then 3
    else -1
  }

  /** The range the decoder accepts for the continuation byte at offset `i` after `lead`: the first one
      is narrowed so that overlong forms, surrogates and values past U+10FFFF are refused. */
  function Lower(lead: Byte, i: nat): Byte
  {
    if i == 1 && lead == 0xE0 then 0xA0 else if i == 1 && lead == 0xF0 then 0x90 else 0x80
  }

  function Upper(lead: Byte, i: nat): Byte
  {
    if i == 1 && lead == 0xED then 0x9F else if i == 1 && lead == 0xF4 then 0x8F else 0xBF
  }

  predicate InRange(bs: seq<Byte>, i: nat)
    requires 1 <= i < |bs|
  {
    Lower(bs[0], i) <= bs[i] <= Upper(bs[0], i)
  }

  /** The offset of the last continuation byte the decoder takes, counting from `i`, before it meets
      the end of input, a byte out of range, or has all `needed` of them. */
  function Accepted(bs: seq<Byte>, i: nat, needed: nat): (k: nat)
    requires 1 <= i <= needed + 1 && i <= |bs|
    ensures i - 1 <= k <= needed && k < |bs|
    ensures forall j :: i <= j <= k ==> InRange(bs, j)
    ensures k < needed ==> k + 1 == |bs| || !InRange(bs, k + 1)
    decreases needed + 1 - i
  {
    if i > needed || i >= |bs| || !InRange(bs, i) then i - 1
    else Accepted(bs, i + 1, needed)
  }

  function Assemble(bs: seq<Byte>, needed: nat): int
    requires 1 <= needed <= 3 && |bs| > needed
  {
    var b := seq(needed + 1, i requires 0 <= i <= needed => bs[i] as int);
    if needed == 1 then (b[0] - 0xC0) * 64 + (b[1] - 0x80)
    else if needed == 2 then (b[0] - 0xE0) * 4096 + (b[1] - 0x80) * 64 + (b[2] - 0x80)
    else (b[0] - 0xF0) * 262144 + (b[1] - 0x80) * 4096 + (b[2] - 0x80) * 64 + (b[3] - 0x80)
  }

  predicate IsScalar(v: int)
  {
    0 <= v < 0xD800 || 0xE000 <= v < 0x110000
  }

  /** A sequence the decoder accepts in full assembles to a scalar value. */
  lemma AssembleIsScalar(bs: seq<Byte>, needed: nat)
    requires 1 <= needed <= 3 && |bs| > needed && Needed(bs[0]) == needed
    requires forall j :: 1 <= j <= needed ==> InRange(bs, j)
    ensures IsScalar(Assemble(bs, needed))
  {
    assert InRange(bs, 1);
    if needed >= 2 {
      assert InRange(bs, 2);
    }
    if needed == 3 {
      assert InRange(bs, 3);
    }
  }

  function ScalarAt(bs: seq<Byte>, needed: nat): char
    requires 1 <= needed <= 3 && |bs| > needed && Needed(bs[0]) == needed
    requires forall j :: 1 <= j <= needed ==> InRange(bs, j)
  {
    AssembleIsScalar(bs, needed);
    Assemble(bs, needed) as char
  }

  /** The decoder: well-formed sequences become their scalar value; a byte that starts nothing, or a
      sequence cut short by the end of input or by a byte out of range, becomes one U+FFFD, and the
      byte that cut it short is decoded afresh. */
  function Decode(bs: seq<Byte>): (s: string)
    ensures |s| <= |bs|
    decreases |bs|
  {
    if |bs| == 0 then ""
    else
      var n := Needed(bs[0]);
      if n == 0 then [bs[0] as char] + Decode(bs[1..])
      else if n == -1 then [Replacement] + Decode(bs[1..])
      else
        var k := Accepted(bs, 1, n);
        if k == n then [ScalarAt(bs, n)] + Decode(bs[n + 1..])
        else [Replacement] + Decode(bs[k + 1..])
  }

  lemma DivDiv(n: nat)
    ensures n / 4096 == n / 64 / 64
    ensures n / 262144 == n / 4096 / 64
  {
  }

  /** Decoding the bytes of one scalar value, followed by anything, yields that value first. */
  lemma DecodeEncodeChar(c: char, rest: seq<Byte>)
    ensures Decode(EncodeChar(c) + rest) == [c] + Decode(rest)
  {
    var e := EncodeChar(c);
    var bs := e + rest;
    assert bs[..|e|] == e && bs[|e|..] == rest;
    if !IsAscii(c) {
      var m := |e| - 1;
      assert forall j :: 0 <= j <= m ==> bs[j] == e[j];
      MultiByte(c, bs);
      assert Decode(bs) == [ScalarAt(bs, m)] + Decode(bs[m + 1..]);
    }
  }

  /** A non-ASCII scalar's bytes, at the front of any input, are accepted in full and assemble back. */
  lemma MultiByte(c: char, bs: seq<Byte>)
    requires !IsAscii(c)
    requires |bs| >= |EncodeChar(c)| && forall j :: 0 <= j < |EncodeChar(c)| ==> bs[j] == EncodeChar(c)[j]
    ensures var m := |EncodeChar(c)| - 1;
            Needed(bs[0]) == m && Accepted(bs, 1, m) == m && ScalarAt(bs, m) == c
  {
    var e := EncodeChar(c);
    var m := |e| - 1;
    assert bs[..m + 1] == e;
    EncodedLead(c);
    PrefixDecides(bs, m);
    AcceptedAll(bs, 1, m);
  }

  /** The bytes of a non-ASCII scalar value, on their own: lead, continuations in range, value. */
  lemma EncodedLead(c: char)
    requires !IsAscii(c)
    ensures var e := EncodeChar(c);
            var m := |e| - 1;
            1 <= m <= 3 && Needed(e[0]) == m && (forall j :: 1 <= j <= m ==> InRange(e, j)) &&
            Assemble(e, m) == c as int
  {
    var n := c as int;
    var e := EncodeChar(c);
    if n < 0x800 {
      TwoBytes(n, e);
    } else if n < 0x10000 {
      ThreeBytes(n, e);
    } else {
      FourBytes(n, e);
    }
  }

  /** What the decoder checks of a sequence depends only on its first `m + 1` bytes. */
  lemma PrefixDecides(bs: seq<Byte>, m: nat)
    requires 1 <= m <= 3 && |bs| > m
    ensures var p := bs[..m + 1];
            p[0] == bs[0] && Assemble(p, m) == Assemble(bs, m) &&
            forall j :: 1 <= j <= m ==> (InRange(p, j) <==> InRange(bs, j))
  {
  }

  lemma {:induction false} AcceptedAll(bs: seq<Byte>, i: nat, m: nat)
    requires 1 <= i <= m + 1 && m < |bs|
    requires forall j :: i <= j <= m ==> InRange(bs, j)
    ensures Accepted(bs, i, m) == m
    decreases m + 1 - i
  {
    if i <= m {
      AcceptedAll(bs, i + 1, m);
    }
  }

  lemma TwoBytes(n: int, b: seq<Byte>)
    requires 0x80 <= n < 0x800 && |b| == 2
    requires b[0] == 0xC0 + n / 64 && b[1] == 0x80 + n % 64
    ensures Needed(b[0]) == 1 && InRange(b, 1) && Assemble(b, 1) == n
  {
  }

  lemma ThreeBytes(n: int, b: seq<Byte>)
    requires 0x800 <= n < 0x10000 && IsScalar(n) && |b| == 3
    requires b[0] == 0xE0 + n / 4096 && b[1] == 0x80 + n / 64 % 64 && b[2] == 0x80 + n % 64
    ensures Needed(b[0]) == 2 && InRange(b, 1) && InRange(b, 2) && Assemble(b, 2) == n
  {
    DivDiv(n);
  }

  lemma FourBytes(n: int, b: seq<Byte>)
    requires 0x10000 <= n < 0x110000 && |b| == 4
    requires b[0] == 0xF0 + n / 262144 && b[1] == 0x80 + n / 4096 % 64
    requires b[2] == 0x80 + n / 64 % 64 && b[3] == 0x80 + n % 64
    ensures Needed(b[0]) == 3 && InRange(b, 1) && InRange(b, 2) && InRange(b, 3)
    ensures Assemble(b, 3) == n
  {
    DivDiv(n);
  }

  /** The decoder undoes the encoder. */
  lemma {:induction false} DecodeEncode(s: string)
    ensures Decode(Encode(s)) == s
    decreases |s|
  {
    if s != "" {
      DecodeEncodeChar(s[0], Encode(s[1..]));
      DecodeEncode(s[1..]);
      assert s == [s[0]] + s[1..];
    }
  }

  /** Hence two strings with the same bytes are equal. */
  lemma EncodeInjective(a: string, b: string)
    requires Encode(a) == Encode(b)
    ensures a == b
  {
    DecodeEncode(a);
    DecodeEncode(b);
  }
}

=== FILE: view_router.dfy ===
/** The view-key variant of the app (router.tsx, types.ts, components/PanelNav.tsx): the host query
    names one view per panel from a fixed list, and each panel's navigation bar moves its own key. */
module ViewRouter {
  import opened Wrappers
  import opened Strings
  import opened SplitJoin
  import opened Records

  /** `VIEW_KEYS`. */
  const ViewKeys: seq<string> :=
    ["home", "home/about", "home/contact", "dashboard", "dashboard/stats", "dashboard/settings", "help"]

  /** `SearchParams`: both panels always name a view. */
  datatype ViewSearch = ViewSearch(left: string, right: string)

  /** A raw value kept when it is a string in `VIEW_KEYS`, the fallback otherwise. */
  function KeepView(v: Raw, fallback: string): (r: string)
    ensures v.RawString? && v.s in ViewKeys ==> r == v.s
    ensures !(v.RawString? && v.s in ViewKeys) ==> r == fallback
  {
    if v.RawString? && v.s in ViewKeys then v.s else fallback
  }

  /** `validateSearch`: `left` defaults to `home`, `right` to `dashboard`; other keys are dropped. */
  function ValidateSearch(raw: RawQuery): (p: ViewSearch)
    ensures p.left in ViewKeys && p.right in ViewKeys
    ensures p.left == KeepView(RawLookup(raw, "left"), "home")
    ensures p.right == KeepView(RawLookup(raw, "right"), "dashboard")
  {
    ViewSearch(KeepView(RawLookup(raw, "left"), "home"), KeepView(RawLookup(raw, "right"), "dashboard"))
  }

  function AsRaw(p: ViewSearch): (raw: RawQuery)
    ensures RawLookup(raw, "left") == RawString(p.left) && RawLookup(raw, "right") == RawString(p.right)
  {
    map["left" := RawString(p.left), "right" := RawString(p.right)]
  }

  /** Validating a validated search changes nothing. */
  lemma ValidateIdempotent(raw: RawQuery)
    ensures ValidateSearch(AsRaw(ValidateSearch(raw))) == ValidateSearch(raw)
  {
  }

  /** A search both of whose values are view keys is a fixed point of the validation. */
  lemma ValidKeptAsIs(p: ViewSearch)
    ensures ValidateSearch(AsRaw(p)) == p <==> p.left in ViewKeys && p.right in ViewKeys
  {
  }

  /** `routeMap`: one route per view key, whose path is the key itself. */
  const RouteMap: map<string, string> := map k | k in ViewKeys :: k

  /** The route map covers exactly the view keys, so every validated search names two routes. */
  lemma RouteMapCoversViews(raw: RawQuery)
    ensures RouteMap.Keys == set k | k in ViewKeys
    ensures var p := ValidateSearch(raw); p.left in RouteMap && p.right in RouteMap
  {
  }

  // ----- PanelNav -----

  /** `currentPath.includes('/') ? currentPath.split('/').slice(0, -1).join('/') : null`. */
  function ParentPath(currentPath: string): (r: Option<string>)
    ensures r.Some? <==> '/' in currentPath
  {
    if '/' in currentPath then
      var parts := Split(currentPath, '/');
      Some(Join(parts[..|parts| - 1], '/'))
    else None
  }

  /** The parent is everything before the last `/`: the last segment and its `/` are dropped. */
  lemma ParentDropsLastSegment(currentPath: string)
    requires '/' in currentPath
    ensures ParentPath(currentPath) == Some(currentPath[..LastIndexOf(currentPath, '/')])
  {
    var parts := Split(currentPath, '/');
    SplitHasTwo(currentPath, '/');
    JoinOfSplit(currentPath, '/');
    JoinSnoc(parts, '/');
    var init := Join(parts[..|parts| - 1], '/');
    var last := parts[|parts| - 1];
    LastSeparator(init, last);
  }

  /** In `init/last` with no `/` in `last`, the last `/` is the one after `init`. */
  lemma LastSeparator(init: string, last: string)
    requires '/' !in last
    ensures var s := init + ['/'] + last;
            LastIndexOf(s, '/') == |init| && s[..|init|] == init
  {
    var s := init + ['/'] + last;
    assert s[|init|] == '/';
    forall j | |init| < j < |s| ensures s[j] != '/' {
      assert s[j] == last[j - |init| - 1];
    }
    LastIndexOfUnique(s, '/', |init|);
  }

  /** A child path's parent is the path it was made from. */
  lemma ParentOfChild(parent: string, segment: string)
    requires '/' !in segment
    ensures ParentPath(parent + "/" + segment) == Some(parent)
  {
    var p := parent + "/" + segment;
    assert p[|parent|] == '/';
    forall j | |parent| < j < |p| ensures p[j] != '/' {
      assert p[j] == segment[j - |parent| - 1];
    }
    LastIndexOfUnique(p, '/', |parent|);
    ParentDropsLastSegment(p);
    assert p[..|parent|] == parent;
  }

  /** The Back button shows only for a non-empty parent: a path with `/` only at its start has an
      empty parent and no button. */
  predicate BackShown(currentPath: string)
  {
    var p := ParentPath(currentPath);
    p.Some? && p.value != ""
  }

  lemma BackShownIff(currentPath: string)
    ensures BackShown(currentPath) <==> '/' in currentPath && LastIndexOf(currentPath, '/') > 0
  {
    if '/' in currentPath {
      ParentDropsLastSegment(currentPath);
    }
  }

  datatype PanelId = Left | Right

  /** `navigateTo(newPath)`: the search with this panel's key set to `newPath`, the other kept. */
  function NavigateTo(prev: ViewSearch, panelId: PanelId, newPath: string): (r: ViewSearch)
    ensures panelId == Left ==> r.left == newPath && r.right == prev.right
    ensures panelId == Right ==> r.right == newPath && r.left == prev.left
  {
    match panelId
    case Left => prev.(left := newPath)
    case Right => prev.(right := newPath)
  }

  /** After the host validates it, `navigateTo` lands on `newPath` exactly when it is a view key,
      and on the panel's default view otherwise; the other panel never moves. */
  lemma NavigateToValidated(prev: ViewSearch, panelId: PanelId, newPath: string)
    requires prev.left in ViewKeys && prev.right in ViewKeys
    ensures var r := ValidateSearch(AsRaw(NavigateTo(prev, panelId, newPath)));
            (panelId == Left ==>
               (r.right == prev.right && (r.left == newPath <==> newPath in ViewKeys || newPath == "home"))) &&
            (panelId == Right ==>
               (r.left == prev.left && (r.right == newPath <==> newPath in ViewKeys || newPath == "dashboard")))
  {
  }

  /** An entry of the navigation bar or of a sub-page list. */
  datatype NavEntry = NavEntry(caption: string, path: string)

  const NavEntries: seq<NavEntry> := [NavEntry("Home", "home"), NavEntry("Dash", "dashboard"), NavEntry("Help", "help")]

  /** A bar entry is active when the current path starts with its path. */
  predicate IsActive(currentPath: string, e: NavEntry)
  {
    StartsWith(currentPath, e.path)
  }

  /** `subItems[currentPath] || []`. */
  function SubItems(currentPath: string): (r: seq<NavEntry>)
    ensures currentPath != "home" && currentPath != "dashboard" ==> r == []
  {
    if currentPath == "home" then [NavEntry("About", "home/about"), NavEntry("Contact", "home/contact")]
    else if currentPath == "dashboard" then [NavEntry("Stats", "dashboard/stats"), NavEntry("Settings", "dashboard/settings")]
    else []
  }

  /** `path` is `parent` followed by `/` and one more segment. */
  predicate ChildPath(path: string, parent: string)
  {
    |parent| < |path| && path[..|parent|] == parent && path[|parent|] == '/' && '/' !in path[|parent| + 1..]
  }

  lemma ParentOfChildPath(path: string, parent: string)
    requires ChildPath(path, parent)
    ensures ParentPath(path) == Some(parent) && StartsWith(path, parent)
  {
    assert path == parent + "/" + path[|parent| + 1..];
    ParentOfChild(parent, path[|parent| + 1..]);
  }

  /** The views form a two-level tree: `home` and `dashboard` have two sub-pages each, `help` none. */
  lemma ViewTree()
    ensures ChildPath(ViewKeys[1], ViewKeys[0]) && ChildPath(ViewKeys[2], ViewKeys[0])
    ensures ChildPath(ViewKeys[4], ViewKeys[3]) && ChildPath(ViewKeys[5], ViewKeys[3])
    ensures '/' !in ViewKeys[0] && '/' !in ViewKeys[3] && '/' !in ViewKeys[6]
  {
  }

  /** A sub-page is a view one segment below the page listing it, so its parent is that page and
      the page's bar entry stays active on it. */
  lemma SubItemsAreChildren(currentPath: string)
    ensures forall i :: 0 <= i < |SubItems(currentPath)| ==>
              var path := SubItems(currentPath)[i].path;
              path in ViewKeys && ParentPath(path) == Some(currentPath) && StartsWith(path, currentPath)
  {
    ViewTree();
    var subs := SubItems(currentPath);
    if currentPath == ViewKeys[0] {
      assert subs == [NavEntry("About", ViewKeys[1]), NavEntry("Contact", ViewKeys[2])];
    } else if currentPath == ViewKeys[3] {
      assert subs == [NavEntry("Stats", ViewKeys[4]), NavEntry("Settings", ViewKeys[5])];
    }
    forall i | 0 <= i < |subs|
      ensures subs[i].path in ViewKeys && ParentPath(subs[i].path) == Some(currentPath) && StartsWith(subs[i].path, currentPath)
    {
      ParentOfChildPath(subs[i].path, currentPath);
    }
  }
  /** On any sub-page of a view, the bar entry for that view stays active. */
  lemma ActiveOnSubPages(currentPath: string, e: NavEntry)
    requires e.path == currentPath
    ensures forall i :: 0 <= i < |SubItems(currentPath)| ==> IsActive(SubItems(currentPath)[i].path, e)
  {
    SubItemsAreChildren(currentPath);
  }


  /** On a sub-page of a non-empty page the Back button shows and leads to that page. */
  lemma SubPageBack(currentPath: string, parent: string)
    requires ChildPath(currentPath, parent) && parent != ""
    ensures BackShown(currentPath) && ParentPath(currentPath) == Some(parent)
  {
    ParentOfChildPath(currentPath, parent);
  }

  /** The Back button shows on every view but the three top pages, and leads to a view. */
  lemma SubViewsBack(currentPath: string)
    requires currentPath in ViewKeys
    requires currentPath != ViewKeys[0] && currentPath != ViewKeys[3] && currentPath != ViewKeys[6]
    ensures BackShown(currentPath) && ParentPath(currentPath).value in ViewKeys
  {
    ViewTree();
    var k :| 0 <= k < |ViewKeys| && ViewKeys[k] == currentPath;
    if k == 1 || k == 2 {
      SubPageBack(currentPath, ViewKeys[0]);
    } else {
      SubPageBack(currentPath, ViewKeys[3]);
    }
  }

  /** On a top page there is no `/`, so no parent and no Back button. */
  lemma TopPageNoBack(currentPath: string)
    requires currentPath == ViewKeys[0] || currentPath == ViewKeys[3] || currentPath == ViewKeys[6]
    ensures ParentPath(currentPath).None? && !BackShown(currentPath)
  {
    ViewTree();
  }

  /** The bar's entries are views. */
  lemma NavEntriesAreViews()
    ensures forall i :: 0 <= i < |NavEntries| ==> NavEntries[i].path in ViewKeys
  {
  }

  /** From a view, the Back button shows exactly on the four sub-pages, and leads to a view. */
  lemma BackTargetsAreViews(currentPath: string)
    requires currentPath in ViewKeys
    ensures BackShown(currentPath) <==> currentPath != ViewKeys[0] && currentPath != ViewKeys[3] && currentPath != ViewKeys[6]
    ensures BackShown(currentPath) ==> ParentPath(currentPath).value in ViewKeys
  {
    if currentPath != ViewKeys[0] && currentPath != ViewKeys[3] && currentPath != ViewKeys[6] {
      SubViewsBack(currentPath);
    } else {
      TopPageNoBack(currentPath);
    }
  }
}

=== FILE: wrappers.dfy ===
/** Failure-compatible wrappers shared by every module of the model. */
module Wrappers {

  /** An optional value: JavaScript's `undefined` (or a missing property) is `None`. */
  datatype Option<+T> = None | Some(value: T) {

    /** The wrapped value, or `default` when absent (JavaScript's `x ?? default`). */
    function GetOr(default: T): T {
      match this
      case Some(v) => v
      case None => default
    }
  }

  /** The outcome of a computation that may throw: `Failure` carries the thrown error. */
  datatype Result<+R, +E> = Success(value: R) | Failure(error: E) {

    predicate IsFailure() {
      Failure?
    }

    function PropagateFailure<U>(): Result<U, E>
      requires Failure?
    {
      Failure(error)
    }

    function Extract(): R
      requires Success?
    {
      value
    }
  }
}
